=== FILE: README.md ===
# submititnow, modelled in Dafny

submititnow is a thin layer over the `submitit` scheduler client for SLURM clusters. It launches an
*experiment*: one array job per parameter record. It keeps a tab-separated *tracker* file with one
line per job, and it shows the jobs' states on the console. The `jt` tool works the other way:
it reads a tracker back, finds each job's submission script (`.sh`) and logs (`.out`, `.err`), and
infers the job's state from the last marker lines submitit and the scheduler wrote there.

This project models the logic between those I/O calls as pure Dafny functions over strings, maps
and sequences:

- `JobFiles` (jobfiles.dfy): splitting `<array>_<task>` job IDs, parsing `squeue` rows, and the
  substring matching that files each walked path under a key.
- `JobState` (jobstate.dfy): the priority-ordered classifier `load_job_states`, in both copies.
  The current copy is in `jt/utils.py`. The legacy copy is in `jt_utils.py` and differs in which
  standard-error lines it reads.
- `Tracker` (tracker.dfy): the tracker line format, `load_csv` with its `Exp ID` and the
  `Not Found in tracker` fill, and the filter / sort / limit of `prepare_job_states_df`.
- `Experiment` (experiment.dfy): `experiment_lib.Experiment`. It covers the configuration common
  to all jobs and its rendering, the directory layout, the profile registry, the checks `launch`
  makes, and `_assign_jobs` with the tracker lines it appends.
- `Umiacs` (umiacs.dfy): the five site profiles and their registry.
- `Options` (options.dfy): the declared options and `get_slurm_params`.
- `LegacyExperiment` (legacyexperiment.dfy): the older `experiment_utils` module. It covers the
  account switches and presets, the log directory, the sibling `.csv` tracker, and 3-field
  tracker lines.
- `Console` (console.dfy): carriage-return rendering of log lines, the job table with its state
  colours, and the waiting loop, stepped over a finite sequence of polled job states.
- Support modules: `Wrappers` (Option/Result), `Text` (Python `str.split`, `strip`, `int`),
  `Seqs` (`filter`), `OrderedMaps` (insertion-ordered dicts), and `PyValues` (the values an
  argparse namespace holds, with Python truthiness and `==`).

Inputs the code reads from the world become parameters:
- the list of walked paths;
- file contents (a function from path to lines);
- the `squeue` output lines;
- environment variables and the home directory;
- the jobs the scheduler returns (ID and start time);
- the states successive polls report.

Python exceptions become `Result` failures that name the exception.

For pickles (`.pkl` files) the code means to file them under the last `_` word of the name, but
the line that does so has no effect (see Findings). The model follows the code as written:
`JobFiles.FindJobFiles`, and through it the classifier, files every path that names the job's tag
under the text after its last `.`, pickles included. The intended filing is modelled beside it as
`JobFiles.CorrectedFindJobFiles`.

## Model

| member | source | states |
|---|---|---|
| JobFiles.ArrayId | submititnow/jt/utils.py:20 | the array ID is the prefix of the job ID before its first `_` (the whole ID when it has none) |
| JobFiles.RunningJobIds | submititnow/jt/utils.py:17-20 | the header row is dropped; each later row gives the array ID of its first whitespace-separated word; a blank row is an `IndexError` and fails the listing |
| JobFiles.QueueRowIds | submititnow/jt/utils.py:20 | one array ID per queue row, in order; fails exactly when some row is all whitespace |
| JobFiles.SplitJobTask | submititnow/jt/utils.py:47-51 | `a_b` gives job `a`, task `b`; an ID without `_` gets task `0`; two or more `_` fail to unpack |
| JobFiles.CollectLastWins | submititnow/jt/utils.py:32-44 | a key is in the files dict iff some path was filed under it, and it holds the last such path |
| JobFiles.FindJobFiles | submititnow/jt/utils.py:31-44 | the found keys are exactly the keys some walked path is filed under (a `.sh` path naming the job is `sh`; any other path naming the tag, pickles included, goes under the text after its last `.`); each holds the last such path |
| JobFiles.JobFilepath | submititnow/jt/utils.py:55-56 | an ID that cannot be split fails with the split error; otherwise the result is the path walked last among those filed under the kind, and a `KeyError` on the kind iff no walked path is filed under it |
| JobFiles.FiledPathNamesTheJob | submititnow/jt/utils.py:35-37 | any path filed for a job contains the job's ID |
| JobFiles.FoundFilesNameTheJob | submititnow/jt/utils.py:31-44 | every path `find_job_files` returns contains the job's ID |
| JobFiles.PklBranchCollapses | submititnow/jt/utils.py:38-43 | as written, the pickle branch files a path under the same key as every other path: the text after its last `.` |
| JobFiles.WrittenPicklesCollide | submititnow/jt/utils.py:38-41 | as written, `<tag>_submitted.pkl` and `<tag>_result.pkl` are both filed under `pkl`, so one hides the other |
| JobFiles.PickleExtension | submititnow/jt/utils.py:38-39 | a name ending in `.pkl` has extension `pkl`, and its stem is the name without it |
| JobFiles.PickleFiledUnderItsKind | submititnow/jt/utils.py:39-41 | corrected: a pickle `<tag>_<kind>.pkl` is filed under `<kind>`, so pickles of different kinds get different keys |
| JobFiles.WrittenFinderKeepsOnePickle | submititnow/jt/utils.py:31-44 | as written, a walk that finds a job's pickles of two kinds leaves one entry, `pkl`, holding the pickle walked later |
| JobFiles.CorrectedFinderKeepsBothPickles | submititnow/jt/utils.py:38-41 | corrected: the same walk keeps both pickles, each under its own kind |
| JobFiles.PickleLookupGetsTheLaterPickle | submititnow/jt/utils.py:38-41 | as written, asking for file type `pkl` after a walk over a job's two pickles gives the pickle walked later, and asking for a pickle's own kind is a `KeyError` |
| JobFiles.CorrectedFindJobFiles | submititnow/jt/utils.py:31-44 | corrected: the found keys are exactly the keys some walked path is filed under by the corrected key, each holding the last such path |
| JobState.SplitStatus | submititnow/jt/utils.py:90 | `prefix, msg = line.split(" - ")` succeeds iff the line has a `" - "` and none follows the leftmost one (so `a - - b` gives `a` and `- b`); the prefix is the text before the leftmost `" - "` and the message all text after it; otherwise the unpack fails with the line |
| JobState.OverlappingSeparatorSplits | submititnow/jt/utils.py:90 | `"a - - b".split(" - ")` is `["a", "- b"]`, so the line unpacks although it holds two overlapping `" - "` |
| JobState.LoadJobState | submititnow/jt/utils.py:59-110 | a lookup error exactly when the ID cannot be split or a queue row is blank; UNSUBMITTED exactly when no script is found; with a script but no output log, PENDING when the array ID is queued and CANCELLED before start exactly when it is not; a `KeyError` on `err` exactly when an output log has no error log; with all three files found, the decision of the logs' marker lines (as the Decide lemmas below characterise), the only place an unpackable status line can arise |
| JobState.LookupErrorsComeFirst | submititnow/jt/utils.py:59-62 | an ID that cannot be split, or a blank queue row, fails the classification before any file is looked at |
| JobState.NoScriptMeansUnsubmitted | submititnow/jt/utils.py:64-65 | with no submission script found the job is UNSUBMITTED, whatever its logs and the queue say |
| JobState.ScriptWithoutOutput | submititnow/jt/utils.py:67-71 | a script without an output log is PENDING iff the job's array ID is queued, and CANCELLED (before starting execution) iff it is not |
| JobState.OutputWithoutErrorLog | submititnow/jt/utils.py:73-74 | an output log without an error log is a `KeyError` on `err` |
| JobState.OnlyMarkerLinesCount | submititnow/jt/utils.py:76-85 | logs with the same `submitit ` lines and the same step lines classify the same |
| JobState.NoStatusLineMeansPending | submititnow/jt/utils.py:87-88 | an output log without any `submitit ` line means PENDING |
| JobState.MalformedLastStatusLine | submititnow/jt/utils.py:90 | a last status line without `" - "` cannot be unpacked, whatever the error log says |
| JobState.CompletionWins | submititnow/jt/utils.py:95-96 | `completed successfully` in the last message gives COMPLETED, over any error log |
| JobState.ExceptionWins | submititnow/jt/utils.py:98-99 | otherwise `triggered an exception` gives FAILED: Triggered an Exception, over any error log |
| JobState.StepErrorDecides | submititnow/jt/utils.py:92-93 | then a last step line containing `error` decides: cancelled by the user if it says `CANCELLED`, else failed with the stripped text after its fourth `:`, or after its last `:` when it has fewer |
| JobState.StartupOrRaw | submititnow/jt/utils.py:107-110 | otherwise `Loading` or `Starting` gives RUNNING, and any other message is returned raw |
| JobState.LegacyStepLinesAreCurrent | submititnow/jt_utils.py:77 | every error-log line the legacy copy reads is one the current copy reads |
| JobState.VariantsAgree | submititnow/jt_utils.py:56-102 | the two copies classify every job alike unless an error-log line has `slurmstepd: ` somewhere other than at its start |
| JobState.EmbeddedMarkerSplitsVariants | submititnow/jt/utils.py:80-85 | a line with `slurmstepd: ` inside it, `error` and `CANCELLED` makes the current copy say cancelled by the user where the legacy copy says RUNNING |
| Tracker.LoadCsv | submititnow/jt/utils.py:136-144 | the file fails to load iff some data line does (a line that is neither empty nor spaces alone); otherwise one row per data line, in order, each as that line loads, with the `Exp ID` its Job ID's array part reads as |
| Tracker.SpacesOnlyLineSkipped | submititnow/jt/utils.py:138-140 | a line of spaces alone, like an empty one, is skipped by `read_csv` and adds no row |
| Tracker.LoadLines | submititnow/jt/utils.py:138-144 | one row per data line, in order; the file fails to load iff some line does |
| Tracker.RowRoundTrip | submititnow/experiment_lib.py:131-138 | a 4-field line written by `_update_tracker` loads back with the same time, Job ID, description and configuration, provided no field holds a tab, a line break or a `"` and none is one of pandas' missing-value markers (the empty string, `None`, `NA`, `nan` and the rest of its default list) |
| Tracker.LegacyRowLoadsAsNotFound | submititnow/experiment_utils.py:126 | a 3-field legacy line loads back with its fields and `Not Found in tracker` as its configuration |
| Tracker.DataLinesAppend | submititnow/experiment_lib.py:130 | appending to a tracker that ends in a newline leaves its existing lines as they were |
| Tracker.AppendedRowsLoad | submititnow/experiment_lib.py:130-138 | appended tracker lines come back after the existing lines, one per appended row |
| Tracker.AppendedTrackerLoads | submititnow/jt/utils.py:136-144 | loading an appended tracker gives the old rows followed by the new rows as loaded |
| Tracker.Insert | submititnow/jt/utils.py:149 | inserting into rows ordered by descending Exp ID keeps them ordered and adds exactly that row |
| Tracker.SortByExpId | submititnow/jt/utils.py:149 | the sorted rows are a permutation of the input, ordered by descending Exp ID |
| Tracker.Head | submititnow/jt/utils.py:150-151 | `head(n)` is the first `n` rows, or all but the last `-n` rows when `n` is negative |
| Tracker.Chosen | submititnow/jt/utils.py:148 | a truthy `exp_id` keeps every copy of each row of that experiment and nothing else, in the tracker's order; `None` or `0` keeps every row |
| Tracker.SelectRows | submititnow/jt/utils.py:146-151 | the rows shown are in descending `Exp ID` order, drawn from the tracker's rows with no row shown more often than it appears, and with a truthy `exp_id` all of that experiment |
| Tracker.SelectRowsSpec | submititnow/jt/utils.py:146-151 | the rows shown are the chosen rows ordered by descending Exp ID: all of them when `max_rows` is -1, else `head(max_rows)` of them (`max_rows` rows or all when fewer; for a negative `max_rows` all but the last `-max_rows`), and no chosen row left out has a larger Exp ID than a row shown |
| Tracker.StatesOf | submititnow/jt/utils.py:152 | each row gets the state `load_job_states` infers from its Job ID; the column fails iff some row's inference does |
| Tracker.PrepareJobStates | submititnow/jt/utils.py:146-154 | the table fails iff the state of some selected row cannot be inferred; otherwise it has one row per selected row |
| Tracker.PreparedRowsCarryTheirState | submititnow/jt/utils.py:146-154 | every row of the prepared table is a selected tracker row next to its inferred state |
| Experiment.NewExperiment | submititnow/experiment_lib.py:17-34 | a new experiment has no jobs, descriptions, profiles or experiment ID |
| Experiment.ExperimentPaths | submititnow/experiment_lib.py:52-62 | two experiments share a tracker (or a log directory) iff they share a name, whatever `submititnow_dir` they were given; the tracker is never the log directory |
| Experiment.Remove | submititnow/experiment_lib.py:44 | `del common_params[k]` drops exactly key `k` and keeps the order of the rest |
| Experiment.PruneSpec | submititnow/experiment_lib.py:42-44 | after one later record, an entry of the common configuration stays iff that record lacks its key or has an equal value |
| Experiment.CommonConfigSpec | submititnow/experiment_lib.py:40-44 | the common configuration keeps an entry of the first record iff every later record lacks its key or has an equal value; keys found only in later records never appear, and the first record's order is kept |
| Experiment.RepeatedFirstRecordChangesNothing | submititnow/experiment_lib.py:40-44 | adding a copy of the first record to the later records changes nothing |
| Experiment.PruneKeeps | submititnow/experiment_lib.py:42-44 | a record that agrees with every entry removes nothing |
| Experiment.CommonConfigKeeps | submititnow/experiment_lib.py:40-44 | a configuration the later records all agree with is its own common configuration |
| Experiment.PrunedFirstRecordDescribesTheSame | submititnow/experiment_lib.py:40-44 | after the pruning is done in place on the first record, computing the description again gives the same text, so every tracker line gets the same configuration |
| Experiment.TokenInjective | submititnow/experiment_lib.py:48 | two tokens for the same key are equal only for equal values |
| Experiment.RenderedValueInjective | submititnow/experiment_lib.py:48 | different values render differently |
| Experiment.FirstRenderedChar | submititnow/experiment_lib.py:48 | a rendered string value starts with a quote, and an integer, a boolean or `None` is told apart by its first character |
| Experiment.Tokens | submititnow/experiment_lib.py:46-49 | one token per entry of the common configuration, in order |
| Experiment.Description | submititnow/experiment_lib.py:36-50 | the description is `<module>.<qualname>( … )` around the tokens of the common configuration (as Experiment.CommonConfigSpec characterises it) joined by `, `; with no parameter records it is an `IndexError` |
| Experiment.SingleJobDescription | submititnow/experiment_lib.py:40-50 | with one record, every field is rendered, in order |
| Experiment.RegisterProfileHandler | submititnow/experiment_lib.py:64-67 | afterwards the name answers with the new handler and every other name with its old one; the name is added at the end if new and the name list kept otherwise; no other field of the experiment changes |
| Experiment.RegisterOverwrites | submititnow/experiment_lib.py:67 | after registering a name twice the last handler answers for it, and every other name keeps its handler |
| Experiment.ParseWaitMode | submititnow/experiment_lib.py:86-89 | `wait_until` is accepted iff it is `none`, `submitted`, `running` or `done`, and a `ValueError` otherwise |
| Experiment.WaitModeRoundTrip | submititnow/experiment_lib.py:86 | every wait mode is accepted under its own name |
| Experiment.ResolveProfile | submititnow/experiment_lib.py:91-100 | an absent or falsy `slurm_profile` leaves the parameters as they are; a truthy one is removed and the registered handler's output used; an unregistered one is a `ValueError` naming the registered profiles |
| Experiment.UmiacsProfileApplied | submititnow/experiment_lib.py:91-95 | under a UMIACS profile the executor gets no `slurm_profile`, every other value the caller gave, and the profile's defaults where the caller gave none |
| Experiment.TimeField | submititnow/experiment_lib.py:128 | the time field is the start time up to, not including, its first `.`, or all of it when it has none |
| Experiment.AssignPairs | submititnow/experiment_lib.py:117-119 | the pairing keeps both dicts free of duplicate keys |
| Experiment.AssignPairsAligned | submititnow/experiment_lib.py:117-119 | jobs and descriptions are stored under the same IDs, in the same order |
| Experiment.AssignPairsUnpaired | submititnow/experiment_lib.py:117-119 | IDs that `zip` never reaches keep what they had |
| Experiment.AssignPairsPaired | submititnow/experiment_lib.py:117-119 | job `i`'s ID maps to job `i` and to description `i` |
| Experiment.TrackerRows | submititnow/experiment_lib.py:121-138 | one line per job in order: its time field, its ID, its description and the shared configuration; it fails iff a job has no description or there are no parameter records |
| Experiment.AssignJobs | submititnow/experiment_lib.py:115-122 | the experiment ID is the first job's array ID; the jobs and descriptions dicts are the pairing's; rendering the tracker lines leaves the first parameter record pruned to the common configuration (submititnow/experiment_lib.py:40-44, 135) and the later records as they were; no other field changes; no jobs is an error; the tracker text is only appended to |
| Experiment.AssignmentPrunesFirstRecord | submititnow/experiment_lib.py:40-44 | after `_assign_jobs` the first record is its own common configuration, the later records are untouched, and the description rendered from the pruned records is the one the tracker lines carry |
| Experiment.AssignmentDropsDisagreeingKey | submititnow/experiment_lib.py:40-44 | with records `a=1, b=2` and `a=1, b=3`, the experiment left behind has `a=1` alone as its first record, so a later launch submits and describes job 0 without `b` |
| Experiment.AssignedRowsCarryDescriptions | submititnow/experiment_lib.py:117-122 | with distinct IDs and enough descriptions, line `i` carries job `i`'s ID and description `i` |
| Experiment.AssignedRowsLoadable | submititnow/experiment_lib.py:127-138 | every line written loads back as job `i`'s row, with the shared configuration |
| Experiment.AssignedTrackerLoads | submititnow/experiment_lib.py:127-138 | after `_assign_jobs`, `load_csv` gives the old rows followed by one row per job, in order |
| Experiment.Launch | submititnow/experiment_lib.py:69-108 | the wait mode is checked before the profile; the executor gets the resolved parameters; the launch succeeds iff the mode, the profile and the assignment of one description per record (taken before any pruning) succeed, and leaves that assignment's experiment, whose first record is pruned, and tracker |
| Experiment.LaunchedTrackerLoads | submititnow/experiment_lib.py:105-108 | after a launch, `load_csv` gives the old rows followed by one row per submitted job, in order, each with its own record's description and the common configuration |
| Umiacs.Merge | submititnow/umiacs/handlers.py:5-9 | `{**defaults, **params}` has the keys of both, the caller's value where both have one |
| Umiacs.ClipProfileHandler | submititnow/umiacs/handlers.py:4-9 | the caller's keys plus account and partition `clip`, each value the caller gave kept, the defaults filling only what the caller left out |
| Umiacs.ScavengerProfileHandler | submititnow/umiacs/handlers.py:12-18 | the caller's keys plus account, partition and qos `scavenger`, each value the caller gave kept, the defaults filling only what the caller left out |
| Umiacs.CmlZhouProfileHandler | submititnow/umiacs/handlers.py:21-26 | the caller's keys plus account `cml-zhou`, partition `cml-dpart`, each value the caller gave kept, the defaults filling only what the caller left out |
| Umiacs.CmlProfileHandler | submititnow/umiacs/handlers.py:29-34 | the caller's keys plus account `cml`, partition `cml-dpart`, each value the caller gave kept, the defaults filling only what the caller left out |
| Umiacs.CmlScavengerProfileHandler | submititnow/umiacs/handlers.py:37-43 | the caller's keys plus account, partition and qos `cml-scavenger`, each value the caller gave kept, the defaults filling only what the caller left out |
| Umiacs.RegistryProfiles | submititnow/umiacs/handlers.py:46-52 | the registry holds exactly the five profile names, each once, and each name's handler merges that profile's defaults |
| Umiacs.MergeIdempotent | submititnow/umiacs/handlers.py:4-43 | merging the same defaults twice is merging once |
| Umiacs.HandlerSpec | submititnow/umiacs/handlers.py:4-43 | every handler keeps each value the caller gave, `None` included; its keys are the defaults' and the caller's; a default appears exactly where the caller gave no value; applying it twice is applying it once |
| Umiacs.ProfileKeys | submititnow/umiacs/handlers.py:4-43 | scavenger and cml-scavenger set account, partition and qos; clip, cml and cml-zhou set only account and partition |
| Umiacs.CmlProfilesShareThePartition | submititnow/umiacs/handlers.py:21-34 | cml and cml-zhou use partition `cml-dpart` under different accounts |
| Options.DefaultNamespace | submititnow/options.py:5-31 | with no option given every declared attribute is `None` |
| Options.GetSlurmParams | submititnow/options.py:34-35 | the keys kept are exactly those starting with `slurm_`, with their values unchanged |
| Options.GetSlurmParamsIdempotent | submititnow/options.py:35 | filtering twice gives the same result |
| Options.SlurmParamsOfDeclaredOptions | submititnow/options.py:5-35 | `exp_name` and `submititnow_dir` never pass the filter; every declared slurm option, `slurm_profile` included, passes with its value |
| Options.DefaultSlurmParams | submititnow/options.py:5-22 | with no option given the slurm parameters are the seven slurm attributes, all `None`, so no profile is applied |
| LegacyExperiment.TrimTrailingSlashes | submititnow/experiment_utils.py:10 | only trailing `/` characters are removed |
| LegacyExperiment.DefaultSubmititLogDir | submititnow/experiment_utils.py:10 | the default log directory is the home directory without trailing `/`, followed by exactly `/.submitit/logs` |
| LegacyExperiment.DefaultLogDir | submititnow/experiment_utils.py:17-18 | `SUBMITIT_LOG_DIR` wins when set, else the default |
| LegacyExperiment.GetSubmititLogDir | submititnow/experiment_utils.py:39-40 | a truthy `submitit_log_dir` argument wins, else the default; a namespace without that attribute is an `AttributeError` |
| LegacyExperiment.GetSlurmParams | submititnow/experiment_utils.py:43-54 | the `slurm_` attributes are kept; a truthy `scavenger` sets the account to scavenger, a truthy `clip` to clip, and clip wins when both are set; a missing switch is an `AttributeError` |
| LegacyExperiment.LaunchPresets | submititnow/experiment_utils.py:87-94 | account scavenger also sets partition and qos to scavenger; clip sets only the partition; other accounts change nothing; a missing account is a `KeyError` |
| LegacyExperiment.PresetsNeedStringAccount | submititnow/experiment_utils.py:89-93 | an account that is not a string never triggers a preset |
| LegacyExperiment.ScavengerSwitchSelectsScavengerQueue | submititnow/experiment_utils.py:43-54 | the scavenger switch alone leads `launch` to account, partition and qos all scavenger |
| LegacyExperiment.PathJoin | submititnow/experiment_utils.py:81 | `os.path.join` of two parts: an absolute second part replaces the first; otherwise exactly one `/` separates them |
| LegacyExperiment.NewLegacyExperiment | submititnow/experiment_utils.py:61-77 | a falsy log directory falls back to the default; no jobs or descriptions yet |
| LegacyExperiment.TrackerBesideExpDir | submititnow/experiment_utils.py:79-85 | the tracker sits beside the experiment directory, not inside it; both are under the log directory when the name is relative |
| LegacyExperiment.LegacyRows | submititnow/experiment_utils.py:117-126 | one 3-field line per job, in order; a job without a description is a `KeyError` |
| LegacyExperiment.AssignJobs | submititnow/experiment_utils.py:112-118 | no jobs changes nothing; otherwise the jobs and descriptions dicts are the pairing's, the lines are appended to the tracker text, and no experiment ID is kept |
| LegacyExperiment.UnpairedJobFails | submititnow/experiment_utils.py:113-118 | a job beyond the descriptions, with none stored earlier, fails with a `KeyError` |
| LegacyExperiment.LegacyRowsCarryDescriptions | submititnow/experiment_utils.py:113-118 | with distinct IDs and enough descriptions, line `i` carries job `i`'s ID and description `i` |
| LegacyExperiment.LegacyRowsLoadable | submititnow/experiment_utils.py:123-126 | every legacy line loads back as job `i`'s row with `Not Found in tracker` as its configuration |
| LegacyExperiment.LegacyTrackerLoads | submititnow/experiment_utils.py:112-126 | after `assign_jobs`, `load_csv` gives the old rows followed by one row per job |
| LegacyExperiment.Launch | submititnow/experiment_utils.py:87-110 | the presets are applied before submission and a missing account stops the launch; the launch succeeds iff the presets and the assignment of the descriptions `job_params` still yields succeed, and leaves that assignment's experiment and tracker |
| LegacyExperiment.OneShotParamsFail | submititnow/experiment_utils.py:99-118 | job parameters given as a generator are used up by building `tasks`, so no description is paired and the first job without an earlier description fails with a `KeyError` |
| LegacyExperiment.LegacyLaunchedTrackerLoads | submititnow/experiment_utils.py:99-126 | after a launch with a list of parameters, `load_csv` gives the old rows followed by one row per submitted job, each with its own record's description |
| Console.Overwrite | submititnow/cli.py:26-27 | writing a chunk at offset 0 replaces the buffer's prefix and keeps the rest |
| Console.RenderLength | submititnow/cli.py:24-28 | a rendered line is as long as its longest `\r` chunk |
| Console.RenderCharacter | submititnow/cli.py:24-28 | each position of a rendered line holds that position's character from a chunk long enough to reach it |
| Console.PlainLineUnchanged | submititnow/cli.py:25-28 | a line without `\r` is shown unchanged |
| Console.TrailingReturnIgnored | submititnow/cli.py:25-28 | a line ending in `\r` is shown as its content, because the empty last chunk overwrites nothing |
| Console.LongerRedrawReplaces | submititnow/cli.py:25-28 | a redraw at least as long as what is shown replaces it entirely |
| Console.ShowFileContent | submititnow/cli.py:21-28 | one rendered line per `\n` line of the file, in order |
| Console.PlainTextShownAsIs | submititnow/cli.py:21-28 | a file without `\r` is shown line by line as it is, and joining the lines gives the file back |
| Console.StateColor | submititnow/cli.py:50-56 | exactly the five states UNKNOWN, PENDING, RUNNING, COMPLETED and FAILED have a colour; any other state is a `KeyError` |
| Console.StateColorsDistinct | submititnow/cli.py:50-56 | different states get different colours |
| Console.InfoCells | submititnow/cli.py:42-48 | an empty job info gives UNKNOWN and an orange UNKNOWN node list; otherwise State and NodeList, or a `KeyError` without them |
| Console.JobTableRow | submititnow/cli.py:39-69 | a row shows the job ID, the experiment's description, the job's description and the coloured state; it fails without a description, a parameter record or a colour |
| Console.Table | submititnow/cli.py:31-71 | one row per job in `exp.jobs` order; the table fails iff some row does |
| Console.UncolouredStateStopsTheTable | submititnow/cli.py:50-56 | a job reporting a state without a colour stops the whole table |
| Console.LaunchedTableDraws | submititnow/cli.py:39-70 | after a launch, whenever every job reports one of the five states, the table draws |
| Console.WaitingStates | submititnow/cli.py:92-98 | UNKNOWN is waited on for submitted, running and done; PENDING for running and done; RUNNING only for done; nothing else, and nothing for any other mode |
| Console.WaitingStatesNest | submititnow/cli.py:92-98 | none waits for nothing; submitted, running and done each wait for one state more than the last; no mode waits on COMPLETED or FAILED |
| Console.Start | submititnow/cli.py:101-102 | the loop starts with every launched job queued and none set aside |
| Console.Pass | submititnow/cli.py:104-112 | the loop body over the queue computes one pass, as characterised in Console.PassSpec |
| Console.PassSpec | submititnow/cli.py:104-112 | one pass removes exactly the queued jobs whose polled state is not waited on; the queue never grows; the wait is over iff nothing queued was waiting |
| Console.StateAfterDisjoint | submititnow/cli.py:101-112 | queued and set-aside jobs stay apart, and the queue only shrinks |
| Console.Run | submititnow/cli.py:100-113 | the loop exits only after one of the polled passes, and then with no job left queued (its full characterisation is Console.RunSpec) |
| Console.RunExited | submititnow/cli.py:103-112 | the loop exits after the first pass whose queue comes out empty |
| Console.RunStillWaiting | submititnow/cli.py:103-112 | while the loop has not exited, some job stays queued after every pass |
| Console.RunSpec | submititnow/cli.py:103-112 | the loop exits iff some pass leaves the queue empty, and then after the first such pass |
| Console.RunReadsOnlyWatchedJobs | submititnow/cli.py:106-112 | a job removed from the queue is never polled again by the loop, so its later polled states cannot change when or in what state the loop exits; the table redraws still read every job, as Console.Display models |
| Console.NothingToWaitFor | submititnow/cli.py:92-112 | with mode none or no jobs the loop exits after one pass |
| Console.ExitsByAllClearPoll | submititnow/cli.py:103-112 | a poll in which no job is in a waiting state ends the loop by then |
| Console.WaitLoop | submititnow/cli.py:100-113 | the loop run pass by pass computes the same outcome as the step function |
| Console.Watch | submititnow/cli.py:100-113 | a first pass that starts with a job queued and cannot draw its table raises that drawing's error; any error raised is the error of some pass's drawing |
| Console.WatchAgreesWithRun | submititnow/cli.py:100-113 | when the redraws inside the loop succeed, the loop ends as the step function says |
| Console.WatchFails | submititnow/cli.py:104-111 | the wait raises iff some pass starts with a job still queued and that pass's drawing of the table fails |
| Console.RaisingShift | submititnow/cli.py:103-112 | after a pass, which of the later passes raise is the same whether counted from the new state or from the start |
| Console.RaisingTables | submititnow/cli.py:104-111 | no pass raises iff every pass that starts with a job still queued can draw the table from its snapshot of the job infos |
| Console.Display | submititnow/cli.py:100-113 | the display succeeds iff the first table and every redraw of a pass that runs succeed, and then ends as the step function says |
| Console.UncolouredStateEndsTheWait | submititnow/cli.py:50-56 | a job the first pass finds timed out, cancelled or in any other uncoloured state ends the wait with a `KeyError`, whatever mode is waited for |
| Text.Split | submititnow/jt/utils.py:49 | `str.split(sep)`: at least one piece, none containing the separator |
| Text.SplitJoin | submititnow/experiment_lib.py:137 | splitting tab-joined fields without tabs gives the fields back |
| Text.JoinSplit | submititnow/cli.py:23 | joining the pieces of a split gives the text back |
| Text.LastOfSplitNPieces | submititnow/jt/utils.py:93 | `split(":", 4)[-1]` is the text after the fourth `:`, or after the last one when there are fewer |
| Text.StripSlice | submititnow/jt/utils.py:93 | `strip()` removes leading and trailing whitespace only |
| Text.FirstWord | submititnow/jt/utils.py:20 | `strip().split()[0]` is the first whitespace-free word; an all-whitespace row has none |
| Text.ParseIntToString | submititnow/jt/utils.py:142 | `int()` reads back the decimal text of any integer |
| OrderedMaps.GetPut | submititnow/experiment_lib.py:67 | `d[k] = v` answers `v` for `k` and leaves every other key as it was |
| OrderedMaps.Put | submititnow/experiment_lib.py:118-119 | assigning to a dict keeps a known key in place and adds a new one at the end |
| Seqs.FilterSpec | submititnow/jt/utils.py:77 | `filter` keeps every copy of each line that passes and none of the others, in their order |

## Left out

- File and process I/O: walking the log tree, reading logs, `squeue` through `os.popen`, `mkdir`
  and appending to the tracker. These are parameters: the walked paths, a function from path to
  lines, the `squeue` lines, and the tracker text before and after.
- The `submitit` client (`AutoExecutor`, `update_parameters`, `map_array`/`submit_array`,
  `get_info`, `state`). The jobs it returns, their infos and their polled states are inputs.
- Clocks: `job._start_time` and `datetime.now` are an opaque start-time string per job.
- Environment variables (`SUBMITITNOW_DIR`, `SUBMITIT_LOG_DIR`, `USER`) and the home directory
  are parameters. `experiment_lib` paths are lists of components, not parsed `Path`s.
- Experiment.SubmititnowRoot: `SUBMITITNOW_DIR` and its `~/.submititnow` fallback are kept as
  text. The `expanduser()` of submititnow/jt/utils.py:10-12 is not modelled, so a leading `~`
  stays. The legacy `DEFAULT_SUBMITIT_LOG_DIR` does expand `~`, through the home-directory
  parameter of LegacyExperiment.DefaultSubmititLogDir.
- pandas: quoting, type inference and the implicit index are not modelled. Lines are split on
  tabs, empty lines and lines of spaces alone are skipped, and pandas' default missing-value tokens read as missing fields.
- Tracker.SortByExpId: pandas' default sort makes no promise about the order of rows with equal
  Exp IDs. The model fixes one order, and its contract promises only the ordering and the
  permutation.
- Text.ParseIntToString: `int()` also accepts underscores and non-ASCII digits. The model strips
  surrounding whitespace, then reads an optional `+` or `-` followed by ASCII digits.
- Experiment.Launch: the default `job_desc_function` is `str()` of a namespace. The model takes
  the description function as part of the experiment. `verbose` and the console display it
  starts are modelled separately, in Console.
- Experiment.ExperimentPaths: paths are lists of components, so the lemma treats a name as one
  opaque component. `pathlib` would normalise names holding `/`, `.` or nothing (`a`, `a/` and
  `./a` give one directory), and for those names "same tracker iff same name" does not hold.
- Experiment.ResolveProfile: `del slurm_params["slurm_profile"]` also removes the key from the
  caller's dict. The model returns the new parameters and does not model that aliasing.
- Experiment.AssignJobs: a failure part-way leaves the earlier tracker lines, the new dict
  entries and, once one line is written, the pruned first record in place. The model reports the
  failure and discards the partial result.
- LegacyExperiment.AssignJobs: a `KeyError` part-way leaves the earlier tracker lines written.
  The model discards them.
- Experiment.PrunedFirstRecordDescribesTheSame: the in-place `del` on `vars(job_params[0])` is
  modelled by its effect on the experiment's first record. It is not modelled as object
  identity: `list(job_params)` copies only the list, so the caller's own namespace is pruned too,
  and the model does not show that.
- Values in namespaces and dicts are strings, integers, booleans and `None`. Floats and other
  objects are not modelled, nor is `==` between them.
- Console: rich markup is kept as text. Printing, `Live`, `refresh_per_second`, `time.sleep`
  and the launch banner (submititnow/cli.py:74-90) are not modelled.
- Console.Watch: each pass redraws the table from one snapshot of the job infos, while the code
  asks the scheduler again for every watched job. A snapshot from which no table can be drawn
  ends the wait with the table's error, as in the code.
- Console.Run: the loop runs over a finite sequence of polls. A loop that never exits is
  represented by the `StillWaiting` outcome after the last poll, not by an infinite run.
- argparse: the option groups are not modelled. The declared options (submititnow/options.py:5-31,
  submititnow/experiment_utils.py:21-36) appear only as the names they declare and their `None`
  defaults.
- `JTExp.exists` and the jt path properties beyond the tracker file are not modelled. `load_csv`
  is modelled over the tracker text.
- submititnow/jt_utils.py is not importable: line 7 imports `get_default_submititnow_dir`, which
  `experiment_utils.py` does not define. Its classifier is modelled as the `Legacy` variant for
  comparison. `get_job_ids` and `show_job_states` (hard-coded user, printing) are not modelled.
- `load_job_trackers` is an unimplemented stub in both copies and is not modelled.
- The examples and setup.py are not part of this model.
- Concurrent writers of one tracker are not modelled: nothing in the code synchronises them.

## Findings

| source | as written | input that shows it | evidently intended | confidence | as-written member | corrected member |
|---|---|---|---|---|---|---|
| submititnow/jt/utils.py:38-41 (also submititnow/jt_utils.py:35-38) | `name = ext = path.rsplit(".")[-1]` binds `name` to the extension, so the pickle branch files every pickle under `pkl.rsplit("_")[-1]`, that is `pkl` | a log tree holding `<tag>_submitted.pkl` and `<tag>_result.pkl`: both are filed under `pkl`, and the later one hides the earlier | `name` is the file name without its extension, so each pickle is filed under the last `_` word of its stem (`submitted`, `result`) | not executed | JobFiles.WrittenFinderKeepsOnePickle and JobFiles.WrittenPicklesCollide (over JobFiles.FindJobFiles and JobFiles.WrittenExtensionKey) | JobFiles.CorrectedFinderKeepsBothPickles and JobFiles.PickleFiledUnderItsKind (over JobFiles.CorrectedFindJobFiles and JobFiles.ExtensionKey) |

=== FILE: console.dfy ===
/**
 The console side of submititnow/cli.py: how `show_file_content` renders carriage returns, the
 rows of the job table, and the loop that waits until no job is left in a waiting state. The
 scheduler's answers (`job.get_info()` and `job.state`) are inputs; rich's rendering, the live
 refresh and the sleep between passes are not modelled.
 */
module Console {
  import opened Wrappers
  import opened Text
  import opened OrderedMaps
  import opened Experiment
  import Seqs

  // ---------------------------------------------------------------------------------------------
  // `show_file_content`: each line is written chunk by chunk at position 0 of one buffer.

  /** `buffer.seek(0); buffer.write(chunk)`: the chunk replaces the front, a longer old tail stays. */
  function Overwrite(buffer: string, chunk: string): (r: string)
    ensures |r| == if |chunk| >= |buffer| then |chunk| else |buffer|
    ensures r[..|chunk|] == chunk
    ensures forall i :: |chunk| <= i < |r| ==> r[i] == buffer[i]
  {
    if |chunk| >= |buffer| then chunk else chunk + buffer[|chunk|..]
  }

  /** The buffer's value after the chunks are written in turn. */
  function Render(chunks: seq<string>): string
    decreases |chunks|
  {
    if |chunks| == 0 then "" else Overwrite(Render(chunks[..|chunks| - 1]), Last(chunks))
  }

  /** The length of the longest chunk, 0 for none. */
  function MaxLength(chunks: seq<string>): (n: nat)
    ensures forall j :: 0 <= j < |chunks| ==> |chunks[j]| <= n
    ensures |chunks| == 0 ==> n == 0
    ensures |chunks| > 0 ==> exists j :: 0 <= j < |chunks| && |chunks[j]| == n
    decreases |chunks|
  {
    if |chunks| == 0 then 0
    else
      var m := MaxLength(chunks[..|chunks| - 1]);
      assert forall j :: 0 <= j < |chunks| - 1 ==> chunks[j] == chunks[..|chunks| - 1][j];
      if |Last(chunks)| >= m then |Last(chunks)| else m
  }

  /** The rendered line is as long as the longest chunk. */
  lemma {:induction false} RenderLength(chunks: seq<string>)
    ensures |Render(chunks)| == MaxLength(chunks)
    decreases |chunks|
  {
    if |chunks| > 0 {
      RenderLength(chunks[..|chunks| - 1]);
    }
  }

  /**
   Each character of the rendered line comes from the last chunk that reaches that far: a
   progress bar redrawn after `\r` shows its final state.
   */
  lemma {:induction false} RenderCharacter(chunks: seq<string>, i: nat)
    requires i < |Render(chunks)|
    ensures exists j :: 0 <= j < |chunks| && i < |chunks[j]| && Render(chunks)[i] == chunks[j][i]
              && forall k :: j < k < |chunks| ==> |chunks[k]| <= i
    decreases |chunks|
  {
    var n := |chunks| - 1;
    var init := chunks[..n];
    if i < |chunks[n]| {
      assert Render(chunks)[i] == Render(chunks)[..|chunks[n]|][i] == chunks[n][i];
    } else {
      RenderCharacter(init, i);
      var j :| 0 <= j < |init| && i < |init[j]| && Render(init)[i] == init[j][i]
               && forall k :: j < k < |init| ==> |init[k]| <= i;
      assert Render(chunks) == Overwrite(Render(init), chunks[n]);
      assert Render(chunks)[i] == Render(init)[i] == chunks[j][i] by {
        assert chunks[j] == init[j];
      }
      forall k | j < k < |chunks| ensures |chunks[k]| <= i {
        if k < n {
          assert chunks[k] == init[k];
        }
      }
    }
  }

  /** A line as displayed: its `\r`-separated chunks written over each other. */
  function RenderLine(line: string): string {
    Render(Split(line, {'\r'}))
  }

  /** A line without a carriage return is displayed as it is. */
  lemma PlainLineUnchanged(line: string)
    requires Avoids(line, {'\r'})
    ensures RenderLine(line) == line
  {
    SplitAvoiding(line, {'\r'});
    assert Split(line, {'\r'})[..0] == [];
  }

  /** A trailing carriage return writes an empty chunk and changes nothing. */
  lemma TrailingReturnIgnored(line: string)
    ensures RenderLine(line + "\r") == RenderLine(line)
  {
    assert line + "\r" == line + ['\r'] + "";
    SplitAround(line, '\r', "", {'\r'});
    var chunks := Split(line, {'\r'}) + [""];
    assert chunks[..|chunks| - 1] == Split(line, {'\r'});
  }

  /** A chunk at least as long as everything before it replaces it entirely. */
  lemma LongerRedrawReplaces(line: string, redraw: string)
    requires Avoids(redraw, {'\r'}) && |redraw| >= |RenderLine(line)|
    ensures RenderLine(line + "\r" + redraw) == redraw
  {
    assert line + "\r" + redraw == line + ['\r'] + redraw;
    SplitAround(line, '\r', redraw, {'\r'});
    SplitAvoiding(redraw, {'\r'});
    var chunks := Split(line, {'\r'}) + [redraw];
    assert chunks[..|chunks| - 1] == Split(line, {'\r'});
  }

  /** The displayed lines of a file's text (opened with `newline=""`, so `\r` reaches the renderer). */
  function ShowFileContent(text: string): (lines: seq<string>)
    ensures |lines| == |Split(text, {'\n'})|
    ensures forall i :: 0 <= i < |lines| ==> lines[i] == RenderLine(Split(text, {'\n'})[i])
  {
    var pieces := Split(text, {'\n'});
    seq(|pieces|, i requires 0 <= i < |pieces| => RenderLine(pieces[i]))
  }

  lemma {:induction false} SplitKeepsAvoiding(s: string, seps: set<char>, other: set<char>)
    requires Avoids(s, other)
    ensures forall k :: 0 <= k < |Split(s, seps)| ==> Avoids(Split(s, seps)[k], other)
    decreases |s|
  {
    if |s| > 0 {
      SplitKeepsAvoiding(s[1..], seps, other);
    }
  }

  /** Text without carriage returns is displayed line for line as it is. */
  lemma PlainTextShownAsIs(text: string)
    requires Avoids(text, {'\r'})
    ensures ShowFileContent(text) == Split(text, {'\n'})
    ensures Join(ShowFileContent(text), "\n") == text
  {
    var pieces := Split(text, {'\n'});
    SplitKeepsAvoiding(text, {'\n'}, {'\r'});
    forall i | 0 <= i < |pieces| ensures RenderLine(pieces[i]) == pieces[i] {
      PlainLineUnchanged(pieces[i]);
    }
    JoinSplit(text, '\n');
  }

  // ---------------------------------------------------------------------------------------------
  // `_generate_console_table`.

  /** The states the table has a colour for. */
  const ColouredStates: set<string> := {"UNKNOWN", "PENDING", "RUNNING", "COMPLETED", "FAILED"}

  datatype ConsoleError =
    | Config(cause: ExperimentError)   // `job_function_description` on an experiment without parameters
    | MissingJobDescription(jobId: string)
    | MissingInfo(key: string)         // `jobs_info["State"]`, `jobs_info["NodeList"]`
    | UncolouredState(state: string)   // the colour dict has no entry for the state

  /** The colour dict's lookup; any other state is a `KeyError`. */
  function StateColor(state: string): (r: Result<string, ConsoleError>)
    ensures r.Success? <==> state in ColouredStates
    ensures r.Failure? ==> r.error == UncolouredState(state)
  {
    if state == "UNKNOWN" then Success("dark_orange")
    else if state == "PENDING" then Success("yellow")
    else if state == "RUNNING" then Success("bright_green")
    else if state == "COMPLETED" then Success("bold green4")
    else if state == "FAILED" then Success("bold red")
    else Failure(UncolouredState(state))
  }

  /** Every coloured state has its own colour. */
  lemma StateColorsDistinct(a: string, b: string)
    requires a in ColouredStates && b in ColouredStates && a != b
    ensures StateColor(a).value != StateColor(b).value
  {
  }

  /** One row of the table, as the five strings of its cells. */
  datatype TableRow = TableRow(jobId: string, expConfig: string, jobConfig: string, state: string, nodeList: string)

  /** The state and node list a job's info reports; an empty info means the scheduler knows nothing yet. */
  function InfoCells(info: map<string, string>): (r: Result<(string, string), ConsoleError>)
    ensures |info| == 0 ==> r == Success(("UNKNOWN", "[dark_orange]UNKNOWN"))
    ensures |info| > 0 ==> (r.Success? <==> "State" in info && "NodeList" in info)
    ensures |info| > 0 && r.Success? ==> r.value == (info["State"], info["NodeList"])
  {
    if |info| == 0 then Success(("UNKNOWN", "[dark_orange]UNKNOWN"))
    else if "State" !in info then Failure(MissingInfo("State"))
    else if "NodeList" !in info then Failure(MissingInfo("NodeList"))
    else Success((info["State"], info["NodeList"]))
  }

  /**
   The row of job `jobId` given its current info: the common configuration, the job's own
   description, the state in its colour and the node list.
   */
  function JobTableRow(e: Experiment, jobId: string, info: map<string, string>): (r: Result<TableRow, ConsoleError>)
    ensures r.Success? <==> |e.params| > 0 && Get(e.descriptions, jobId).Some? && InfoCells(info).Success?
                            && InfoCells(info).value.0 in ColouredStates
    ensures r.Success? ==> r.value.jobId == jobId && Success(r.value.expConfig) == Description(e.func, e.params)
                           && Some(r.value.jobConfig) == Get(e.descriptions, jobId)
    ensures r.Success? ==> r.value.state == "[" + StateColor(InfoCells(info).value.0).value + "]" + InfoCells(info).value.0
                           && r.value.nodeList == InfoCells(info).value.1
    ensures |e.params| == 0 ==> r == Failure(Config(NoParams))
  {
    var config :- match Description(e.func, e.params)
                  case Success(text) => Success(text)
                  case Failure(err) => Failure(Config(err));
    var text :- match Get(e.descriptions, jobId)
                case Some(text) => Success(text)
                case None => Failure(MissingJobDescription(jobId));
    var cells :- InfoCells(info);
    var color :- StateColor(cells.0);
    Success(TableRow(jobId, config, text, "[" + color + "]" + cells.0, cells.1))
  }

  /** The whole table: one row per job of `exp.jobs`, in its order; the first failing row stops it. */
  function Table(e: Experiment, infos: string -> map<string, string>): (r: Result<seq<TableRow>, ConsoleError>)
    ensures r.Success? ==> |r.value| == |e.jobs|
    ensures r.Success? ==> forall i :: 0 <= i < |e.jobs| ==> JobTableRow(e, e.jobs[i].0, infos(e.jobs[i].0)) == Success(r.value[i])
    ensures r.Failure? <==> exists i :: 0 <= i < |e.jobs| && JobTableRow(e, e.jobs[i].0, infos(e.jobs[i].0)).Failure?
  {
    TableRows(e, e.jobs, infos)
  }

  function TableRows(e: Experiment, jobs: OrderedMap<string, Job>, infos: string -> map<string, string>)
    : (r: Result<seq<TableRow>, ConsoleError>)
    ensures r.Success? ==> |r.value| == |jobs|
    ensures r.Success? ==> forall i :: 0 <= i < |jobs| ==> JobTableRow(e, jobs[i].0, infos(jobs[i].0)) == Success(r.value[i])
    ensures r.Failure? <==> exists i :: 0 <= i < |jobs| && JobTableRow(e, jobs[i].0, infos(jobs[i].0)).Failure?
    decreases |jobs|
  {
    if |jobs| == 0 then Success([])
    else
      var row :- JobTableRow(e, jobs[0].0, infos(jobs[0].0));
      var rest :- TableRows(e, jobs[1..], infos);
      assert forall i :: 1 <= i < |jobs| ==> jobs[i] == jobs[1..][i - 1];
      Success([row] + rest)
  }

  /** A job whose info reports a state outside the colour dict (a cancelled job, say) stops the table. */
  lemma UncolouredStateStopsTheTable(e: Experiment, infos: string -> map<string, string>, i: nat)
    requires i < |e.jobs| && |e.params| > 0 && Get(e.descriptions, e.jobs[i].0).Some?
    requires "State" in infos(e.jobs[i].0) && "NodeList" in infos(e.jobs[i].0)
    requires infos(e.jobs[i].0)["State"] !in ColouredStates
    ensures Table(e, infos).Failure?
  {
    assert JobTableRow(e, e.jobs[i].0, infos(e.jobs[i].0)).Failure?;
  }

  /** The info a job's row can be drawn from: nothing yet, or a coloured state and a node list. */
  predicate Displayable(info: map<string, string>) {
    |info| == 0 || ("State" in info && "NodeList" in info && info["State"] in ColouredStates)
  }

  /**
   After launching, the table can be drawn: every job of an experiment whose jobs and descriptions
   are paired has a description, so only the infos decide.
   */
  lemma LaunchedTableDraws(e: Experiment, submitted: seq<Job>, texts: seq<string>, tracker: string,
                           infos: string -> map<string, string>)
    requires Valid(e) && Keys(e.jobs) == Keys(e.descriptions)
    requires AssignJobs(e, submitted, texts, tracker).Success?
    requires forall id :: Displayable(infos(id))
    ensures Table(AssignJobs(e, submitted, texts, tracker).value.0, infos).Success?
  {
    var e' := AssignJobs(e, submitted, texts, tracker).value.0;
    AssignPairsAligned(e.jobs, e.descriptions, submitted, texts);
    assert Keys(e'.jobs) == Keys(e'.descriptions);
    assert |e.params| > 0;
    forall i | 0 <= i < |e'.jobs| ensures JobTableRow(e', e'.jobs[i].0, infos(e'.jobs[i].0)).Success? {
      assert e'.jobs[i].0 == Keys(e'.descriptions)[i];
      assert e'.jobs[i].0 in Keys(e'.descriptions);
    }
  }

  // ---------------------------------------------------------------------------------------------
  // Waiting until the jobs leave the waiting states.

  /** `waiting_states` for `wait_until`; `"none"` (and any other text) waits for nothing. */
  function WaitingStates(waitUntil: string): (r: set<string>)
    ensures "UNKNOWN" in r <==> waitUntil == "submitted" || waitUntil == "running" || waitUntil == "done"
    ensures "PENDING" in r <==> waitUntil == "running" || waitUntil == "done"
    ensures "RUNNING" in r <==> waitUntil == "done"
    ensures r <= {"UNKNOWN", "PENDING", "RUNNING"}
  {
    if waitUntil == "done" then {"UNKNOWN", "PENDING", "RUNNING"}
    else if waitUntil == "running" then {"UNKNOWN", "PENDING"}
    else if waitUntil == "submitted" then {"UNKNOWN"}
    else {}
  }

  /**
   Each mode waits for everything the weaker mode waits for and one state more; no mode waits on a
   finished job.
   */
  lemma WaitingStatesNest(m: WaitMode)
    ensures WaitingStates(NoWait.Name()) == {}
    ensures WaitingStates(UntilSubmitted.Name()) < WaitingStates(UntilRunning.Name()) < WaitingStates(UntilDone.Name())
    ensures WaitingStates(UntilRunning.Name()) - WaitingStates(UntilSubmitted.Name()) == {"PENDING"}
    ensures WaitingStates(UntilDone.Name()) - WaitingStates(UntilRunning.Name()) == {"RUNNING"}
    ensures WaitingStates(m.Name()) <= ColouredStates - {"COMPLETED", "FAILED"}
  {
  }

  /** The two sets of the loop: jobs still watched and jobs seen outside the waiting states. */
  datatype WaitState = WaitState(queue: set<string>, submitted: set<string>)

  predicate Disjoint(s: WaitState) {
    s.queue * s.submitted == {}
  }

  /** `jobs_in_queue = {*exp.jobs.values()}`, `jobs_submitted = set()`, by job ID. */
  function Start(e: Experiment): (s: WaitState)
    ensures Disjoint(s) && s.submitted == {}
    ensures forall id :: id in s.queue <==> id in Keys(e.jobs)
  {
    WaitState(set id | id in Keys(e.jobs), {})
  }

  /** The jobs of `queue` a pass finds outside the waiting states. */
  function Seen(queue: set<string>, waiting: set<string>, state: string -> string): set<string> {
    set id | id in queue && state(id) !in waiting
  }

  /**
   A reference for one pass of the `for` loop: the pass is the last one when no watched job is in
   a waiting state; the jobs seen outside them join `jobs_submitted` and leave the queue.
   */
  function PassResult(s: WaitState, waiting: set<string>, state: string -> string): (bool, WaitState) {
    var submitted := s.submitted + Seen(s.queue, waiting, state);
    (Seen(s.queue, waiting, state) == s.queue, WaitState(s.queue - submitted, submitted))
  }

  /** One pass of the `for` loop over the watched jobs, in any order. */
  method Pass(s: WaitState, waiting: set<string>, state: string -> string) returns (waitOver: bool, s': WaitState)
    ensures (waitOver, s') == PassResult(s, waiting, state)
  {
    waitOver := true;
    var submitted := s.submitted;
    var rest := s.queue;
    while rest != {}
      invariant rest <= s.queue
      invariant submitted == s.submitted + Seen(s.queue - rest, waiting, state)
      invariant waitOver <==> forall id :: id in s.queue - rest ==> state(id) !in waiting
      decreases |rest|
    {
      var job :| job in rest;
      if state(job) in waiting {
        waitOver := false;
      } else {
        submitted := submitted + {job};
      }
      rest := rest - {job};
    }
    assert s.queue - rest == s.queue;
    s' := WaitState(s.queue - submitted, submitted);
  }

  /**
   A pass keeps the two sets disjoint and their union fixed, only shrinks the queue, leaves in it
   exactly the jobs it saw waiting, and ends the loop exactly when that leaves the queue empty.
   */
  lemma PassSpec(s: WaitState, waiting: set<string>, state: string -> string)
    requires Disjoint(s)
    ensures var (over, s') := PassResult(s, waiting, state);
            && Disjoint(s')
            && s'.queue <= s.queue && s.submitted <= s'.submitted
            && s'.queue + s'.submitted == s.queue + s.submitted
            && (forall id :: id in s'.queue <==> id in s.queue && state(id) in waiting)
            && (over <==> s'.queue == {})
  {
    var (over, s') := PassResult(s, waiting, state);
    forall id ensures id in s'.queue <==> id in s.queue && state(id) in waiting {
      if id in s.queue && state(id) in waiting {
        assert id !in s.queue * s.submitted;
        assert id !in s.submitted && id !in Seen(s.queue, waiting, state);
      }
    }
    if s'.queue == {} {
      forall id | id in s.queue ensures id in Seen(s.queue, waiting, state) {
        assert id !in s'.queue;
      }
    }
  }

  /** The loop after `passes` passes, the exit test ignored (once the queue is empty it stays so). */
  function StateAfter(s: WaitState, waiting: set<string>, polls: seq<string -> string>, passes: nat): WaitState
    requires passes <= |polls|
    decreases passes
  {
    if passes == 0 then s else PassResult(StateAfter(s, waiting, polls, passes - 1), waiting, polls[passes - 1]).1
  }

  /** How the loop ends: after some passes, or still waiting when the polls run out. */
  datatype Outcome = Exited(passes: nat, final: WaitState) | StillWaiting(current: WaitState)

  /** The `while not wait_over` loop, pass `k` reading the states from `polls[k]`. */
  function Run(s: WaitState, waiting: set<string>, polls: seq<string -> string>): (r: Outcome)
    ensures r.Exited? ==> 1 <= r.passes <= |polls| && r.final.queue == {}
    decreases |polls|
  {
    if |polls| == 0 then StillWaiting(s)
    else
      var (over, s') := PassResult(s, waiting, polls[0]);
      if over then Exited(1, s')
      else
        match Run(s', waiting, polls[1..])
        case Exited(n, f) => Exited(n + 1, f)
        case StillWaiting(t) => StillWaiting(t)
  }

  /** The state after passes counted from the second poll is the state after one more pass. */
  lemma {:induction false} StateAfterShift(s: WaitState, waiting: set<string>, polls: seq<string -> string>, passes: nat)
    requires 0 < |polls| && passes < |polls|
    ensures StateAfter(PassResult(s, waiting, polls[0]).1, waiting, polls[1..], passes)
            == StateAfter(s, waiting, polls, passes + 1)
    decreases passes
  {
    if passes > 0 {
      StateAfterShift(s, waiting, polls, passes - 1);
      assert polls[1..][passes - 1] == polls[passes];
    }
  }

  lemma {:induction false} StateAfterDisjoint(s: WaitState, waiting: set<string>, polls: seq<string -> string>, passes: nat)
    requires Disjoint(s) && passes <= |polls|
    ensures Disjoint(StateAfter(s, waiting, polls, passes))
    ensures StateAfter(s, waiting, polls, passes).queue <= s.queue
    decreases passes
  {
    if passes > 0 {
      StateAfterDisjoint(s, waiting, polls, passes - 1);
      PassSpec(StateAfter(s, waiting, polls, passes - 1), waiting, polls[passes - 1]);
    }
  }

  lemma {:induction false} StateAfterTail(s: WaitState, waiting: set<string>, polls: seq<string -> string>)
    requires 0 < |polls|
    ensures forall k :: 0 <= k < |polls| ==>
              StateAfter(PassResult(s, waiting, polls[0]).1, waiting, polls[1..], k) == StateAfter(s, waiting, polls, k + 1)
  {
    forall k | 0 <= k < |polls|
      ensures StateAfter(PassResult(s, waiting, polls[0]).1, waiting, polls[1..], k) == StateAfter(s, waiting, polls, k + 1)
    {
      StateAfterShift(s, waiting, polls, k);
    }
  }

  /** An exit after `n` passes: pass `n` is the first to leave the queue empty, and the loop ends in its state. */
  lemma {:induction false} RunExited(s: WaitState, waiting: set<string>, polls: seq<string -> string>)
    requires Disjoint(s) && Run(s, waiting, polls).Exited?
    ensures var n := Run(s, waiting, polls).passes;
            && 1 <= n <= |polls|
            && Run(s, waiting, polls).final == StateAfter(s, waiting, polls, n)
            && StateAfter(s, waiting, polls, n).queue == {}
            && forall k :: 1 <= k < n ==> StateAfter(s, waiting, polls, k).queue != {}
    decreases |polls|
  {
    assert |polls| > 0;
    var (over, s') := PassResult(s, waiting, polls[0]);
    PassSpec(s, waiting, polls[0]);
    assert StateAfter(s, waiting, polls, 1) == s';
    if !over {
      var r' := Run(s', waiting, polls[1..]);
      assert Run(s, waiting, polls) == Exited(r'.passes + 1, r'.final);
      RunExited(s', waiting, polls[1..]);
      StateAfterTail(s, waiting, polls);
      assert StateAfter(s, waiting, polls, r'.passes + 1) == StateAfter(s', waiting, polls[1..], r'.passes);
      forall k | 1 <= k < r'.passes + 1 ensures StateAfter(s, waiting, polls, k).queue != {} {
        if k > 1 {
          assert StateAfter(s', waiting, polls[1..], k - 1) == StateAfter(s, waiting, polls, k);
        }
      }
    }
  }

  /** Still waiting when the polls run out: no pass left the queue empty. */
  lemma {:induction false} RunStillWaiting(s: WaitState, waiting: set<string>, polls: seq<string -> string>)
    requires Disjoint(s) && Run(s, waiting, polls).StillWaiting?
    ensures Run(s, waiting, polls).current == StateAfter(s, waiting, polls, |polls|)
    ensures forall k :: 1 <= k <= |polls| ==> StateAfter(s, waiting, polls, k).queue != {}
    decreases |polls|
  {
    if |polls| > 0 {
      var (over, s') := PassResult(s, waiting, polls[0]);
      assert Disjoint(s') && !over && s'.queue != {} && StateAfter(s, waiting, polls, 1) == s' by {
        PassSpec(s, waiting, polls[0]);
      }
      RunStillWaiting(s', waiting, polls[1..]);
      StateAfterShift(s, waiting, polls, |polls| - 1);
      forall k | 2 <= k <= |polls| ensures StateAfter(s, waiting, polls, k).queue != {} {
        StateAfterShift(s, waiting, polls, k - 1);
      }
    }
  }

  /**
   The loop exits after pass `n` exactly when `n` is the first pass that leaves no job watched, and
   it ends in the state that pass leaves; it is still waiting when no pass empties the queue.
   */
  lemma RunSpec(s: WaitState, waiting: set<string>, polls: seq<string -> string>)
    requires Disjoint(s)
    ensures Run(s, waiting, polls).Exited? <==>
              exists k :: 1 <= k <= |polls| && StateAfter(s, waiting, polls, k).queue == {}
    ensures Run(s, waiting, polls).Exited? ==>
              var n := Run(s, waiting, polls).passes;
              && 1 <= n <= |polls|
              && Run(s, waiting, polls).final == StateAfter(s, waiting, polls, n)
              && StateAfter(s, waiting, polls, n).queue == {}
              && forall k :: 1 <= k < n ==> StateAfter(s, waiting, polls, k).queue != {}
    ensures Run(s, waiting, polls).StillWaiting? ==>
              Run(s, waiting, polls).current == StateAfter(s, waiting, polls, |polls|)
  {
    if Run(s, waiting, polls).Exited? {
      RunExited(s, waiting, polls);
    } else {
      RunStillWaiting(s, waiting, polls);
    }
  }

  /** A job is consulted only while it is watched: polls that agree on the watched jobs give the same run. */
  lemma {:induction false} RunReadsOnlyWatchedJobs(s: WaitState, waiting: set<string>,
                                                   polls: seq<string -> string>, polls': seq<string -> string>)
    requires |polls| == |polls'|
    requires forall k :: 0 <= k < |polls| ==>
               forall id :: id in StateAfter(s, waiting, polls, k).queue ==> polls[k](id) == polls'[k](id)
    ensures Run(s, waiting, polls) == Run(s, waiting, polls')
    decreases |polls|
  {
    if |polls| > 0 {
      assert StateAfter(s, waiting, polls, 0) == s;
      assert Seen(s.queue, waiting, polls[0]) == Seen(s.queue, waiting, polls'[0]);
      var s' := PassResult(s, waiting, polls[0]).1;
      forall k | 0 <= k < |polls[1..]|
        ensures forall id :: id in StateAfter(s', waiting, polls[1..], k).queue ==> polls[1..][k](id) == polls'[1..][k](id)
      {
        StateAfterShift(s, waiting, polls, k);
      }
      RunReadsOnlyWatchedJobs(s', waiting, polls[1..], polls'[1..]);
    }
  }

  /** With nothing to wait for, or no job, the first pass ends the loop with every job submitted. */
  lemma NothingToWaitFor(s: WaitState, waiting: set<string>, polls: seq<string -> string>)
    requires Disjoint(s) && |polls| > 0
    requires waiting == {} || s.queue == {}
    ensures Run(s, waiting, polls) == Exited(1, WaitState({}, s.queue + s.submitted))
  {
    PassSpec(s, waiting, polls[0]);
  }

  /** One poll in which every job is outside the waiting states ends the loop by that pass. */
  lemma ExitsByAllClearPoll(s: WaitState, waiting: set<string>, polls: seq<string -> string>, k: nat)
    requires Disjoint(s) && k < |polls|
    requires forall id :: id in s.queue ==> polls[k](id) !in waiting
    ensures Run(s, waiting, polls).Exited? && Run(s, waiting, polls).passes <= k + 1
  {
    StateAfterDisjoint(s, waiting, polls, k);
    var t := StateAfter(s, waiting, polls, k);
    PassSpec(t, waiting, polls[k]);
    assert StateAfter(s, waiting, polls, k + 1).queue == {};
    RunSpec(s, waiting, polls);
  }

  /** `Run` shifted by `i` passes already made. */
  function Delay(o: Outcome, i: nat): Outcome {
    match o
    case Exited(n, f) => Exited(n + i, f)
    case StillWaiting(t) => StillWaiting(t)
  }

  /** The `while` loop itself, one `Pass` per poll until a pass ends it or the polls run out. */
  method WaitLoop(s: WaitState, waiting: set<string>, polls: seq<string -> string>) returns (o: Outcome)
    ensures o == Run(s, waiting, polls)
  {
    var current := s;
    var i := 0;
    while i < |polls|
      invariant 0 <= i <= |polls|
      invariant Run(s, waiting, polls) == Delay(Run(current, waiting, polls[i..]), i)
      decreases |polls| - i
    {
      var waitOver, next := Pass(current, waiting, polls[i]);
      assert polls[i..][0] == polls[i] && polls[i..][1..] == polls[i + 1..];
      if waitOver {
        return Exited(i + 1, next);
      }
      current := next;
      i := i + 1;
    }
    o := StillWaiting(current);
  }

  // ---------------------------------------------------------------------------------------------
  // The same loop with the live table: it is drawn before the loop and redrawn after every watched
  // job of every pass, and a table that cannot be drawn raises out of the wait.

  /** A drawn table, or the error that stopped the drawing. */
  type Drawing = Result<seq<TableRow>, ConsoleError>

  /**
   The loop with its redraws: pass `k` reads the states from `polls[k]` and redraws the table with
   outcome `draws[k]` (one snapshot of the job infos per pass) once per watched job, so a pass
   that starts with an empty queue draws nothing.
   */
  function Watch(s: WaitState, waiting: set<string>, polls: seq<string -> string>, draws: seq<Drawing>)
    : (r: Result<Outcome, ConsoleError>)
    requires |draws| == |polls|
    ensures 0 < |polls| && s.queue != {} && draws[0].Failure? ==> r == Failure(draws[0].error)
    ensures r.Failure? ==> exists k :: 0 <= k < |draws| && draws[k] == Failure(r.error)
    decreases |polls|
  {
    if |polls| == 0 then Success(StillWaiting(s))
    else if s.queue != {} && draws[0].Failure? then Failure(draws[0].error)
    else
      var (over, s') := PassResult(s, waiting, polls[0]);
      if over then Success(Exited(1, s'))
      else
        match Watch(s', waiting, polls[1..], draws[1..])
        case Failure(err) =>
          Seqs.ExistsFromTail((d: Drawing) => d == Failure(err), draws);
          Failure(err)
        case Success(o) => Success(Delay(o, 1))
  }

  /** When the redraws all succeed, the loop ends exactly as `Run` says. */
  lemma {:induction false} WatchAgreesWithRun(s: WaitState, waiting: set<string>,
                                              polls: seq<string -> string>, draws: seq<Drawing>)
    requires |draws| == |polls|
    ensures Watch(s, waiting, polls, draws).Success? ==> Watch(s, waiting, polls, draws).value == Run(s, waiting, polls)
    decreases |polls|
  {
    if |polls| > 0 && !(s.queue != {} && draws[0].Failure?) {
      var (over, s') := PassResult(s, waiting, polls[0]);
      if !over {
        WatchAgreesWithRun(s', waiting, polls[1..], draws[1..]);
      }
    }
  }

  /** For each pass: it starts with a job still watched and its drawing fails. */
  function Raising(s: WaitState, waiting: set<string>, polls: seq<string -> string>, draws: seq<Drawing>)
    : (flags: seq<bool>)
    requires |draws| == |polls|
    ensures |flags| == |polls|
    ensures forall k {:trigger flags[k]} :: 0 <= k < |polls| ==>
              flags[k] == (draws[k].Failure? && StateAfter(s, waiting, polls, k).queue != {})
  {
    seq(|polls|, k requires 0 <= k < |polls| => draws[k].Failure? && StateAfter(s, waiting, polls, k).queue != {})
  }

  /** The wait raises exactly when some pass starts with a job still watched and its drawing fails. */
  lemma {:induction false} WatchFails(s: WaitState, waiting: set<string>,
                                      polls: seq<string -> string>, draws: seq<Drawing>)
    requires Disjoint(s) && |draws| == |polls|
    ensures Watch(s, waiting, polls, draws).Failure? <==> true in Raising(s, waiting, polls, draws)
    decreases |polls|
  {
    if |polls| > 0 {
      var flags := Raising(s, waiting, polls, draws);
      assert flags[0] == (s.queue != {} && draws[0].Failure?) by {
        assert StateAfter(s, waiting, polls, 0) == s;
      }
      if !flags[0] {
        var (over, s') := PassResult(s, waiting, polls[0]);
        assert Disjoint(s') && (over <==> s'.queue == {}) by {
          PassSpec(s, waiting, polls[0]);
        }
        if over {
          ExitRaisesNothing(s, waiting, polls, draws);
        } else {
          WatchFails(s', waiting, polls[1..], draws[1..]);
          RaisingShift(s, waiting, polls, draws);
          assert flags == [flags[0]] + flags[1..];
        }
      }
    }
  }

  /** After a pass that ends the wait with nothing queued, no later pass raises. */
  lemma ExitRaisesNothing(s: WaitState, waiting: set<string>, polls: seq<string -> string>, draws: seq<Drawing>)
    requires Disjoint(s) && 0 < |polls| && |draws| == |polls|
    requires PassResult(s, waiting, polls[0]).1.queue == {}
    ensures forall k :: 1 <= k < |polls| ==> !Raising(s, waiting, polls, draws)[k]
  {
    var flags := Raising(s, waiting, polls, draws);
    var s' := PassResult(s, waiting, polls[0]).1;
    assert Disjoint(s') by {
      PassSpec(s, waiting, polls[0]);
    }
    forall k | 1 <= k < |polls| ensures !flags[k] {
      StateAfterShift(s, waiting, polls, k - 1);
      StateAfterDisjoint(s', waiting, polls[1..], k - 1);
    }
  }

  /** The flags counted from the second poll are the flags of the later passes. */
  lemma RaisingShift(s: WaitState, waiting: set<string>, polls: seq<string -> string>, draws: seq<Drawing>)
    requires 0 < |polls| && |draws| == |polls|
    ensures Raising(PassResult(s, waiting, polls[0]).1, waiting, polls[1..], draws[1..]) == Raising(s, waiting, polls, draws)[1..]
  {
    var later := Raising(PassResult(s, waiting, polls[0]).1, waiting, polls[1..], draws[1..]);
    var flags := Raising(s, waiting, polls, draws);
    forall k | 0 <= k < |later| ensures later[k] == flags[1..][k] {
      assert draws[1..][k] == draws[k + 1];
      StateAfterShift(s, waiting, polls, k);
    }
  }

  /** The drawing of each pass: the table of `e` from that pass's snapshot of the job infos. */
  function Redraws(e: Experiment, infos: seq<string -> map<string, string>>): (draws: seq<Drawing>)
    ensures |draws| == |infos| && forall k :: 0 <= k < |infos| ==> draws[k] == Table(e, infos[k])
  {
    seq(|infos|, k requires 0 <= k < |infos| => Table(e, infos[k]))
  }

  /** No pass raises exactly when every pass that starts with a job still watched draws its table. */
  lemma RaisingTables(e: Experiment, waiting: set<string>, polls: seq<string -> string>,
                      infos: seq<string -> map<string, string>>)
    requires |infos| == |polls|
    ensures true !in Raising(Start(e), waiting, polls, Redraws(e, infos)) <==>
              forall k :: 0 <= k < |polls| && StateAfter(Start(e), waiting, polls, k).queue != {} ==> Table(e, infos[k]).Success?
  {
    var flags := Raising(Start(e), waiting, polls, Redraws(e, infos));
    if true in flags {
      var k :| 0 <= k < |flags| && flags[k];
      assert StateAfter(Start(e), waiting, polls, k).queue != {} && Table(e, infos[k]).Failure?;
    } else {
      forall k | 0 <= k < |polls| && StateAfter(Start(e), waiting, polls, k).queue != {} ensures Table(e, infos[k]).Success? {
        assert !flags[k];
      }
    }
  }

  /**
   `_display_job_submission_status_on_console` from the `Live` table on: the first table, drawn
   from the infos `initial`, then the loop over the jobs of `e`.
   */
  function Display(e: Experiment, waiting: set<string>, initial: string -> map<string, string>,
                   polls: seq<string -> string>, infos: seq<string -> map<string, string>>)
    : (r: Result<Outcome, ConsoleError>)
    requires |infos| == |polls|
    ensures r.Success? <==> Table(e, initial).Success?
                            && forall k :: 0 <= k < |polls| && StateAfter(Start(e), waiting, polls, k).queue != {}
                                 ==> Table(e, infos[k]).Success?
    ensures r.Success? ==> r.value == Run(Start(e), waiting, polls)
  {
    var draws := Redraws(e, infos);
    WatchFails(Start(e), waiting, polls, draws);
    RaisingTables(e, waiting, polls, infos);
    WatchAgreesWithRun(Start(e), waiting, polls, draws);
    var _ :- Table(e, initial);
    Watch(Start(e), waiting, polls, draws)
  }

  /**
   A job that the first pass finds in a state outside the colour dict (timed out, cancelled, out of
   memory) ends the wait with the table's `KeyError`, whatever mode is waited for.
   */
  lemma UncolouredStateEndsTheWait(e: Experiment, waiting: set<string>, initial: string -> map<string, string>,
                                   polls: seq<string -> string>, infos: seq<string -> map<string, string>>, i: nat)
    requires |infos| == |polls| > 0
    requires i < |e.jobs| && |e.params| > 0 && Get(e.descriptions, e.jobs[i].0).Some?
    requires "State" in infos[0](e.jobs[i].0) && "NodeList" in infos[0](e.jobs[i].0)
    requires infos[0](e.jobs[i].0)["State"] !in ColouredStates
    ensures Display(e, waiting, initial, polls, infos).Failure?
  {
    UncolouredStateStopsTheTable(e, infos[0], i);
    assert e.jobs[i].0 in Start(e).queue by {
      assert e.jobs[i].0 in Keys(e.jobs);
    }
    assert StateAfter(Start(e), waiting, polls, 0) == Start(e);
  }
}

=== FILE: experiment.dfy ===
/**
 An experiment's bookkeeping (submititnow/experiment_lib.py:16-138): the configuration common to
 all of its jobs and its rendering, the directories it lives in, the registry of slurm profile
 handlers, the checks `launch` makes before submitting, and `_assign_jobs` with the tracker lines
 it appends. The scheduler is an input: the jobs it returns, each with its ID and start time.
 */
module Experiment {
  import opened Wrappers
  import opened Text
  import opened Seqs
  import opened PyValues
  import opened OrderedMaps
  import opened JobFiles
  import opened Tracker
  import Umiacs

  /** An argparse namespace of job parameters: its fields in definition order. */
  type Record = OrderedMap<string, Value>

  /** A site profile: slurm parameters in, slurm parameters out. */
  type Handler = SlurmParams -> SlurmParams

  /** The job function, named by `__module__` and `__qualname__`. */
  datatype JobFunc = JobFunc(moduleName: string, qualname: string) {
    function Name(): string {
      moduleName + "." + qualname
    }
  }

  /** A submitted job: its scheduler ID and `str()` of its start time. */
  datatype Job = Job(id: string, startTime: string)

  /** A filesystem path as its components. */
  type Path = seq<string>

  datatype ExperimentError =
    | BadWaitMode(given: string)                          // `ValueError` for `wait_until`
    | UnknownProfile(profile: Value, known: seq<string>)  // `ValueError` for `slurm_profile`
    | NoJobs                                              // `jobs[0]` on an empty job list
    | NoParams                                            // `self.job_params[0]` on no parameters
    | MissingDescription(jobId: string)                   // `self.job_descriptions[job.job_id]`

  datatype Experiment = Experiment(
    name: string,
    func: JobFunc,
    params: seq<Record>,
    describe: Record -> string,
    submititnowDir: Path,
    jobs: OrderedMap<string, Job>,
    descriptions: OrderedMap<string, string>,
    handlers: OrderedMap<string, Handler>,
    expId: Option<string>)

  /** The dicts of an experiment have each key once, as every Python dict does. */
  predicate Valid(e: Experiment) {
    DistinctKeys(e.jobs) && DistinctKeys(e.descriptions) && DistinctKeys(e.handlers)
  }

  /** `SUBMITITNOW_ROOT_DIR`: the `SUBMITITNOW_DIR` environment variable, else `~/.submititnow`. */
  function SubmititnowRoot(envDir: Option<string>): Path {
    [if envDir.Some? then envDir.value else "~/.submititnow"]
  }

  /** `EXPERIMENTS_ROOT_DIR`. */
  function ExperimentsRoot(envDir: Option<string>): Path {
    SubmititnowRoot(envDir) + ["experiments"]
  }

  /**
   `Experiment.__init__`: a fresh experiment with no jobs, no descriptions and no profiles; a
   falsy `submititnow_dir` falls back to the root directory.
   */
  function NewExperiment(name: string, func: JobFunc, params: seq<Record>, describe: Record -> string,
                         submititnowDir: Option<string>, envDir: Option<string>): (e: Experiment)
    ensures Valid(e) && e.jobs == [] && e.descriptions == [] && e.handlers == [] && e.expId.None?
  {
    var dir := if submititnowDir.Some? && submititnowDir.value != "" then [submititnowDir.value]
               else SubmititnowRoot(envDir);
    Experiment(name, func, params, describe, dir, [], [], [], None)
  }

  function ExpDir(e: Experiment, envDir: Option<string>): Path {
    ExperimentsRoot(envDir) + [e.name]
  }

  /** `tracker_file`: `tracker.csv` inside the experiment's directory. */
  function TrackerFile(e: Experiment, envDir: Option<string>): Path {
    ExpDir(e, envDir) + ["tracker.csv"]
  }

  /** `logs_dir`: `submitit_logs` inside the experiment's directory. */
  function LogsDir(e: Experiment, envDir: Option<string>): Path {
    ExpDir(e, envDir) + ["submitit_logs"]
  }

  /**
   The tracker and the logs live under the experiments root, one directory per experiment name,
   whatever directory the experiment was constructed with: two experiments share a tracker file
   exactly when they share a name.
   */
  lemma ExperimentPaths(e: Experiment, e': Experiment, envDir: Option<string>)
    ensures TrackerFile(e, envDir) == TrackerFile(e', envDir) <==> e.name == e'.name
    ensures LogsDir(e, envDir) == LogsDir(e', envDir) <==> e.name == e'.name
    ensures TrackerFile(e, envDir) != LogsDir(e', envDir)
  {
    var root := ExperimentsRoot(envDir);
    var n := |root|;
    assert TrackerFile(e, envDir)[n] == e.name && TrackerFile(e', envDir)[n] == e'.name;
    assert LogsDir(e, envDir)[n] == e.name && LogsDir(e', envDir)[n] == e'.name;
    assert TrackerFile(e, envDir)[n + 1] != LogsDir(e', envDir)[n + 1];
  }

  // ---------------------------------------------------------------------------------------------
  // The configuration common to all jobs: `job_function_description`.

  /** Entry `e` of the first record survives `param`: `param` lacks its key or has an equal value. */
  predicate AgreesWith(param: Record, e: (string, Value)) {
    var other := Get(param, e.0);
    other.None? || Equal(other.value, e.1)
  }

  /** `del common_params[k]`. */
  function Remove(m: Record, k: string): (r: Record)
    ensures forall e :: e in r <==> e in m && e.0 != k
    ensures IsSubsequence(r, m)
  {
    var keep := (e: (string, Value)) => e.0 != k;
    FilterIsSubsequence(m, keep);
    Filter(m, keep)
  }

  /**
   The inner loop over one later record: each of its keys whose value differs from the common
   value is deleted from the common configuration.
   */
  function Prune(common: Record, param: Record): (r: Record)
    ensures IsSubsequence(r, common)
    decreases |param|
  {
    if |param| == 0 then
      SubsequenceRefl(common);
      common
    else
      var k := param[0].0;
      var current := Get(common, k);
      var next := if current.Some? && !Equal(param[0].1, current.value) then Remove(common, k) else common;
      SubsequenceRefl(common);
      var r := Prune(next, param[1..]);
      SubsequenceTrans(r, next, common);
      r
  }

  /** The outer loop: the first record pruned by each later record in turn. */
  function CommonConfig(first: Record, rest: seq<Record>): (r: Record)
    ensures IsSubsequence(r, first)
    decreases |rest|
  {
    if |rest| == 0 then
      SubsequenceRefl(first);
      first
    else
      var pruned := Prune(first, rest[0]);
      var r := CommonConfig(pruned, rest[1..]);
      SubsequenceTrans(r, pruned, first);
      r
  }

  /** One later record removes exactly the entries it contradicts. */
  lemma {:induction false} PruneSpec(common: Record, param: Record)
    requires DistinctKeys(common) && DistinctKeys(param)
    ensures forall e :: e in Prune(common, param) <==> e in common && AgreesWith(param, e)
    decreases |param|
  {
    if |param| > 0 {
      var k := param[0].0;
      var v := param[0].1;
      var current := Get(common, k);
      var next := if current.Some? && !Equal(v, current.value) then Remove(common, k) else common;
      if next != common {
        SubsequenceDistinct(next, common);
      }
      FirstKeyUnique(param);
      PruneSpec(next, param[1..]);
      forall e | true
        ensures e in Prune(common, param) <==> e in common && AgreesWith(param, e)
      {
        if e.0 == k {
          assert Get(param[1..], k).None?;
          assert AgreesWith(param[1..], e);
          if e in common {
            var i :| 0 <= i < |common| && common[i] == e;
            GetAt(common, i);
          }
        } else {
          assert Get(param, e.0) == Get(param[1..], e.0);
        }
      }
    }
  }

  /**
   The common configuration holds exactly the entries of the first record that every later record
   either lacks or repeats with an equal value; keys only in later records never appear, and the
   kept entries keep the first record's order.
   */
  lemma {:induction false} CommonConfigSpec(first: Record, rest: seq<Record>)
    requires DistinctKeys(first) && forall i :: 0 <= i < |rest| ==> DistinctKeys(rest[i])
    ensures IsSubsequence(CommonConfig(first, rest), first)
    ensures forall e :: e in CommonConfig(first, rest) <==> e in first && AgreesWithAll(rest, e)
    decreases |rest|
  {
    if |rest| > 0 {
      var pruned := Prune(first, rest[0]);
      PruneSpec(first, rest[0]);
      SubsequenceDistinct(pruned, first);
      CommonConfigSpec(pruned, rest[1..]);
      forall e | true
        ensures e in CommonConfig(first, rest) <==> e in first && AgreesWithAll(rest, e)
      {
        assert forall i :: 1 <= i < |rest| ==> rest[i] == rest[1..][i - 1];
        assert AgreesWithAll(rest, e) <==> AgreesWith(rest[0], e) && AgreesWithAll(rest[1..], e);
      }
    }
  }

  /** Entry `e` of the first record survives every later record. */
  predicate AgreesWithAll(rest: seq<Record>, e: (string, Value)) {
    forall i :: 0 <= i < |rest| ==> AgreesWith(rest[i], e)
  }

  /** Every entry of a dict agrees with the dict itself. */
  lemma AgreesWithItself(first: Record, e: (string, Value))
    requires DistinctKeys(first) && e in first
    ensures AgreesWith(first, e)
  {
    var i :| 0 <= i < |first| && first[i] == e;
    GetAt(first, i);
    assert Equal(e.1, e.1) by {
      match e.1
      case Int(_) =>
      case _ =>
    }
  }

  /** A later record equal to the first changes nothing: repeating a job's parameters keeps the configuration. */
  lemma RepeatedFirstRecordChangesNothing(first: Record, rest: seq<Record>, e: (string, Value))
    requires DistinctKeys(first) && forall i :: 0 <= i < |rest| ==> DistinctKeys(rest[i])
    ensures e in CommonConfig(first, rest + [first]) <==> e in CommonConfig(first, rest)
  {
    var rest' := rest + [first];
    CommonConfigSpec(first, rest);
    CommonConfigSpec(first, rest');
    if e in first {
      AgreesWithItself(first, e);
      AgreesWithAllAppend(rest, first, e);
    }
  }

  lemma AgreesWithAllAppend(rest: seq<Record>, last: Record, e: (string, Value))
    requires AgreesWith(last, e)
    ensures AgreesWithAll(rest + [last], e) <==> AgreesWithAll(rest, e)
  {
    var rest' := rest + [last];
    assert forall i :: 0 <= i < |rest| ==> rest'[i] == rest[i];
    assert rest'[|rest|] == last;
  }

  /** A later record that every entry agrees with deletes nothing. */
  lemma {:induction false} PruneKeeps(common: Record, param: Record)
    requires DistinctKeys(param)
    requires forall e :: e in common ==> AgreesWith(param, e)
    ensures Prune(common, param) == common
    decreases |param|
  {
    if |param| > 0 {
      var k := param[0].0;
      var current := Get(common, k);
      if current.Some? {
        assert (k, current.value) in common;
        assert AgreesWith(param, (k, current.value));
      }
      FirstKeyUnique(param);
      forall e | e in common ensures AgreesWith(param[1..], e) {
        if e.0 != k {
          assert Get(param, e.0) == Get(param[1..], e.0);
        }
      }
      PruneKeeps(common, param[1..]);
    }
  }

  /** Later records that every entry agrees with delete nothing. */
  lemma {:induction false} CommonConfigKeeps(common: Record, rest: seq<Record>)
    requires forall i :: 0 <= i < |rest| ==> DistinctKeys(rest[i])
    requires forall e :: e in common ==> AgreesWithAll(rest, e)
    ensures CommonConfig(common, rest) == common
    decreases |rest|
  {
    if |rest| > 0 {
      PruneKeeps(common, rest[0]);
      assert forall i :: 0 <= i < |rest[1..]| ==> rest[1..][i] == rest[i + 1];
      CommonConfigKeeps(common, rest[1..]);
    }
  }

  /**
   The property deletes from `job_params[0]` in place, so every later rendering starts from the
   already pruned first record: pruning it again changes nothing, and the description is the
   same each time it is rendered.
   */
  lemma PrunedFirstRecordDescribesTheSame(func: JobFunc, first: Record, rest: seq<Record>)
    requires DistinctKeys(first) && forall i :: 0 <= i < |rest| ==> DistinctKeys(rest[i])
    ensures CommonConfig(CommonConfig(first, rest), rest) == CommonConfig(first, rest)
    ensures Description(func, [CommonConfig(first, rest)] + rest) == Description(func, [first] + rest)
  {
    CommonConfigSpec(first, rest);
    CommonConfigKeeps(CommonConfig(first, rest), rest);
    assert ([first] + rest)[1..] == rest && ([CommonConfig(first, rest)] + rest)[1..] == rest;
  }

  /** One token of the description: `k='v'` for a string, `k=v` otherwise. */
  function Token(k: string, v: Value): string {
    match v
    case Str(s) => k + "='" + s + "'"
    case _ => k + "=" + ToStr(v)
  }

  /** The rendered value distinguishes every value: a string is quoted, and `str()` of the rest differs. */
  lemma TokenInjective(k: string, v: Value, w: Value)
    requires Token(k, v) == Token(k, w)
    ensures v == w
  {
    var pre := k + "=";
    var tv := Token(k, v)[|pre|..];
    var tw := Token(k, w)[|pre|..];
    assert tv == tw;
    assert tv == RenderedValue(v) by { RenderedValueAfterKey(k, v); }
    assert tw == RenderedValue(w) by { RenderedValueAfterKey(k, w); }
    RenderedValueInjective(v, w);
  }

  /** What follows `k=` in a token. */
  function RenderedValue(v: Value): string {
    match v
    case Str(s) => "'" + s + "'"
    case _ => ToStr(v)
  }

  lemma RenderedValueAfterKey(k: string, v: Value)
    ensures Token(k, v) == k + "=" + RenderedValue(v)
  {
    if v.Str? {
      assert k + "='" + v.s + "'" == k + "=" + ("'" + v.s + "'");
    }
  }

  lemma RenderedValueInjective(v: Value, w: Value)
    requires RenderedValue(v) == RenderedValue(w)
    ensures v == w
  {
    var t := RenderedValue(v);
    FirstRenderedChar(v);
    FirstRenderedChar(w);
    match v
    case Str(s) =>
      assert w.Str?;
      assert s == t[1..|t| - 1] == w.s;
    case Int(i) =>
      assert w.Int?;
      ParseIntToString(i);
      ParseIntToString(w.i);
    case Bool(b) =>
      assert w.Bool?;
      assert t[0] == (if b then 'T' else 'F') == (if w.b then 'T' else 'F');
    case NoneValue =>
  }

  /** The first character of a rendered value tells its kind. */
  lemma FirstRenderedChar(v: Value)
    ensures |RenderedValue(v)| > 0
    ensures RenderedValue(v)[0] == '\'' <==> v.Str?
    ensures v.Int? <==> RenderedValue(v)[0] == '-' || IsDigit(RenderedValue(v)[0])
    ensures v.Bool? <==> RenderedValue(v)[0] in {'T', 'F'}
    ensures v.NoneValue? <==> RenderedValue(v)[0] == 'N'
  {
    if v.Int? {
      if v.i < 0 {
        assert RenderedValue(v)[0] == '-';
      } else {
        assert IsDigit(NatToString(v.i)[0]);
      }
    }
  }

  function Tokens(r: Record): (ts: seq<string>)
    ensures |ts| == |r| && forall i :: 0 <= i < |r| ==> ts[i] == Token(r[i].0, r[i].1)
  {
    seq(|r|, i requires 0 <= i < |r| => Token(r[i].0, r[i].1))
  }

  /**
   `job_function_description`: the function's name and the common configuration, rendered as
   `<module>.<qualname>( k1=v1, k2='v2' )`; with no job parameters `job_params[0]` fails.
   */
  function Description(func: JobFunc, params: seq<Record>): (r: Result<string, ExperimentError>)
    ensures r.Failure? <==> |params| == 0
    ensures r.Failure? ==> r.error == NoParams
    ensures r.Success? ==> StartsWith(r.value, func.Name() + "( ") && EndsWith(r.value, " )")
    ensures r.Success? ==> r.value == func.Name() + "( " + Join(Tokens(CommonConfig(params[0], params[1..])), ", ") + " )"
  {
    if |params| == 0 then Failure(NoParams)
    else
      var body := Join(Tokens(CommonConfig(params[0], params[1..])), ", ");
      var text := func.Name() + "( " + body + " )";
      assert text[..|func.Name() + "( "|] == func.Name() + "( ";
      assert text[|text| - 2..] == " )";
      Success(text)
  }

  /** With a single job, every one of its parameters is rendered, in order. */
  lemma SingleJobDescription(func: JobFunc, p: Record)
    ensures Description(func, [p]) == Success(func.Name() + "( " + Join(Tokens(p), ", ") + " )")
  {
    assert [p][1..] == [];
  }

  // ---------------------------------------------------------------------------------------------
  // Profiles and `launch`.

  /** `register_profile_handler`: the handler is stored under the profile name, replacing any earlier one. */
  function RegisterProfileHandler(e: Experiment, profile: string, h: Handler): (r: Experiment)
    requires Valid(e)
    ensures Valid(r)
    ensures Keys(r.handlers) == if profile in Keys(e.handlers) then Keys(e.handlers) else Keys(e.handlers) + [profile]
    ensures Get(r.handlers, profile) == Some(h)
    ensures forall name :: name != profile ==> Get(r.handlers, name) == Get(e.handlers, name)
    ensures r.name == e.name && r.func == e.func && r.params == e.params && r.describe == e.describe
            && r.submititnowDir == e.submititnowDir && r.jobs == e.jobs
            && r.descriptions == e.descriptions && r.expId == e.expId
  {
    KeysPut(e.handlers, profile, h);
    GetPutAll(e.handlers, profile, h);
    e.(handlers := Put(e.handlers, profile, h))
  }

  /** `profile_handlers[name](params)`, if the name is registered. */
  function Handle(handlers: OrderedMap<string, Handler>, name: string, params: SlurmParams): Option<SlurmParams> {
    match Get(handlers, name)
    case Some(h) => Some(h(params))
    case None => None
  }

  /** Registering a name twice keeps the last handler; every other name keeps its handler. */
  lemma RegisterOverwrites(e: Experiment, profile: string, h1: Handler, h2: Handler, name: string, params: SlurmParams)
    requires Valid(e)
    ensures var r := RegisterProfileHandler(RegisterProfileHandler(e, profile, h1), profile, h2);
            Handle(r.handlers, name, params) == if name == profile then Some(h2(params)) else Handle(e.handlers, name, params)
  {
    var e1 := RegisterProfileHandler(e, profile, h1);
    GetPut(e.handlers, profile, h1, name);
    GetPut(e1.handlers, profile, h2, name);
  }

  datatype WaitMode = NoWait | UntilSubmitted | UntilRunning | UntilDone {
    function Name(): string {
      match this
      case NoWait => "none"
      case UntilSubmitted => "submitted"
      case UntilRunning => "running"
      case UntilDone => "done"
    }
  }

  /** `launch`'s check of `wait_until`: one of the four mode names, else `ValueError`. */
  function ParseWaitMode(waitUntil: string): (r: Result<WaitMode, ExperimentError>)
    ensures r.Success? <==> waitUntil in {"none", "submitted", "running", "done"}
    ensures r.Success? ==> r.value.Name() == waitUntil
    ensures r.Failure? ==> r.error == BadWaitMode(waitUntil)
  {
    if waitUntil == "none" then Success(NoWait)
    else if waitUntil == "submitted" then Success(UntilSubmitted)
    else if waitUntil == "running" then Success(UntilRunning)
    else if waitUntil == "done" then Success(UntilDone)
    else Failure(BadWaitMode(waitUntil))
  }

  /** Every mode's name parses back to the mode. */
  lemma WaitModeRoundTrip(m: WaitMode)
    ensures ParseWaitMode(m.Name()) == Success(m)
  {
  }

  /** `slurm_params.get("slurm_profile")`. */
  function ProfileOf(params: SlurmParams): Value {
    if "slurm_profile" in params then params["slurm_profile"] else NoneValue
  }

  /**
   The profile step of `launch`: a truthy `slurm_profile` is removed and the parameters become the
   registered handler's output; an unregistered profile is a `ValueError` naming the registered
   ones; an absent or falsy profile leaves the parameters as they are.
   */
  function ResolveProfile(handlers: OrderedMap<string, Handler>, params: SlurmParams): (r: Result<SlurmParams, ExperimentError>)
    ensures !Truthy(ProfileOf(params)) ==> r == Success(params)
    ensures Truthy(ProfileOf(params)) ==>
              (r.Success? <==> ProfileOf(params).Str? && Handle(handlers, ProfileOf(params).s, params).Some?)
    ensures r.Success? && Truthy(ProfileOf(params)) ==>
              Some(r.value) == Handle(handlers, ProfileOf(params).s, params - {"slurm_profile"})
    ensures r.Failure? ==> r.error == UnknownProfile(ProfileOf(params), Keys(handlers))
  {
    var profile := ProfileOf(params);
    if !Truthy(profile) then Success(params)
    else
      var rest := params - {"slurm_profile"};
      if profile.Str? && Get(handlers, profile.s).Some? then Success(Get(handlers, profile.s).value(rest))
      else Failure(UnknownProfile(profile, Keys(handlers)))
  }

  /**
   A launch under one of the site profiles, registered as in submititnow/umiacs/handlers.py: the
   profile key is gone from what reaches the executor, every other value the caller gave is kept,
   and the profile's defaults fill in the rest.
   */
  lemma UmiacsProfileApplied(params: SlurmParams, profile: string)
    requires ProfileOf(params) == Str(profile) && Umiacs.DefaultsOf(profile).Some?
    ensures var r := ResolveProfile(Umiacs.ProfileHandlers, params);
            var defaults := Umiacs.DefaultsOf(profile).value;
            && r.Success?
            && "slurm_profile" !in r.value
            && r.value.Keys == defaults.Keys + (params.Keys - {"slurm_profile"})
            && (forall k :: k in params && k != "slurm_profile" ==> r.value[k] == params[k])
            && (forall k :: k in defaults && k !in params ==> r.value[k] == defaults[k])
  {
    var rest := params - {"slurm_profile"};
    Umiacs.RegistryProfiles(profile, rest);
    Umiacs.ProfileKeys();
  }

  // ---------------------------------------------------------------------------------------------
  // `_assign_jobs` and `_update_tracker`.

  /** `str(start_time).split(".")[0]`: the start time without its fraction of a second. */
  function TimeField(startTime: string): (r: string)
    ensures StartsWith(startTime, r) && '.' !in r
    ensures |r| == |startTime| || startTime[|r|] == '.'
  {
    BeforeFirst(startTime, '.')
  }

  /** The first loop of `_assign_jobs`: job `i` and description `i` stored under the job's ID, `zip` stopping at the shorter. */
  function AssignPairs(jobs: OrderedMap<string, Job>, descriptions: OrderedMap<string, string>,
                       submitted: seq<Job>, texts: seq<string>): (r: (OrderedMap<string, Job>, OrderedMap<string, string>))
    requires DistinctKeys(jobs) && DistinctKeys(descriptions)
    ensures DistinctKeys(r.0) && DistinctKeys(r.1)
    decreases |submitted|
  {
    if |submitted| == 0 || |texts| == 0 then (jobs, descriptions)
    else
      AssignPairs(Put(jobs, submitted[0].id, submitted[0]), Put(descriptions, submitted[0].id, texts[0]),
                  submitted[1..], texts[1..])
  }

  predicate DistinctIds(submitted: seq<Job>) {
    forall i, j :: 0 <= i < j < |submitted| ==> submitted[i].id != submitted[j].id
  }

  lemma DistinctIdsTail(submitted: seq<Job>)
    requires DistinctIds(submitted) && |submitted| > 0
    ensures DistinctIds(submitted[1..])
    ensures forall i :: 0 <= i < |submitted[1..]| ==> submitted[1..][i].id != submitted[0].id
  {
    forall i, j | 0 <= i < j < |submitted[1..]| ensures submitted[1..][i].id != submitted[1..][j].id {
      assert submitted[1..][i] == submitted[i + 1] && submitted[1..][j] == submitted[j + 1];
    }
    forall i | 0 <= i < |submitted[1..]| ensures submitted[1..][i].id != submitted[0].id {
      assert submitted[1..][i] == submitted[i + 1];
    }
  }

  /** The pairing adds each ID to both dicts at once, so dicts with the same keys keep the same keys. */
  lemma {:induction false} AssignPairsAligned(jobs: OrderedMap<string, Job>, descriptions: OrderedMap<string, string>,
                                              submitted: seq<Job>, texts: seq<string>)
    requires DistinctKeys(jobs) && DistinctKeys(descriptions) && Keys(jobs) == Keys(descriptions)
    ensures var r := AssignPairs(jobs, descriptions, submitted, texts);
            Keys(r.0) == Keys(r.1)
    decreases |submitted|
  {
    if |submitted| > 0 && |texts| > 0 {
      KeysPut(jobs, submitted[0].id, submitted[0]);
      KeysPut(descriptions, submitted[0].id, texts[0]);
      AssignPairsAligned(Put(jobs, submitted[0].id, submitted[0]), Put(descriptions, submitted[0].id, texts[0]),
                         submitted[1..], texts[1..]);
    }
  }

  /** The pairing leaves an ID that is not paired as it was. */
  lemma {:induction false} AssignPairsUnpaired(jobs: OrderedMap<string, Job>, descriptions: OrderedMap<string, string>,
                                               submitted: seq<Job>, texts: seq<string>, id: string)
    requires DistinctKeys(jobs) && DistinctKeys(descriptions)
    requires forall i :: 0 <= i < |submitted| && i < |texts| ==> submitted[i].id != id
    ensures var r := AssignPairs(jobs, descriptions, submitted, texts);
            Get(r.0, id) == Get(jobs, id) && Get(r.1, id) == Get(descriptions, id)
    decreases |submitted|
  {
    if |submitted| > 0 && |texts| > 0 {
      GetPut(jobs, submitted[0].id, submitted[0], id);
      GetPut(descriptions, submitted[0].id, texts[0], id);
      assert forall i :: 0 <= i < |submitted[1..]| && i < |texts[1..]| ==> submitted[1..][i] == submitted[i + 1];
      AssignPairsUnpaired(Put(jobs, submitted[0].id, submitted[0]), Put(descriptions, submitted[0].id, texts[0]),
                          submitted[1..], texts[1..], id);
    }
  }

  /** After the pairing, job `i`'s ID maps to job `i` and to description `i`. */
  lemma {:induction false} AssignPairsPaired(jobs: OrderedMap<string, Job>, descriptions: OrderedMap<string, string>,
                                             submitted: seq<Job>, texts: seq<string>, i: nat)
    requires DistinctKeys(jobs) && DistinctKeys(descriptions) && DistinctIds(submitted)
    requires i < |submitted| && i < |texts|
    ensures var r := AssignPairs(jobs, descriptions, submitted, texts);
            Get(r.0, submitted[i].id) == Some(submitted[i]) && Get(r.1, submitted[i].id) == Some(texts[i])
    decreases |submitted|
  {
    var jobs' := Put(jobs, submitted[0].id, submitted[0]);
    var descriptions' := Put(descriptions, submitted[0].id, texts[0]);
    AssignPairsStep(jobs, descriptions, submitted, texts);
    DistinctIdsTail(submitted);
    if i == 0 {
      AssignPairsFirst(jobs, descriptions, submitted, texts);
    } else {
      assert submitted[1..][i - 1] == submitted[i] && texts[1..][i - 1] == texts[i];
      AssignPairsPaired(jobs', descriptions', submitted[1..], texts[1..], i - 1);
    }
  }

  /** One step of the pairing: the first job and description are put, then the rest are paired. */
  lemma AssignPairsStep(jobs: OrderedMap<string, Job>, descriptions: OrderedMap<string, string>,
                        submitted: seq<Job>, texts: seq<string>)
    requires DistinctKeys(jobs) && DistinctKeys(descriptions)
    requires |submitted| > 0 && |texts| > 0
    ensures AssignPairs(jobs, descriptions, submitted, texts)
            == AssignPairs(Put(jobs, submitted[0].id, submitted[0]), Put(descriptions, submitted[0].id, texts[0]),
                           submitted[1..], texts[1..])
  {
  }

  /** The first job's ID maps to the first job and description, as no later job reuses it. */
  lemma AssignPairsFirst(jobs: OrderedMap<string, Job>, descriptions: OrderedMap<string, string>,
                         submitted: seq<Job>, texts: seq<string>)
    requires DistinctKeys(jobs) && DistinctKeys(descriptions)
    requires |submitted| > 0 && |texts| > 0
    requires forall i :: 0 <= i < |submitted[1..]| ==> submitted[1..][i].id != submitted[0].id
    ensures var r := AssignPairs(Put(jobs, submitted[0].id, submitted[0]), Put(descriptions, submitted[0].id, texts[0]),
                                 submitted[1..], texts[1..]);
            Get(r.0, submitted[0].id) == Some(submitted[0]) && Get(r.1, submitted[0].id) == Some(texts[0])
  {
    var id := submitted[0].id;
    GetPut(jobs, id, submitted[0], id);
    GetPut(descriptions, id, texts[0], id);
    AssignPairsUnpaired(Put(jobs, id, submitted[0]), Put(descriptions, id, texts[0]), submitted[1..], texts[1..], id);
  }

  /**
   The second loop of `_assign_jobs`: one tracker line per job, in order; the description is looked
   up by the job's ID and the common configuration is rendered afresh for every line.
   */
  function TrackerRows(func: JobFunc, params: seq<Record>, descriptions: OrderedMap<string, string>,
                       submitted: seq<Job>): (r: Result<seq<seq<string>>, ExperimentError>)
    ensures r.Success? ==> |params| > 0 || |submitted| == 0
    ensures r.Success? ==> |r.value| == |submitted|
    ensures r.Success? ==> forall i :: 0 <= i < |submitted| ==>
              Get(descriptions, submitted[i].id).Some?
              && r.value[i] == [TimeField(submitted[i].startTime), submitted[i].id,
                                Get(descriptions, submitted[i].id).value, Description(func, params).value]
    ensures r.Failure? <==> (|submitted| > 0 &&
              (|params| == 0 || exists i :: 0 <= i < |submitted| && Get(descriptions, submitted[i].id).None?))
    decreases |submitted|
  {
    if |submitted| == 0 then Success([])
    else
      var job := submitted[0];
      match Get(descriptions, job.id)
      case None => Failure(MissingDescription(job.id))
      case Some(text) =>
        var config :- Description(func, params);
        var rest :- TrackerRows(func, params, descriptions, submitted[1..]);
        assert forall i :: 1 <= i < |submitted| ==> submitted[i] == submitted[1..][i - 1];
        Success([[TimeField(job.startTime), job.id, text, config]] + rest)
  }

  /** The tracker lines of assigning `submitted` with `texts`. */
  function Assigned(e: Experiment, submitted: seq<Job>, texts: seq<string>): Result<seq<seq<string>>, ExperimentError>
    requires Valid(e)
  {
    TrackerRows(e.func, e.params, AssignPairs(e.jobs, e.descriptions, submitted, texts).1, submitted)
  }

  /**
   `_assign_jobs`: the experiment ID is the first job's ID up to its first `_`; jobs and
   descriptions are paired by position; then one line per job is appended to the tracker text.
   Rendering the configuration for a line deletes, in place, every entry of `job_params[0]` that a
   later record contradicts, so afterwards the first record is the common configuration.
   An empty job list fails at `jobs[0]`.
   */
  function AssignJobs(e: Experiment, submitted: seq<Job>, texts: seq<string>, tracker: string): (r: Result<(Experiment, string), ExperimentError>)
    requires Valid(e)
    ensures |submitted| == 0 ==> r == Failure(NoJobs)
    ensures r.Success? ==> Valid(r.value.0)
    ensures r.Success? ==> r.value.0.expId == Some(ArrayId(submitted[0].id))
    ensures r.Success? <==> |submitted| > 0 && Assigned(e, submitted, texts).Success?
    ensures r.Success? ==> r.value.0.jobs == AssignPairs(e.jobs, e.descriptions, submitted, texts).0
    ensures r.Success? ==> r.value.0.descriptions == AssignPairs(e.jobs, e.descriptions, submitted, texts).1
    ensures r.Success? ==> |e.params| > 0 && |r.value.0.params| == |e.params| && r.value.0.params[1..] == e.params[1..]
    ensures r.Success? ==> r.value.0.params[0] == CommonConfig(e.params[0], e.params[1..])
    ensures r.Success? ==> r.value.0.name == e.name && r.value.0.func == e.func
                           && r.value.0.describe == e.describe && r.value.0.submititnowDir == e.submititnowDir
                           && r.value.0.handlers == e.handlers
    ensures r.Success? ==> r.value.1 == tracker + FormatRows(Assigned(e, submitted, texts).value)
  {
    if |submitted| == 0 then Failure(NoJobs)
    else
      var (jobs, descriptions) := AssignPairs(e.jobs, e.descriptions, submitted, texts);
      var rows :- TrackerRows(e.func, e.params, descriptions, submitted);
      var params := [CommonConfig(e.params[0], e.params[1..])] + e.params[1..];
      var e' := e.(expId := Some(ArrayId(submitted[0].id)), jobs := jobs, descriptions := descriptions, params := params);
      Success((e', tracker + FormatRows(rows)))
  }

  /** Parameter records as `vars()` gives them: no key twice in a record. */
  predicate DistinctRecords(params: seq<Record>) {
    forall i :: 0 <= i < |params| ==> DistinctKeys(params[i])
  }

  /**
   After `_assign_jobs` the first record is already pruned: pruning it again removes nothing, the
   later records are untouched, and the description rendered from the pruned records is the one
   the tracker lines carry.
   */
  lemma AssignmentPrunesFirstRecord(e: Experiment, submitted: seq<Job>, texts: seq<string>, tracker: string)
    requires Valid(e) && DistinctRecords(e.params)
    requires AssignJobs(e, submitted, texts, tracker).Success?
    ensures var params := AssignJobs(e, submitted, texts, tracker).value.0.params;
            && |params| == |e.params| && params[1..] == e.params[1..]
            && CommonConfig(params[0], params[1..]) == params[0]
            && Description(e.func, params) == Description(e.func, e.params)
  {
    var params := AssignJobs(e, submitted, texts, tracker).value.0.params;
    PrunedFirstRecordDescribesTheSame(e.func, e.params[0], e.params[1..]);
    assert [e.params[0]] + e.params[1..] == e.params;
    assert params[1..] == e.params[1..];
  }

  /**
   The pruning outlives the launch: with records `a=1, b=2` and `a=1, b=3`, the experiment left
   behind holds `a=1` alone as its first record, so a second launch submits and describes job 0
   without `b`.
   */
  lemma AssignmentDropsDisagreeingKey(e: Experiment, submitted: seq<Job>, texts: seq<string>, tracker: string)
    requires Valid(e) && e.params == [[("a", Int(1)), ("b", Int(2))], [("a", Int(1)), ("b", Int(3))]]
    requires AssignJobs(e, submitted, texts, tracker).Success?
    ensures AssignJobs(e, submitted, texts, tracker).value.0.params == [[("a", Int(1))], [("a", Int(1)), ("b", Int(3))]]
  {
    DisagreeingKeyPruned();
    assert e.params[1..] == [e.params[1]];
  }

  /** `b` differs between the two records, so the common configuration keeps `a` alone. */
  lemma DisagreeingKeyPruned()
    ensures CommonConfig([("a", Int(1)), ("b", Int(2))], [[("a", Int(1)), ("b", Int(3))]]) == [("a", Int(1))]
  {
    var first: Record := [("a", Int(1)), ("b", Int(2))];
    var later: Record := [("a", Int(1)), ("b", Int(3))];
    var kept: Record := [("a", Int(1))];
    assert Get(first, "a") == Some(Int(1)) && Get(first, "b") == Some(Int(2));
    assert Prune(first, later) == Prune(first, later[1..]);
    assert Remove(first, "b") == kept by {
      assert Filter(first, (e: (string, Value)) => e.0 != "b") == kept;
    }
    assert Prune(first, later[1..]) == Prune(kept, []);
    assert CommonConfig(first, [later]) == CommonConfig(kept, []);
  }

  /** With distinct job IDs and a description for each, every job's line carries its own description. */
  lemma AssignedRowsCarryDescriptions(e: Experiment, submitted: seq<Job>, texts: seq<string>)
    requires Valid(e) && DistinctIds(submitted) && |texts| >= |submitted| && |e.params| > 0
    ensures Assigned(e, submitted, texts).Success?
    ensures var rows := Assigned(e, submitted, texts).value;
            forall i :: 0 <= i < |submitted| ==>
              rows[i] == [TimeField(submitted[i].startTime), submitted[i].id, texts[i], Description(e.func, e.params).value]
  {
    var descriptions := AssignPairs(e.jobs, e.descriptions, submitted, texts).1;
    forall j | 0 <= j < |submitted| ensures Get(descriptions, submitted[j].id) == Some(texts[j]) {
      AssignPairsPaired(e.jobs, e.descriptions, submitted, texts, j);
    }
  }

  /** A job whose tracker line the loader reads back unchanged. */
  predicate StorableJob(job: Job, text: string) {
    Storable(TimeField(job.startTime)) && Storable(job.id) && Storable(text) && ParseInt(ArrayId(job.id)).Some?
  }

  /** Every job, with the description at its position, is storable. */
  predicate StorableJobs(submitted: seq<Job>, texts: seq<string>) {
    |texts| >= |submitted| && forall i :: 0 <= i < |submitted| ==> StorableJob(submitted[i], texts[i])
  }

  /** The row a job's tracker line loads as. */
  function JobAsLoaded(job: Job, text: string, config: string): LoadedRow
    requires ParseInt(ArrayId(job.id)).Some?
  {
    LoadedRow(ParseInt(ArrayId(job.id)).value, Some(TimeField(job.startTime)), job.id, Some(text), config)
  }

  /** The tracker lines of an assignment are loadable and load as their jobs. */
  lemma AssignedRowsLoadable(e: Experiment, submitted: seq<Job>, texts: seq<string>)
    requires Valid(e) && DistinctIds(submitted) && |e.params| > 0 && |submitted| > 0
    requires StorableJobs(submitted, texts)
    requires Storable(Description(e.func, e.params).value)
    ensures Assigned(e, submitted, texts).Success?
    ensures var rows := Assigned(e, submitted, texts).value;
            |rows| == |submitted|
            && (forall i :: 0 <= i < |rows| ==> LoadableRow(rows[i]))
            && forall i :: 0 <= i < |rows| ==>
                 RowAsLoaded(rows[i]) == JobAsLoaded(submitted[i], texts[i], Description(e.func, e.params).value)
  {
    AssignedRowsCarryDescriptions(e, submitted, texts);
    var rows := Assigned(e, submitted, texts).value;
    forall i | 0 <= i < |submitted|
      ensures LoadableRow(rows[i])
      ensures RowAsLoaded(rows[i]) == JobAsLoaded(submitted[i], texts[i], Description(e.func, e.params).value)
    {
      assert StorableJob(submitted[i], texts[i]);
      LoadableFields(TimeField(submitted[i].startTime), submitted[i].id, texts[i], Description(e.func, e.params).value);
    }
  }

  /** The rows the tracker lines of `submitted` load as. */
  function JobsAsLoaded(submitted: seq<Job>, texts: seq<string>, config: string): (rows: seq<LoadedRow>)
    requires StorableJobs(submitted, texts)
    ensures |rows| == |submitted|
    ensures forall i :: 0 <= i < |submitted| ==> rows[i] == JobAsLoaded(submitted[i], texts[i], config)
  {
    seq(|submitted|, i requires 0 <= i < |submitted| => JobAsLoaded(submitted[i], texts[i], config))
  }

  /**
   Reading the tracker back after an assignment: the old rows, then one row per job in order with
   its ID, its start time, its own description and the common configuration.
   */
  lemma AssignedTrackerLoads(e: Experiment, submitted: seq<Job>, texts: seq<string>, tracker: string)
    requires Valid(e) && DistinctIds(submitted) && |e.params| > 0 && |submitted| > 0
    requires EndsLine(tracker) && LoadCsv(tracker).Success?
    requires StorableJobs(submitted, texts)
    requires Storable(Description(e.func, e.params).value)
    ensures AssignJobs(e, submitted, texts, tracker).Success?
    ensures LoadCsv(AssignJobs(e, submitted, texts, tracker).value.1)
            == Success(LoadCsv(tracker).value + JobsAsLoaded(submitted, texts, Description(e.func, e.params).value))
  {
    AssignedTextLoads(e, submitted, texts, tracker);
  }

  /** The tracker text extended by the assigned lines loads as the old rows and then the jobs. */
  lemma AssignedTextLoads(e: Experiment, submitted: seq<Job>, texts: seq<string>, tracker: string)
    requires Valid(e) && DistinctIds(submitted) && |e.params| > 0 && |submitted| > 0
    requires EndsLine(tracker) && LoadCsv(tracker).Success?
    requires StorableJobs(submitted, texts)
    requires Storable(Description(e.func, e.params).value)
    ensures Assigned(e, submitted, texts).Success?
    ensures LoadCsv(tracker + FormatRows(Assigned(e, submitted, texts).value))
            == Success(LoadCsv(tracker).value + JobsAsLoaded(submitted, texts, Description(e.func, e.params).value))
  {
    AssignedRowsAsLoaded(e, submitted, texts);
    AppendedTrackerLoads(tracker, Assigned(e, submitted, texts).value);
  }

  /** The assigned lines, each loaded on its own, are the jobs as the tracker shows them. */
  lemma AssignedRowsAsLoaded(e: Experiment, submitted: seq<Job>, texts: seq<string>)
    requires Valid(e) && DistinctIds(submitted) && |e.params| > 0 && |submitted| > 0
    requires StorableJobs(submitted, texts)
    requires Storable(Description(e.func, e.params).value)
    ensures Assigned(e, submitted, texts).Success?
    ensures forall i :: 0 <= i < |Assigned(e, submitted, texts).value| ==> LoadableRow(Assigned(e, submitted, texts).value[i])
    ensures LoadedRows(Assigned(e, submitted, texts).value) == JobsAsLoaded(submitted, texts, Description(e.func, e.params).value)
  {
    AssignedRowsLoadable(e, submitted, texts);
    var rows := Assigned(e, submitted, texts).value;
    assert LoadedRows(rows) == JobsAsLoaded(submitted, texts, Description(e.func, e.params).value);
  }

  /** `map(self.job_desc_function, self.job_params)`: one description per parameter record, in order. */
  function Describe(describe: Record -> string, params: seq<Record>): (texts: seq<string>)
    ensures |texts| == |params| && forall i :: 0 <= i < |params| ==> texts[i] == describe(params[i])
  {
    seq(|params|, i requires 0 <= i < |params| => describe(params[i]))
  }

  /** What `launch` returns and leaves behind. */
  datatype Launched = Launched(exp: Experiment, executorParams: SlurmParams, mode: WaitMode, tracker: string)

  /**
   The bookkeeping part of `launch`: the wait mode is checked first, then the profile resolved;
   the scheduler's jobs (an input, one per parameter record) are assigned with one description per
   record, and the tracker text is extended.
   */
  function Launch(e: Experiment, slurmParams: SlurmParams, waitUntil: string, submitted: seq<Job>,
                  tracker: string): (r: Result<Launched, ExperimentError>)
    requires Valid(e)
    ensures waitUntil !in {"none", "submitted", "running", "done"} ==> r == Failure(BadWaitMode(waitUntil))
    ensures r.Success? ==> r.value.mode.Name() == waitUntil
    ensures r.Success? ==> Success(r.value.executorParams) == ResolveProfile(e.handlers, slurmParams)
    ensures r.Success? ==> |submitted| > 0 && r.value.exp.expId == Some(ArrayId(submitted[0].id)) && Valid(r.value.exp)
    ensures ParseWaitMode(waitUntil).Success? && ResolveProfile(e.handlers, slurmParams).Failure? ==>
              r == Failure(ResolveProfile(e.handlers, slurmParams).error)
    ensures r.Success? <==> ParseWaitMode(waitUntil).Success? && ResolveProfile(e.handlers, slurmParams).Success?
                            && AssignJobs(e, submitted, Describe(e.describe, e.params), tracker).Success?
    ensures r.Success? ==> AssignJobs(e, submitted, Describe(e.describe, e.params), tracker)
                           == Success((r.value.exp, r.value.tracker))
  {
    var mode :- ParseWaitMode(waitUntil);
    var params :- ResolveProfile(e.handlers, slurmParams);
    var result :- AssignJobs(e, submitted, Describe(e.describe, e.params), tracker);
    Success(Launched(result.0, params, mode, result.1))
  }

  /**
   After a launch the tracker reads back as its old rows followed by one row per submitted job, in
   order, each with the description of its own parameter record and the common configuration.
   */
  lemma LaunchedTrackerLoads(e: Experiment, slurmParams: SlurmParams, waitUntil: string, submitted: seq<Job>,
                             tracker: string)
    requires Valid(e) && DistinctIds(submitted) && |e.params| > 0 && |submitted| > 0
    requires EndsLine(tracker) && LoadCsv(tracker).Success?
    requires StorableJobs(submitted, Describe(e.describe, e.params))
    requires Storable(Description(e.func, e.params).value)
    requires Launch(e, slurmParams, waitUntil, submitted, tracker).Success?
    ensures LoadCsv(Launch(e, slurmParams, waitUntil, submitted, tracker).value.tracker)
            == Success(LoadCsv(tracker).value + JobsAsLoaded(submitted, Describe(e.describe, e.params), Description(e.func, e.params).value))
  {
    AssignedTrackerLoads(e, submitted, Describe(e.describe, e.params), tracker);
  }
}

=== FILE: jobfiles.dfy ===
/**
 Locating a job's files and reading the scheduler queue (submititnow/jt/utils.py:17-56; the
 legacy submititnow/jt_utils.py:14-53 has the same code). The directory walk and the `squeue`
 call are inputs: the walked paths in walk order, and the lines of the queue listing.
 */
module JobFiles {
  import opened Wrappers
  import opened Text
  import opened Seqs

  datatype LookupError =
    | TooManyUnderscores(jobTask: string)  // `job_id, task_id = job_task.split("_")` cannot unpack
    | BlankQueueRow(row: string)           // `x.strip().split()[0]` on a blank `squeue` row
    | MissingFileKind(kind: string)        // `get_job_filepaths(job_task)[file_type]`

  /** The array part of a job ID, Python `job_id.split("_")[0]`. */
  function ArrayId(jobId: string): (r: string)
    ensures StartsWith(jobId, r) && '_' !in r
    ensures |r| == |jobId| || jobId[|r|] == '_'
  {
    BeforeFirst(jobId, '_')
  }

  /**
   `get_running_job_ids`: the header row of the queue listing is dropped, and every other row
   contributes the array part of its first whitespace-separated word.
   */
  function RunningJobIds(squeueLines: seq<string>): (r: Result<seq<string>, LookupError>)
    ensures r.Failure? <==> exists i :: 1 <= i < |squeueLines| && AllSpace(squeueLines[i])
    ensures r.Success? ==> |squeueLines| == 0 || |r.value| == |squeueLines| - 1
    ensures r.Success? ==> forall i :: 1 <= i < |squeueLines| ==>
              FirstWord(squeueLines[i]).Some? && r.value[i - 1] == ArrayId(FirstWord(squeueLines[i]).value)
  {
    if |squeueLines| == 0 then Success([])
    else
      assert forall i :: 1 <= i < |squeueLines| ==> squeueLines[i] == squeueLines[1..][i - 1];
      QueueRowIds(squeueLines[1..])
  }

  function QueueRowIds(rows: seq<string>): (r: Result<seq<string>, LookupError>)
    ensures r.Failure? <==> exists i :: 0 <= i < |rows| && AllSpace(rows[i])
    ensures r.Success? ==> |r.value| == |rows|
    ensures r.Success? ==> forall i :: 0 <= i < |rows| ==>
              FirstWord(rows[i]).Some? && r.value[i] == ArrayId(FirstWord(rows[i]).value)
    decreases |rows|
  {
    if |rows| == 0 then Success([])
    else
      match FirstWord(rows[0])
      case None => Failure(BlankQueueRow(rows[0]))
      case Some(w) =>
        match QueueRowIds(rows[1..])
        case Failure(e) =>
          ExistsFromTail(AllSpace, rows);
          Failure(e)
        case Success(rest) =>
          PointwiseCons(QueueRowId, (id: string) => Some(id), rows, ArrayId(w), rest);
          Success([ArrayId(w)] + rest)
  }

  /** The array job ID at the head of one `squeue` row, if the row has a word. */
  function QueueRowId(row: string): Option<string> {
    match FirstWord(row)
    case Some(w) => Some(ArrayId(w))
    case None => None
  }

  /** A job ID split into its array job and its task; `Tag` is how file names embed it. */
  datatype JobTask = JobTask(job: string, task: string) {
    function Tag(): string {
      job + "_" + task
    }
  }

  /**
   `get_job_filepaths`' split: `"a_b"` is job `a`, task `b`; an ID without `_` is task `0`;
   two or more underscores cannot be unpacked into two names.
   */
  function SplitJobTask(jobTask: string): (r: Result<JobTask, LookupError>)
    ensures r.Failure? <==> multiset(jobTask)['_'] >= 2
    ensures '_' !in jobTask ==> r == Success(JobTask(jobTask, "0"))
    ensures r.Success? && '_' in jobTask ==>
              r.value.Tag() == jobTask && '_' !in r.value.job && '_' !in r.value.task
  {
    var ps := Split(jobTask, {'_'});
    SplitCount(jobTask, '_');
    if '_' !in jobTask then
      Success(JobTask(jobTask, "0"))
    else if |ps| == 2 then
      JoinSplit(jobTask, '_');
      assert Join(ps, "_") == ps[0] + "_" + ps[1];
      Success(JobTask(ps[0], ps[1]))
    else
      Failure(TooManyUnderscores(jobTask))
  }

  /**
   The key a tag-matching path is filed under as written: the text after its last `.`; the `pkl`
   branch re-splits that same text at `_` (`name` and `ext` are bound to the same string), which
   leaves `"pkl"` unchanged.
   */
  function WrittenExtensionKey(path: string): string {
    var ext := Last(Split(path, {'.'}));
    if ext == "pkl" then Last(Split(ext, {'_'})) else ext
  }

  /** The path before its last `.` (`path.rsplit(".", 1)[0]`); the whole path when it has no `.`. */
  function Stem(path: string): string {
    var ps := Split(path, {'.'});
    if |ps| == 1 then path else Join(ps[..|ps| - 1], ".")
  }

  /**
   The key a tag-matching path is filed under: the text after its last `.`, except that a pickle
   is filed under the last `_`-separated word of its name, so that `<tag>_submitted.pkl` and
   `<tag>_result.pkl` are told apart.
   */
  function ExtensionKey(path: string): string {
    var ext := Last(Split(path, {'.'}));
    if ext == "pkl" then Last(Split(Stem(path), {'_'})) else ext
  }

  /**
   Where `find_job_files` files a path, if anywhere: a `.sh` path containing the job ID is the
   submission script; any other path containing the job-task tag goes under the key the code
   computes for it, which is its extension, pickles included.
   */
  function FileKey(path: string, jt: JobTask): Option<string> {
    if EndsWith(path, ".sh") && Contains(path, jt.job) then Some("sh")
    else if Contains(path, jt.Tag()) then Some(WrittenExtensionKey(path))
    else None
  }

  /** `FileKey` with the corrected pickle key: a pickle goes under the last `_` word of its stem. */
  function CorrectedFileKey(path: string, jt: JobTask): Option<string> {
    if EndsWith(path, ".sh") && Contains(path, jt.job) then Some("sh")
    else if Contains(path, jt.Tag()) then Some(ExtensionKey(path))
    else None
  }

  /** Storing each value under its key, if it has one, one after the other. */
  function Collect(keyed: seq<(Option<string>, string)>): map<string, string>
    decreases |keyed|
  {
    if |keyed| == 0 then map[]
    else
      var files := Collect(keyed[..|keyed| - 1]);
      match keyed[|keyed| - 1].0
      case None => files
      case Some(k) => files[k := keyed[|keyed| - 1].1]
  }

  /** A key is collected iff some entry carries it, and it holds the value of the last such entry. */
  lemma {:induction false} CollectLastWins(keyed: seq<(Option<string>, string)>, k: string)
    ensures k in Collect(keyed) <==> exists i :: 0 <= i < |keyed| && keyed[i].0 == Some(k)
    ensures k in Collect(keyed) ==>
              exists i :: 0 <= i < |keyed| && keyed[i] == (Some(k), Collect(keyed)[k])
                && forall j :: i < j < |keyed| ==> keyed[j].0 != Some(k)
    decreases |keyed|
  {
    if |keyed| > 0 {
      var last := |keyed| - 1;
      var init := keyed[..last];
      CollectLastWins(init, k);
      if keyed[last].0 == Some(k) {
        assert keyed[last] == (Some(k), Collect(keyed)[k]);
      } else {
        assert k in Collect(keyed) <==> k in Collect(init);
        if k in Collect(init) {
          assert Collect(keyed)[k] == Collect(init)[k];
          var i :| 0 <= i < |init| && init[i] == (Some(k), Collect(init)[k])
                   && forall j :: i < j < |init| ==> init[j].0 != Some(k);
          assert keyed[i] == init[i];
          assert forall j :: i < j < |keyed| ==> keyed[j].0 != Some(k) by {
            forall j | i < j < |keyed|
              ensures keyed[j].0 != Some(k)
            {
              if j < last {
                assert keyed[j] == init[j];
              }
            }
          }
        }
        if exists i :: 0 <= i < |keyed| && keyed[i].0 == Some(k) {
          var i :| 0 <= i < |keyed| && keyed[i].0 == Some(k);
          assert init[i] == keyed[i];
        }
      }
    }
  }

  /**
   Filing walked paths with `filer`: every path it files is stored under its key, a later path
   replacing an earlier one with the same key.
   */
  function FileAll(filer: string -> Option<string>, paths: seq<string>): (files: map<string, string>)
    ensures forall k :: k in files <==> exists i :: 0 <= i < |paths| && filer(paths[i]) == Some(k)
    ensures forall k :: k in files ==>
              exists i :: 0 <= i < |paths| && filer(paths[i]) == Some(k) && files[k] == paths[i]
                && forall j :: i < j < |paths| ==> filer(paths[j]) != Some(k)
  {
    var keyed := seq(|paths|, i requires 0 <= i < |paths| => (filer(paths[i]), paths[i]));
    var files := Collect(keyed);
    forall k
      ensures k in files <==> exists i :: 0 <= i < |paths| && filer(paths[i]) == Some(k)
      ensures k in files ==>
              exists i :: 0 <= i < |paths| && filer(paths[i]) == Some(k) && files[k] == paths[i]
                && forall j :: i < j < |paths| ==> filer(paths[j]) != Some(k)
    {
      CollectLastWins(keyed, k);
      if k in files {
        var i :| 0 <= i < |keyed| && keyed[i] == (Some(k), files[k])
                 && forall j :: i < j < |keyed| ==> keyed[j].0 != Some(k);
        assert filer(paths[i]) == Some(k) && files[k] == paths[i];
        assert forall j :: i < j < |paths| ==> filer(paths[j]) == keyed[j].0;
      }
      if exists i :: 0 <= i < |paths| && filer(paths[i]) == Some(k) {
        var i :| 0 <= i < |paths| && filer(paths[i]) == Some(k);
        assert keyed[i].0 == Some(k);
      }
    }
    files
  }

  /**
   `find_job_files`: every walked path that `FileKey` files is stored under its key, a later path
   replacing an earlier one with the same key.
   */
  function FindJobFiles(jt: JobTask, paths: seq<string>): (files: map<string, string>)
    ensures forall k :: k in files <==> exists i :: 0 <= i < |paths| && FileKey(paths[i], jt) == Some(k)
    ensures forall k :: k in files ==>
              exists i :: 0 <= i < |paths| && FileKey(paths[i], jt) == Some(k) && files[k] == paths[i]
                && forall j :: i < j < |paths| ==> FileKey(paths[j], jt) != Some(k)
  {
    FileAll(path => FileKey(path, jt), paths)
  }

  /** `find_job_files` as evidently intended: the same filing with `CorrectedFileKey`. */
  function CorrectedFindJobFiles(jt: JobTask, paths: seq<string>): (files: map<string, string>)
    ensures forall k :: k in files <==> exists i :: 0 <= i < |paths| && CorrectedFileKey(paths[i], jt) == Some(k)
    ensures forall k :: k in files ==>
              exists i :: 0 <= i < |paths| && CorrectedFileKey(paths[i], jt) == Some(k) && files[k] == paths[i]
                && forall j :: i < j < |paths| ==> CorrectedFileKey(paths[j], jt) != Some(k)
  {
    FileAll(path => CorrectedFileKey(path, jt), paths)
  }

  /** `get_job_filepaths`: split the ID, then collect the files. */
  function JobFilepaths(jobTask: string, paths: seq<string>): (r: Result<map<string, string>, LookupError>)
    ensures r.Failure? <==> SplitJobTask(jobTask).Failure?
    ensures r.Success? ==> r.value == FindJobFiles(SplitJobTask(jobTask).value, paths)
  {
    var jt :- SplitJobTask(jobTask);
    Success(FindJobFiles(jt, paths))
  }

  /** `get_job_filepath`: one kind of file; a kind that was not found is a `KeyError`. */
  function JobFilepath(jobTask: string, kind: string, paths: seq<string>): (r: Result<string, LookupError>)
    ensures r.Success? ==> SplitJobTask(jobTask).Success?
    ensures r.Success? ==> exists i :: 0 <= i < |paths| && paths[i] == r.value
                             && FileKey(paths[i], SplitJobTask(jobTask).value) == Some(kind)
                             && forall j :: i < j < |paths| ==> FileKey(paths[j], SplitJobTask(jobTask).value) != Some(kind)
    ensures SplitJobTask(jobTask).Success? ==>
              (r.Failure? <==> forall i :: 0 <= i < |paths| ==> FileKey(paths[i], SplitJobTask(jobTask).value) != Some(kind))
    ensures r.Failure? ==> r.error == (if SplitJobTask(jobTask).Failure? then SplitJobTask(jobTask).error else MissingFileKind(kind))
  {
    var files :- JobFilepaths(jobTask, paths);
    if kind in files then Success(files[kind]) else Failure(MissingFileKind(kind))
  }

  lemma {:induction false} ContainsPrefixOf(s: string, a: string, b: string)
    requires Contains(s, a + b)
    ensures Contains(s, a)
    decreases |s|
  {
    if StartsWith(s, a + b) {
      assert s[..|a|] == (a + b)[..|a|] == a;
    } else {
      ContainsPrefixOf(s[1..], a, b);
    }
  }

  /** A path filed for a job names the job's ID: the job-task tag starts with it. */
  lemma FiledPathNamesTheJob(path: string, jt: JobTask)
    requires FileKey(path, jt).Some?
    ensures Contains(path, jt.job)
  {
    if !(EndsWith(path, ".sh") && Contains(path, jt.job)) {
      assert jt.Tag() == jt.job + ("_" + jt.task);
      ContainsPrefixOf(path, jt.job, "_" + jt.task);
    }
  }

  /** Every path `find_job_files` reports for a job names the job's ID somewhere in it. */
  lemma FoundFilesNameTheJob(jt: JobTask, paths: seq<string>, k: string)
    requires k in FindJobFiles(jt, paths)
    ensures Contains(FindJobFiles(jt, paths)[k], jt.job)
  {
    var files := FindJobFiles(jt, paths);
    var i :| 0 <= i < |paths| && FileKey(paths[i], jt) == Some(k) && files[k] == paths[i]
             && forall j :: i < j < |paths| ==> FileKey(paths[j], jt) != Some(k);
    FiledPathNamesTheJob(paths[i], jt);
  }

  /** A path ending in `.pkl` has extension `pkl` and, before it, its stem. */
  lemma PickleExtension(stem: string)
    ensures Last(Split(stem + ".pkl", {'.'})) == "pkl"
    ensures Stem(stem + ".pkl") == stem
  {
    assert stem + ".pkl" == stem + ['.'] + "pkl";
    SplitAround(stem, '.', "pkl", {'.'});
    SplitAvoiding("pkl", {'.'});
    var ps := Split(stem + ".pkl", {'.'});
    assert ps[..|ps| - 1] == Split(stem, {'.'});
    JoinSplit(stem, '.');
  }

  /** As written, the `pkl` branch changes nothing: every tag match is filed under the text after its last `.`. */
  lemma PklBranchCollapses(path: string)
    ensures WrittenExtensionKey(path) == Last(Split(path, {'.'}))
  {
    var ext := Last(Split(path, {'.'}));
    if ext == "pkl" {
      SplitAvoiding(ext, {'_'});
    }
  }

  /**
   As written, a job's submission pickle and result pickle are both filed under `"pkl"`, so the
   one walked later hides the other.
   */
  lemma WrittenPicklesCollide(tag: string, kind: string, kind': string)
    ensures WrittenExtensionKey(tag + "_" + kind + ".pkl") == WrittenExtensionKey(tag + "_" + kind' + ".pkl") == "pkl"
  {
    PickleExtension(tag + "_" + kind);
    PickleExtension(tag + "_" + kind');
    PklBranchCollapses(tag + "_" + kind + ".pkl");
    PklBranchCollapses(tag + "_" + kind' + ".pkl");
  }

  /** A pickle `<tag>_<kind>.pkl` is filed under its kind, so different kinds never collide. */
  lemma PickleFiledUnderItsKind(tag: string, kind: string, kind': string)
    requires Avoids(kind, {'_'}) && Avoids(kind', {'_'})
    ensures ExtensionKey(tag + "_" + kind + ".pkl") == kind
    ensures kind != kind' ==> ExtensionKey(tag + "_" + kind + ".pkl") != ExtensionKey(tag + "_" + kind' + ".pkl")
  {
    forall k | k in {kind, kind'} ensures ExtensionKey(tag + "_" + k + ".pkl") == k {
      PickleExtension(tag + "_" + k);
      assert tag + "_" + k == tag + ['_'] + k;
      SplitAround(tag, '_', k, {'_'});
      SplitAvoiding(k, {'_'});
    }
  }

  /** A path ending in `.pkl` is no `.sh` script. */
  lemma PickleIsNoScript(stem: string)
    ensures !EndsWith(stem + ".pkl", ".sh")
  {
    var path := stem + ".pkl";
    assert path[|path| - 1] == 'l';
  }

  /** `a + b + c` contains `b`. */
  lemma {:induction false} ContainsMiddle(a: string, b: string, c: string)
    ensures Contains(a + b + c, b)
    decreases |a|
  {
    if |a| == 0 {
      assert a + b + c == b + c;
      assert (b + c)[..|b|] == b;
    } else {
      ContainsMiddle(a[1..], b, c);
      assert (a + b + c)[1..] == a[1..] + b + c;
    }
  }

  /** A pickle `<dir><tag>_<kind>.pkl` of the job is filed, and not as its script. */
  lemma PickleOfTheJob(jt: JobTask, dir: string, kind: string)
    ensures !(EndsWith(dir + jt.Tag() + "_" + kind + ".pkl", ".sh"))
    ensures Contains(dir + jt.Tag() + "_" + kind + ".pkl", jt.Tag())
  {
    var path := dir + jt.Tag() + "_" + kind + ".pkl";
    assert path == (dir + jt.Tag() + "_" + kind) + ".pkl";
    PickleIsNoScript(dir + jt.Tag() + "_" + kind);
    assert path == dir + jt.Tag() + ("_" + kind + ".pkl");
    ContainsMiddle(dir, jt.Tag(), "_" + kind + ".pkl");
  }

  /**
   As written, when one walk finds a job's pickles of two kinds, `find_job_files` keeps one entry
   for both, `pkl`, holding the one walked later; the earlier pickle is lost.
   */
  lemma WrittenFinderKeepsOnePickle(jt: JobTask, dir: string, kind: string, kind': string)
    ensures var first, second := dir + jt.Tag() + "_" + kind + ".pkl", dir + jt.Tag() + "_" + kind' + ".pkl";
            FindJobFiles(jt, [first, second]) == map["pkl" := second]
  {
    var first, second := dir + jt.Tag() + "_" + kind + ".pkl", dir + jt.Tag() + "_" + kind' + ".pkl";
    assert FileKey(first, jt) == Some("pkl") && FileKey(second, jt) == Some("pkl") by {
      PickleOfTheJob(jt, dir, kind);
      PickleOfTheJob(jt, dir, kind');
      WrittenPicklesCollide(dir + jt.Tag(), kind, kind');
    }
    FileAllPair(path => FileKey(path, jt), first, second, "pkl", "pkl");
  }

  /**
   As written, `get_job_filepath(job_task, "pkl")` on a walk that finds two of the job's pickles
   returns the later one, and looking a pickle up by its kind is a `KeyError`.
   */
  lemma PickleLookupGetsTheLaterPickle(jobTask: string, dir: string, kind: string, kind': string)
    requires '_' in jobTask && SplitJobTask(jobTask).Success?
    ensures var paths := [dir + jobTask + "_" + kind + ".pkl", dir + jobTask + "_" + kind' + ".pkl"];
            && JobFilepath(jobTask, "pkl", paths) == Success(paths[1])
            && forall other :: other != "pkl" ==> JobFilepath(jobTask, other, paths) == Failure(MissingFileKind(other))
  {
    var jt := SplitJobTask(jobTask).value;
    assert jt.Tag() == jobTask;
    WrittenFinderKeepsOnePickle(jt, dir, kind, kind');
  }

  /** As intended, the same walk keeps both pickles, each under its own kind. */
  lemma CorrectedFinderKeepsBothPickles(jt: JobTask, dir: string, kind: string, kind': string)
    requires Avoids(kind, {'_'}) && Avoids(kind', {'_'}) && kind != kind'
    ensures var first, second := dir + jt.Tag() + "_" + kind + ".pkl", dir + jt.Tag() + "_" + kind' + ".pkl";
            CorrectedFindJobFiles(jt, [first, second]) == map[kind := first, kind' := second]
  {
    var first, second := dir + jt.Tag() + "_" + kind + ".pkl", dir + jt.Tag() + "_" + kind' + ".pkl";
    assert CorrectedFileKey(first, jt) == Some(kind) && CorrectedFileKey(second, jt) == Some(kind') by {
      PickleOfTheJob(jt, dir, kind);
      PickleOfTheJob(jt, dir, kind');
      PickleFiledUnderItsKind(dir + jt.Tag(), kind, kind');
      PickleFiledUnderItsKind(dir + jt.Tag(), kind', kind);
    }
    FileAllPair(path => CorrectedFileKey(path, jt), first, second, kind, kind');
  }

  /** Two walked paths filed under `k` and `k'`: the later one wins when the keys agree. */
  lemma FileAllPair(filer: string -> Option<string>, a: string, b: string, k: string, k': string)
    requires filer(a) == Some(k) && filer(b) == Some(k')
    ensures FileAll(filer, [a, b]) == if k == k' then map[k' := b] else map[k := a, k' := b]
  {
    var paths := [a, b];
    var files := FileAll(filer, paths);
    assert k' in files && files[k'] == b by {
      assert filer(paths[1]) == Some(k');
    }
    assert k in files && files[k] == (if k == k' then b else a) by {
      assert filer(paths[0]) == Some(k);
    }
    assert files.Keys == {k, k'};
  }
}

=== FILE: jobstate.dfy ===
/**
 The log-based job-state classifier `load_job_states` (submititnow/jt/utils.py:59-110) and its
 older copy in submititnow/jt_utils.py:56-102, which differs only in which standard-error lines
 it reads. File contents are an input: `read(path)` is the file's `readlines()`, each line
 keeping its newline.
 */
module JobState {
  import opened Wrappers
  import opened Text
  import opened Seqs
  import opened JobFiles

  /** The outcomes `load_job_states` returns, with the raw fallback as its own case. */
  datatype InferredState =
    | Unsubmitted
    | Pending
    | CancelledBeforeStart
    | Completed
    | FailedException
    | CancelledByUser
    | Failed(reason: string)
    | Running
    | Raw(message: string)
  {
    /** The string the source returns for this state. */
    function Display(): string {
      match this
      case Unsubmitted => "UNSUBMITTED"
      case Pending => "PENDING"
      case CancelledBeforeStart => "CANCELLED (before starting execution)"
      case Completed => "COMPLETED"
      case FailedException => "FAILED: Triggered an Exception"
      case CancelledByUser => "CANCELLED (terminated by user)"
      case Failed(reason) => "FAILED: " + reason
      case Running => "RUNNING"
      case Raw(message) => message
    }
  }

  /** Which copy of the classifier: submititnow/jt/utils.py or the legacy submititnow/jt_utils.py. */
  datatype Variant = Current | Legacy

  datatype InferenceError =
    | Lookup(cause: LookupError)        // a bad job ID or a blank queue row
    | MissingErrLog                     // `filepaths["err"]` with an `.out` but no `.err` found
    | MalformedStatusLine(line: string) // `prefix, msg = line.split(" - ")` cannot unpack

  /** A line of the standard-output log written by submitit itself. */
  predicate IsStatusLine(line: string) {
    StartsWith(line, "submitit ")
  }

  /**
   A line of the standard-error log written by the scheduler's step launcher. The current code
   accepts `slurmstepd: ` anywhere in the line, the legacy code only at its start.
   */
  predicate IsStepLine(variant: Variant, line: string) {
    StartsWith(line, "srun: ") ||
    match variant
    case Current => Contains(line, "slurmstepd: ")
    case Legacy => StartsWith(line, "slurmstepd: ")
  }

  /**
   `prefix, msg = line.split(" - ")`: the split must give exactly two pieces, that is, no `" - "`
   may follow the leftmost one; the prefix is the text before the leftmost `" - "` and the message
   everything after it, trailing newline included.
   */
  function SplitStatus(line: string): (r: Result<(string, string), InferenceError>)
    ensures r.Success? <==> Find(line, " - ").Some? && !Contains(line[Find(line, " - ").value + 3..], " - ")
    ensures r.Success? ==> line == r.value.0 + " - " + r.value.1
    ensures r.Success? ==> forall j :: 0 <= j < |r.value.0| ==> !StartsWith(line[j..], " - ")
    ensures r.Success? ==> !Contains(r.value.0, " - ") && !Contains(r.value.1, " - ")
    ensures r.Failure? ==> r.error == MalformedStatusLine(line)
  {
    match Find(line, " - ")
    case None => Failure(MalformedStatusLine(line))
    case Some(i) =>
      var prefix := line[..i];
      var msg := line[i + 3..];
      if Contains(msg, " - ") then Failure(MalformedStatusLine(line))
      else
        SplitAtFirst(line, i);
        Success((prefix, msg))
  }

  /** Cutting a line at its leftmost `" - "` gives back the line, with no `" - "` before the cut. */
  lemma SplitAtFirst(line: string, i: nat)
    requires i + 3 <= |line| && StartsWith(line[i..], " - ")
    requires forall j :: 0 <= j < i ==> !StartsWith(line[j..], " - ")
    ensures line == line[..i] + " - " + line[i + 3..]
    ensures !Contains(line[..i], " - ")
  {
    assert line[i..i + 3] == line[i..][..3];
    CutInThree(line, i, i + 3);
    NoEarlierOccurrence(line, i, " - ");
  }

  lemma CutInThree<T>(s: seq<T>, i: nat, j: nat)
    requires i <= j <= |s|
    ensures s == s[..i] + s[i..j] + s[j..]
  {
  }

  /** Overlapping separators: the split is at the leftmost `" - "`, and what follows it may still hold `" -"`. */
  lemma OverlappingSeparatorSplits()
    ensures SplitStatus("a - - b") == Success(("a", "- b"))
  {
    var line := "a - - b";
    assert line[..3][0] == 'a';
    assert line[1..][..3] == " - ";
    assert Find(line[1..], " - ") == Some(0);
    assert Find(line, " - ") == Some(1);
    assert line[..1] == "a" && line[4..] == "- b";
    var msg := "- b";
    assert !Contains(msg, " - ") by {
      assert msg[..3][0] == '-';
      assert |msg[1..]| < 3;
      assert !Contains(msg[1..][1..], " - ");
    }
  }

  /** Text before the first occurrence of `sub` does not contain `sub`. */
  lemma NoEarlierOccurrence(s: string, i: nat, sub: string)
    requires i <= |s| && |sub| > 0 && forall j :: 0 <= j < i ==> !StartsWith(s[j..], sub)
    ensures !Contains(s[..i], sub)
  {
    NoOccurrenceBetween(s, 0, i, sub);
    assert s[0..i] == s[..i];
  }

  lemma {:induction false} NoOccurrenceBetween(s: string, k: nat, i: nat, sub: string)
    requires k <= i <= |s| && |sub| > 0 && forall j :: k <= j < i ==> !StartsWith(s[j..], sub)
    ensures !Contains(s[k..i], sub)
    decreases i - k
  {
    if k < i {
      NoOccurrenceBetween(s, k + 1, i, sub);
      assert s[k..i][1..] == s[k + 1..i];
      if |sub| <= i - k {
        assert s[k..i][..|sub|] == s[k..][..|sub|];
      }
    }
  }

  /** The text `get_error_msg` reports: what follows the fourth `:`, whitespace stripped. */
  function StepErrorMessage(line: string): string {
    Strip(LastOfSplitN(line, ':', 4))
  }

  /**
   The decision once both logs exist, over their marker lines in file order: no status line
   means the job has not started; success and exception markers outrank the error log; an
   error in the last step line outranks the startup markers; otherwise the message is raw.
   */
  function Decide(statusLines: seq<string>, stepLines: seq<string>): Result<InferredState, InferenceError> {
    if |statusLines| == 0 then Success(Pending)
    else
      var parts :- SplitStatus(Last(statusLines));
      var msg := parts.1;
      if Contains(msg, "completed successfully") then Success(Completed)
      else if Contains(msg, "triggered an exception") then Success(FailedException)
      else if |stepLines| > 0 && Contains(Last(stepLines), "error") then
        if Contains(Last(stepLines), "CANCELLED") then Success(CancelledByUser)
        else Success(Failed(StepErrorMessage(Last(stepLines))))
      else if Contains(msg, "Loading") || Contains(msg, "Starting") then Success(Running)
      else Success(Raw(msg))
  }

  /** The marker lines the classifier reads from each log. */
  function StatusLines(lines: seq<string>): seq<string> {
    Filter(lines, IsStatusLine)
  }

  function StepLines(variant: Variant, lines: seq<string>): seq<string> {
    Filter(lines, line => IsStepLine(variant, line))
  }

  /**
   `load_job_states(job_id)`: look the job's files up, read the queue, then decide: no script
   means unsubmitted; a script without output means queued or cancelled before starting,
   depending on whether the job's array ID is queued; otherwise the logs decide.
   */
  function LoadJobState(variant: Variant, jobId: string, paths: seq<string>, squeueLines: seq<string>,
                        read: string -> seq<string>): (r: Result<InferredState, InferenceError>)
    ensures r.Failure? && r.error.Lookup? <==> !Readable(jobId, squeueLines)
    ensures r == Success(Unsubmitted) <==> Readable(jobId, squeueLines) && "sh" !in FilesOf(jobId, paths)
    ensures r == Success(CancelledBeforeStart) <==>
              Readable(jobId, squeueLines) && "sh" in FilesOf(jobId, paths) && "out" !in FilesOf(jobId, paths)
              && ArrayId(jobId) !in RunningJobIds(squeueLines).value
    ensures r == Failure(MissingErrLog) <==>
              Readable(jobId, squeueLines) && "sh" in FilesOf(jobId, paths) && "out" in FilesOf(jobId, paths)
              && "err" !in FilesOf(jobId, paths)
    ensures Readable(jobId, squeueLines) && "sh" in FilesOf(jobId, paths) && "out" !in FilesOf(jobId, paths) ==>
              (ArrayId(jobId) in RunningJobIds(squeueLines).value ==> r == Success(Pending))
    ensures r.Failure? && r.error.MalformedStatusLine? ==> LogsPresent(jobId, paths, squeueLines)
    ensures LogsPresent(jobId, paths, squeueLines) ==>
              r == Decide(StatusLines(read(FilesOf(jobId, paths)["out"])),
                          StepLines(variant, read(FilesOf(jobId, paths)["err"])))
  {
    match JobFilepaths(jobId, paths)
    case Failure(e) => Failure(Lookup(e))
    case Success(files) =>
      match RunningJobIds(squeueLines)
      case Failure(e) => Failure(Lookup(e))
      case Success(running) =>
        if "sh" !in files then Success(Unsubmitted)
        else if "out" !in files then
          if ArrayId(jobId) in running then Success(Pending) else Success(CancelledBeforeStart)
        else if "err" !in files then Failure(MissingErrLog)
        else
          var statusLines, stepLines := StatusLines(read(files["out"])), StepLines(variant, read(files["err"]));
          DecideOutcomes(statusLines, stepLines);
          Decide(statusLines, stepLines)
  }

  /** The logs never decide that a job was unsubmitted or cancelled before it started. */
  lemma DecideOutcomes(statusLines: seq<string>, stepLines: seq<string>)
    ensures var d := Decide(statusLines, stepLines);
            && d != Success(Unsubmitted) && d != Success(CancelledBeforeStart)
            && (d.Failure? ==> d.error.MalformedStatusLine?)
  {
  }

  /** The inputs under which the lookup and the queue listing both succeed. */
  predicate Readable(jobId: string, squeueLines: seq<string>) {
    SplitJobTask(jobId).Success? && RunningJobIds(squeueLines).Success?
  }

  /** The files `load_job_states` finds for a readable job ID. */
  function FilesOf(jobId: string, paths: seq<string>): map<string, string>
    requires SplitJobTask(jobId).Success?
  {
    FindJobFiles(SplitJobTask(jobId).value, paths)
  }

  /** A bad job ID or a blank queue row is reported before anything is classified. */
  lemma LookupErrorsComeFirst(variant: Variant, jobId: string, paths: seq<string>, squeueLines: seq<string>,
                              read: string -> seq<string>)
    ensures !Readable(jobId, squeueLines) ==>
              LoadJobState(variant, jobId, paths, squeueLines, read).Failure?
              && LoadJobState(variant, jobId, paths, squeueLines, read).error.Lookup?
  {
  }

  /** With no submission script among the walked paths the job is unsubmitted, whatever else holds. */
  lemma NoScriptMeansUnsubmitted(variant: Variant, jobId: string, paths: seq<string>, squeueLines: seq<string>,
                                 read: string -> seq<string>)
    requires Readable(jobId, squeueLines)
    requires forall i :: 0 <= i < |paths| ==> FileKey(paths[i], SplitJobTask(jobId).value) != Some("sh")
    ensures LoadJobState(variant, jobId, paths, squeueLines, read) == Success(Unsubmitted)
  {
  }

  /**
   A script without an output log: pending exactly when the job's array ID is among the queued
   IDs, cancelled before starting otherwise.
   */
  lemma ScriptWithoutOutput(variant: Variant, jobId: string, paths: seq<string>, squeueLines: seq<string>,
                            read: string -> seq<string>)
    requires Readable(jobId, squeueLines)
    requires "sh" in FilesOf(jobId, paths) && "out" !in FilesOf(jobId, paths)
    ensures var r := LoadJobState(variant, jobId, paths, squeueLines, read);
            (r == Success(Pending) <==> ArrayId(jobId) in RunningJobIds(squeueLines).value)
            && (r == Success(CancelledBeforeStart) <==> ArrayId(jobId) !in RunningJobIds(squeueLines).value)
  {
  }

  /** An output log without an error log cannot be classified: the `err` lookup fails. */
  lemma OutputWithoutErrorLog(variant: Variant, jobId: string, paths: seq<string>, squeueLines: seq<string>,
                              read: string -> seq<string>)
    requires Readable(jobId, squeueLines)
    requires "sh" in FilesOf(jobId, paths) && "out" in FilesOf(jobId, paths) && "err" !in FilesOf(jobId, paths)
    ensures LoadJobState(variant, jobId, paths, squeueLines, read) == Failure(MissingErrLog)
  {
  }

  /** Both logs exist: the classification is the decision over their marker lines. */
  predicate LogsPresent(jobId: string, paths: seq<string>, squeueLines: seq<string>) {
    Readable(jobId, squeueLines) && "sh" in FilesOf(jobId, paths)
    && "out" in FilesOf(jobId, paths) && "err" in FilesOf(jobId, paths)
  }

  /**
   Only marker lines count: two file systems whose logs carry the same `submitit ` lines and the
   same step lines give the same classification.
   */
  lemma OnlyMarkerLinesCount(variant: Variant, jobId: string, paths: seq<string>, squeueLines: seq<string>,
                             read: string -> seq<string>, read': string -> seq<string>)
    requires forall p :: StatusLines(read(p)) == StatusLines(read'(p))
    requires forall p :: StepLines(variant, read(p)) == StepLines(variant, read'(p))
    ensures LoadJobState(variant, jobId, paths, squeueLines, read)
            == LoadJobState(variant, jobId, paths, squeueLines, read')
  {
  }

  /** An output log without any `submitit ` line means the job has not started yet. */
  lemma NoStatusLineMeansPending(variant: Variant, jobId: string, paths: seq<string>, squeueLines: seq<string>,
                                 read: string -> seq<string>)
    requires LogsPresent(jobId, paths, squeueLines)
    requires forall line :: line in read(FilesOf(jobId, paths)["out"]) ==> !StartsWith(line, "submitit ")
    ensures LoadJobState(variant, jobId, paths, squeueLines, read) == Success(Pending)
  {
    FilterEmpty(read(FilesOf(jobId, paths)["out"]), IsStatusLine);
  }

  /** The message of the last status line, when it has exactly one `" - "`. */
  predicate LastMessage(statusLines: seq<string>, msg: string) {
    |statusLines| > 0 && SplitStatus(Last(statusLines)).Success? && SplitStatus(Last(statusLines)).value.1 == msg
  }

  /**
   A last status line that does not hold exactly one `" - "` cannot be unpacked, whatever the
   error log says.
   */
  lemma MalformedLastStatusLine(statusLines: seq<string>, stepLines: seq<string>)
    requires |statusLines| > 0 && !Contains(Last(statusLines), " - ")
    ensures Decide(statusLines, stepLines) == Failure(MalformedStatusLine(Last(statusLines)))
  {
  }

  /** A success marker in the last message wins over everything in the error log. */
  lemma CompletionWins(statusLines: seq<string>, stepLines: seq<string>, msg: string)
    requires LastMessage(statusLines, msg) && Contains(msg, "completed successfully")
    ensures Decide(statusLines, stepLines) == Success(Completed)
  {
  }

  /** An exception marker (without a success marker) wins over everything in the error log. */
  lemma ExceptionWins(statusLines: seq<string>, stepLines: seq<string>, msg: string)
    requires LastMessage(statusLines, msg) && !Contains(msg, "completed successfully")
    requires Contains(msg, "triggered an exception")
    ensures Decide(statusLines, stepLines) == Success(FailedException)
  {
  }

  /**
   Otherwise an `error` in the last step line decides: cancelled by the user if it also says
   `CANCELLED`, else failed with the stripped text after its fourth `:` (the text after its last
   `:` when it has fewer).
   */
  lemma StepErrorDecides(statusLines: seq<string>, stepLines: seq<string>, msg: string)
    requires LastMessage(statusLines, msg)
    requires !Contains(msg, "completed successfully") && !Contains(msg, "triggered an exception")
    requires |stepLines| > 0 && Contains(Last(stepLines), "error")
    ensures var line := Last(stepLines);
            var ps := Split(line, {':'});
            Decide(statusLines, stepLines)
            == if Contains(line, "CANCELLED") then Success(CancelledByUser)
               else Success(Failed(Strip(Join(ps[if 4 < |ps| - 1 then 4 else |ps| - 1..], ":"))))
  {
    LastOfSplitNPieces(Last(stepLines), ':', 4);
  }

  /**
   Without a decisive marker or step error, startup text means running and any other message is
   returned verbatim, trailing newline included.
   */
  lemma StartupOrRaw(statusLines: seq<string>, stepLines: seq<string>, msg: string)
    requires LastMessage(statusLines, msg)
    requires !Contains(msg, "completed successfully") && !Contains(msg, "triggered an exception")
    requires |stepLines| == 0 || !Contains(Last(stepLines), "error")
    ensures Decide(statusLines, stepLines)
            == if Contains(msg, "Loading") || Contains(msg, "Starting") then Success(Running)
               else Success(Raw(msg))
  {
  }

  /** Every step line the legacy code reads is one the current code reads. */
  lemma LegacyStepLinesAreCurrent(line: string)
    ensures IsStepLine(Legacy, line) ==> IsStepLine(Current, line)
  {
    if StartsWith(line, "slurmstepd: ") {
      assert Contains(line, "slurmstepd: ");
    }
  }

  /**
   The two copies classify alike unless a standard-error line carries `slurmstepd: ` somewhere
   other than at its start (and does not start with `srun: `).
   */
  lemma VariantsAgree(jobId: string, paths: seq<string>, squeueLines: seq<string>, read: string -> seq<string>)
    requires forall p, line :: line in read(p) && Contains(line, "slurmstepd: ") ==>
               StartsWith(line, "srun: ") || StartsWith(line, "slurmstepd: ")
    ensures LoadJobState(Current, jobId, paths, squeueLines, read) == LoadJobState(Legacy, jobId, paths, squeueLines, read)
  {
    forall p
      ensures StepLines(Current, read(p)) == StepLines(Legacy, read(p))
    {
      forall line | line in read(p)
        ensures IsStepLine(Current, line) == IsStepLine(Legacy, line)
      {
        LegacyStepLinesAreCurrent(line);
      }
      FilterAgree(read(p), line => IsStepLine(Current, line), line => IsStepLine(Legacy, line));
    }
  }

  /**
   A scheduler cancellation notice that does not open its line (say, behind a timestamp) is read
   by the current code and ignored by the legacy code: a job that announced its start is
   cancelled by the user for one and still running for the other.
   */
  lemma EmbeddedMarkerSplitsVariants(statusLines: seq<string>, msg: string, line: string)
    requires LastMessage(statusLines, msg) && Contains(msg, "Starting")
    requires !Contains(msg, "completed successfully") && !Contains(msg, "triggered an exception")
    requires Contains(line, "slurmstepd: ") && !StartsWith(line, "slurmstepd: ") && !StartsWith(line, "srun: ")
    requires Contains(line, "error") && Contains(line, "CANCELLED")
    ensures Decide(statusLines, StepLines(Current, [line])) == Success(CancelledByUser)
    ensures Decide(statusLines, StepLines(Legacy, [line])) == Success(Running)
  {
    FilterEmpty([line], (l: string) => IsStepLine(Legacy, l));
    assert Filter([line], (l: string) => IsStepLine(Current, l)) == [line];
  }
}

=== FILE: legacyexperiment.dfy ===
/**
 The older experiment helper, submititnow/experiment_utils.py: slurm parameters with the UMIACS
 `--scavenger`/`--clip` switches, a log directory from an argument, the environment or the home
 directory, account presets at launch, and a three-field tracker (`<log dir>/<name>.csv`). The
 environment variable `SUBMITIT_LOG_DIR` and the home directory are inputs.
 */
module LegacyExperiment {
  import opened Wrappers
  import opened Text
  import opened PyValues
  import opened OrderedMaps
  import opened Tracker
  import Options
  import Experiment

  datatype LegacyError =
    | AttributeError(attribute: string)  // `args.<attribute>` on a namespace without it
    | KeyError(key: string)              // `slurm_params['slurm_account']`, `self.descriptions[job.job_id]`

  // ---------------------------------------------------------------------------------------------
  // The log directory.

  /** `s.rstrip("/")`. */
  function TrimTrailingSlashes(s: string): (r: string)
    ensures StartsWith(s, r)
    ensures r == "" || r[|r| - 1] != '/'
    ensures forall i :: |r| <= i < |s| ==> s[i] == '/'
    decreases |s|
  {
    if s != "" && s[|s| - 1] == '/' then TrimTrailingSlashes(s[..|s| - 1]) else s
  }

  /** `DEFAULT_SUBMITIT_LOG_DIR`: `os.path.expanduser("~/.submitit/logs")` for the home directory `home`. */
  function DefaultSubmititLogDir(home: string): (r: string)
    ensures EndsWith(r, "/.submitit/logs")
    ensures StartsWith(r, TrimTrailingSlashes(home))
    ensures |r| == |TrimTrailingSlashes(home)| + |"/.submitit/logs"|
  {
    TrimTrailingSlashes(home) + "/.submitit/logs"
  }

  /** `get_default_submitit_log_dir`: `SUBMITIT_LOG_DIR` when it is set, even to the empty string. */
  function DefaultLogDir(env: Option<string>, home: string): (r: string)
    ensures env.Some? ==> r == env.value
    ensures env.None? ==> r == DefaultSubmititLogDir(home)
  {
    match env
    case Some(dir) => dir
    case None => DefaultSubmititLogDir(home)
  }

  /** `get_submitit_log_dir`: a truthy `--submitit_log_dir` wins; otherwise the default directory. */
  function GetSubmititLogDir(args: map<string, Value>, env: Option<string>, home: string): (r: Result<Value, LegacyError>)
    ensures "submitit_log_dir" !in args <==> r == Failure(AttributeError("submitit_log_dir"))
    ensures r.Success? && Truthy(args["submitit_log_dir"]) ==> r.value == args["submitit_log_dir"]
    ensures r.Success? && !Truthy(args["submitit_log_dir"]) ==> r.value == Str(DefaultLogDir(env, home))
  {
    if "submitit_log_dir" !in args then Failure(AttributeError("submitit_log_dir"))
    else if Truthy(args["submitit_log_dir"]) then Success(args["submitit_log_dir"])
    else Success(Str(DefaultLogDir(env, home)))
  }

  // ---------------------------------------------------------------------------------------------
  // Slurm parameters.

  /**
   `get_slurm_params`: the `slurm_` attributes, then the account forced to `scavenger` or `clip`
   by the switches, `--clip` winning when both are on. Both switches must exist on the namespace.
   */
  function GetSlurmParams(args: map<string, Value>): (r: Result<SlurmParams, LegacyError>)
    ensures "scavenger" !in args ==> r == Failure(AttributeError("scavenger"))
    ensures "scavenger" in args && "clip" !in args ==> r == Failure(AttributeError("clip"))
    ensures r.Success? <==> "scavenger" in args && "clip" in args
    ensures r.Success? ==> r.value.Keys == Options.GetSlurmParams(args).Keys + (if Truthy(args["scavenger"]) || Truthy(args["clip"]) then {"slurm_account"} else {})
    ensures r.Success? ==> forall k :: k in r.value && k != "slurm_account" ==> r.value[k] == args[k]
    ensures r.Success? && Truthy(args["clip"]) ==> r.value["slurm_account"] == Str("clip")
    ensures r.Success? && !Truthy(args["clip"]) && Truthy(args["scavenger"]) ==> r.value["slurm_account"] == Str("scavenger")
    ensures r.Success? && !Truthy(args["clip"]) && !Truthy(args["scavenger"]) ==> r.value == Options.GetSlurmParams(args)
  {
    var params := Options.GetSlurmParams(args);
    if "scavenger" !in args then Failure(AttributeError("scavenger"))
    else
      var params := if Truthy(args["scavenger"]) then params["slurm_account" := Str("scavenger")] else params;
      if "clip" !in args then Failure(AttributeError("clip"))
      else
        var params := if Truthy(args["clip"]) then params["slurm_account" := Str("clip")] else params;
        Success(params)
  }

  /**
   The account presets of `launch`: the scavenger account also selects the scavenger partition and
   qos, the clip account the clip partition; a missing account is a `KeyError`.
   */
  function LaunchPresets(params: SlurmParams): (r: Result<SlurmParams, LegacyError>)
    ensures "slurm_account" !in params <==> r == Failure(KeyError("slurm_account"))
    ensures r.Success? ==> "slurm_account" in params && "slurm_account" in r.value
                           && r.value["slurm_account"] == params["slurm_account"]
    ensures r.Success? && Equal(params["slurm_account"], Str("scavenger")) ==>
              r.value == params["slurm_partition" := Str("scavenger")]["slurm_qos" := Str("scavenger")]
    ensures r.Success? && Equal(params["slurm_account"], Str("clip")) ==>
              r.value == params["slurm_partition" := Str("clip")]
    ensures r.Success? && !Equal(params["slurm_account"], Str("scavenger")) && !Equal(params["slurm_account"], Str("clip")) ==>
              r.value == params
  {
    if "slurm_account" !in params then Failure(KeyError("slurm_account"))
    else if Equal(params["slurm_account"], Str("scavenger")) then
      Success(params["slurm_partition" := Str("scavenger")]["slurm_qos" := Str("scavenger")])
    else if Equal(params["slurm_account"], Str("clip")) then
      Success(params["slurm_partition" := Str("clip")])
    else Success(params)
  }

  /** Only a string account can pick a preset: `Equal` on strings is string equality. */
  lemma PresetsNeedStringAccount(params: SlurmParams)
    requires "slurm_account" in params && !params["slurm_account"].Str?
    ensures LaunchPresets(params) == Success(params)
  {
  }

  /** The switches and the presets together: `--scavenger` without `--clip` runs on the scavenger partition and qos. */
  lemma ScavengerSwitchSelectsScavengerQueue(args: map<string, Value>)
    requires "scavenger" in args && "clip" in args
    requires Truthy(args["scavenger"]) && !Truthy(args["clip"])
    ensures GetSlurmParams(args).Success?
    ensures var p := LaunchPresets(GetSlurmParams(args).value);
            p.Success? && p.value["slurm_account"] == p.value["slurm_partition"] == p.value["slurm_qos"] == Str("scavenger")
  {
  }

  // ---------------------------------------------------------------------------------------------
  // The experiment and its paths.

  /** `os.path.join(a, b)`: an absolute `b` replaces `a`; otherwise `b` is appended after one `/`. */
  function PathJoin(a: string, b: string): (r: string)
    ensures StartsWith(b, "/") ==> r == b
    ensures !StartsWith(b, "/") && (a == "" || EndsWith(a, "/")) ==> r == a + b
    ensures !StartsWith(b, "/") && a != "" && !EndsWith(a, "/") ==> r == a + "/" + b
    ensures EndsWith(r, b)
  {
    if StartsWith(b, "/") then b
    else if a == "" || EndsWith(a, "/") then a + b
    else a + "/" + b
  }

  datatype LegacyExperiment = LegacyExperiment(
    name: string,
    params: seq<Experiment.Record>,
    describe: Experiment.Record -> string,
    logDir: string,
    jobs: OrderedMap<string, Experiment.Job>,
    descriptions: OrderedMap<string, string>)

  predicate Valid(e: LegacyExperiment) {
    DistinctKeys(e.jobs) && DistinctKeys(e.descriptions)
  }

  /** The constructor: a falsy log directory means the default one. */
  function NewLegacyExperiment(name: string, params: seq<Experiment.Record>, describe: Experiment.Record -> string,
                               logDir: Option<string>, env: Option<string>, home: string): (e: LegacyExperiment)
    ensures Valid(e) && e.jobs == [] && e.descriptions == [] && e.name == name && e.params == params
    ensures logDir.Some? && logDir.value != "" ==> e.logDir == logDir.value
    ensures logDir.None? || logDir.value == "" ==> e.logDir == DefaultLogDir(env, home)
  {
    var dir := if logDir.Some? && logDir.value != "" then logDir.value else DefaultLogDir(env, home);
    LegacyExperiment(name, params, describe, dir, [], [])
  }

  function ExpDir(e: LegacyExperiment): string {
    PathJoin(e.logDir, e.name)
  }

  /** `exp_tracker_file`: the experiment directory's path with `.csv` appended. */
  function TrackerFile(e: LegacyExperiment): (p: string)
    ensures p == ExpDir(e) + ".csv"
  {
    ExpDir(e) + ".csv"
  }

  /**
   The tracker sits beside the experiment directory, not inside it, and a relative experiment
   name keeps both under the log directory.
   */
  lemma TrackerBesideExpDir(e: LegacyExperiment)
    ensures StartsWith(TrackerFile(e), ExpDir(e)) && !StartsWith(TrackerFile(e), ExpDir(e) + "/")
    ensures !StartsWith(e.name, "/") ==> StartsWith(ExpDir(e), e.logDir) && StartsWith(TrackerFile(e), e.logDir)
  {
    SuffixedBeside(ExpDir(e));
    if !StartsWith(e.name, "/") {
      RelativeJoinExtends(e.logDir, e.name);
      PrefixKept(ExpDir(e), e.logDir, ".csv");
    }
  }

  lemma SuffixedBeside(d: string)
    ensures StartsWith(d + ".csv", d) && !StartsWith(d + ".csv", d + "/")
  {
    assert (d + ".csv")[..|d|] == d;
    assert (d + ".csv")[|d|] == '.' && (d + "/")[|d|] == '/';
  }

  lemma RelativeJoinExtends(a: string, b: string)
    requires !StartsWith(b, "/")
    ensures StartsWith(PathJoin(a, b), a)
  {
    assert PathJoin(a, b)[..|a|] == a;
  }

  lemma PrefixKept(s: string, p: string, t: string)
    requires StartsWith(s, p)
    ensures StartsWith(s + t, p)
  {
    assert (s + t)[..|p|] == s[..|p|];
  }

  // ---------------------------------------------------------------------------------------------
  // `assign_jobs` and `__update_tracker`.

  /** The second loop of `assign_jobs`: one three-field line per job, its description looked up by ID. */
  function LegacyRows(descriptions: OrderedMap<string, string>, submitted: seq<Experiment.Job>): (r: Result<seq<seq<string>>, LegacyError>)
    ensures r.Success? ==> |r.value| == |submitted|
    ensures r.Success? ==> forall i :: 0 <= i < |submitted| ==>
              Get(descriptions, submitted[i].id).Some?
              && r.value[i] == [Experiment.TimeField(submitted[i].startTime), submitted[i].id, Get(descriptions, submitted[i].id).value]
    ensures r.Failure? <==> exists i :: 0 <= i < |submitted| && Get(descriptions, submitted[i].id).None?
    ensures r.Failure? ==> r.error.KeyError?
    decreases |submitted|
  {
    if |submitted| == 0 then Success([])
    else
      var job := submitted[0];
      match Get(descriptions, job.id)
      case None => Failure(KeyError(job.id))
      case Some(text) =>
        var rest :- LegacyRows(descriptions, submitted[1..]);
        assert forall i :: 1 <= i < |submitted| ==> submitted[i] == submitted[1..][i - 1];
        Success([[Experiment.TimeField(job.startTime), job.id, text]] + rest)
  }

  /**
   `assign_jobs`: pair jobs with descriptions by position, then append one line per job. Unlike
   the current version there is no experiment ID, and an empty job list is no error.
   */
  function AssignJobs(e: LegacyExperiment, submitted: seq<Experiment.Job>, texts: seq<string>, tracker: string)
    : (r: Result<(LegacyExperiment, string), LegacyError>)
    requires Valid(e)
    ensures |submitted| == 0 ==> r == Success((e, tracker))
    ensures r.Success? ==> Valid(r.value.0) && r.value.0.name == e.name && r.value.0.logDir == e.logDir
                           && r.value.0.params == e.params && r.value.0.describe == e.describe
    ensures r.Success? ==> (r.value.0.jobs, r.value.0.descriptions) == Experiment.AssignPairs(e.jobs, e.descriptions, submitted, texts)
    ensures r.Success? <==> LegacyRows(Experiment.AssignPairs(e.jobs, e.descriptions, submitted, texts).1, submitted).Success?
    ensures r.Success? ==> r.value.1 == tracker + FormatRows(LegacyRows(Experiment.AssignPairs(e.jobs, e.descriptions, submitted, texts).1, submitted).value)
  {
    var (jobs, descriptions) := Experiment.AssignPairs(e.jobs, e.descriptions, submitted, texts);
    var rows :- LegacyRows(descriptions, submitted);
    assert |submitted| == 0 ==> rows == [] && tracker + FormatRows(rows) == tracker;
    Success((e.(jobs := jobs, descriptions := descriptions), tracker + FormatRows(rows)))
  }

  /** More jobs than descriptions: the first job without one stops the tracker update with a `KeyError`. */
  lemma UnpairedJobFails(e: LegacyExperiment, submitted: seq<Experiment.Job>, texts: seq<string>, tracker: string)
    requires Valid(e) && Experiment.DistinctIds(submitted) && |texts| < |submitted|
    requires Get(e.descriptions, submitted[|texts|].id).None?
    ensures AssignJobs(e, submitted, texts, tracker).Failure?
    ensures AssignJobs(e, submitted, texts, tracker).error.KeyError?
  {
    var i := |texts|;
    forall j | 0 <= j < |submitted| && j < |texts| ensures submitted[j].id != submitted[i].id {
    }
    Experiment.AssignPairsUnpaired(e.jobs, e.descriptions, submitted, texts, submitted[i].id);
  }

  /** With distinct IDs and a description per job, each line carries the job's own description. */
  lemma LegacyRowsCarryDescriptions(e: LegacyExperiment, submitted: seq<Experiment.Job>, texts: seq<string>)
    requires Valid(e) && Experiment.DistinctIds(submitted) && |texts| >= |submitted|
    ensures var rows := LegacyRows(Experiment.AssignPairs(e.jobs, e.descriptions, submitted, texts).1, submitted);
            rows.Success? && forall i :: 0 <= i < |submitted| ==>
              rows.value[i] == [Experiment.TimeField(submitted[i].startTime), submitted[i].id, texts[i]]
  {
    var descriptions := Experiment.AssignPairs(e.jobs, e.descriptions, submitted, texts).1;
    forall j | 0 <= j < |submitted| ensures Get(descriptions, submitted[j].id) == Some(texts[j]) {
      Experiment.AssignPairsPaired(e.jobs, e.descriptions, submitted, texts, j);
    }
  }

  /** The row a legacy line loads as: its experiment description is filled in as not found. */
  function LegacyJobsAsLoaded(submitted: seq<Experiment.Job>, texts: seq<string>): (rows: seq<LoadedRow>)
    requires Experiment.StorableJobs(submitted, texts)
    ensures |rows| == |submitted|
    ensures forall i :: 0 <= i < |submitted| ==> rows[i] == Experiment.JobAsLoaded(submitted[i], texts[i], NotFound)
  {
    Experiment.JobsAsLoaded(submitted, texts, NotFound)
  }

  /** The tracker lines of assigning `submitted` with `texts`. */
  function LegacyAssigned(e: LegacyExperiment, submitted: seq<Experiment.Job>, texts: seq<string>): Result<seq<seq<string>>, LegacyError>
    requires Valid(e)
  {
    LegacyRows(Experiment.AssignPairs(e.jobs, e.descriptions, submitted, texts).1, submitted)
  }

  /** The legacy lines of storable jobs are loadable and load as their jobs, without experiment description. */
  lemma LegacyRowsLoadable(e: LegacyExperiment, submitted: seq<Experiment.Job>, texts: seq<string>)
    requires Valid(e) && Experiment.DistinctIds(submitted)
    requires Experiment.StorableJobs(submitted, texts)
    ensures LegacyAssigned(e, submitted, texts).Success?
    ensures var rows := LegacyAssigned(e, submitted, texts).value;
            |rows| == |submitted|
            && (forall i :: 0 <= i < |rows| ==> LoadableRow(rows[i]))
            && forall i :: 0 <= i < |rows| ==> RowAsLoaded(rows[i]) == Experiment.JobAsLoaded(submitted[i], texts[i], NotFound)
  {
    LegacyRowsCarryDescriptions(e, submitted, texts);
    var rows := LegacyAssigned(e, submitted, texts).value;
    forall i | 0 <= i < |rows|
      ensures LoadableRow(rows[i])
      ensures RowAsLoaded(rows[i]) == Experiment.JobAsLoaded(submitted[i], texts[i], NotFound)
    {
      assert Experiment.StorableJob(submitted[i], texts[i]);
      LegacyLoadableFields(Experiment.TimeField(submitted[i].startTime), submitted[i].id, texts[i]);
    }
  }


  /**
   The current reader on a legacy tracker: the old rows, then one row per job in order with its ID,
   start time and description, and "Not Found in tracker" as its experiment description.
   */
  lemma LegacyTrackerLoads(e: LegacyExperiment, submitted: seq<Experiment.Job>, texts: seq<string>, tracker: string)
    requires Valid(e) && Experiment.DistinctIds(submitted)
    requires EndsLine(tracker) && LoadCsv(tracker).Success?
    requires Experiment.StorableJobs(submitted, texts)
    ensures AssignJobs(e, submitted, texts, tracker).Success?
    ensures LoadCsv(AssignJobs(e, submitted, texts, tracker).value.1)
            == Success(LoadCsv(tracker).value + LegacyJobsAsLoaded(submitted, texts))
  {
    LegacyRowsLoadable(e, submitted, texts);
    var rows := LegacyAssigned(e, submitted, texts).value;
    var r := AssignJobs(e, submitted, texts, tracker);
    assert r.Success? && r.value.1 == tracker + FormatRows(rows);
    AppendedTrackerLoads(tracker, rows);
    assert LoadedRows(rows) == LegacyJobsAsLoaded(submitted, texts);
  }

  /** What the legacy `launch` leaves behind: the executor's parameters and the updated experiment and tracker. */
  datatype LegacyLaunched = LegacyLaunched(exp: LegacyExperiment, executorParams: SlurmParams, tracker: string)

  /**
   The descriptions `map(self.job_desc_function, self.job_params)` yields once `tasks` has been
   built from the same `job_params`: one per record when `job_params` is a list, none when it is a
   one-shot iterator (a generator) that building `tasks` already used up.
   */
  function LaunchTexts(e: LegacyExperiment, oneShot: bool): (texts: seq<string>)
    ensures oneShot ==> texts == []
    ensures !oneShot ==> texts == Experiment.Describe(e.describe, e.params)
  {
    if oneShot then [] else Experiment.Describe(e.describe, e.params)
  }

  /**
   The bookkeeping part of the legacy `launch`: presets first, then the scheduler's jobs (an input)
   are assigned with the descriptions `job_params` still yields.
   */
  function Launch(e: LegacyExperiment, slurmParams: SlurmParams, submitted: seq<Experiment.Job>, tracker: string,
                  oneShot: bool): (r: Result<LegacyLaunched, LegacyError>)
    requires Valid(e)
    ensures LaunchPresets(slurmParams).Failure? ==> r == Failure(KeyError("slurm_account"))
    ensures r.Success? ==> Success(r.value.executorParams) == LaunchPresets(slurmParams) && Valid(r.value.exp)
    ensures r.Success? && |submitted| == 0 ==> r.value.exp == e && r.value.tracker == tracker
    ensures r.Success? <==> LaunchPresets(slurmParams).Success?
                            && AssignJobs(e, submitted, LaunchTexts(e, oneShot), tracker).Success?
    ensures r.Success? ==> AssignJobs(e, submitted, LaunchTexts(e, oneShot), tracker) == Success((r.value.exp, r.value.tracker))
  {
    var params :- LaunchPresets(slurmParams);
    var result :- AssignJobs(e, submitted, LaunchTexts(e, oneShot), tracker);
    Success(LegacyLaunched(result.0, params, result.1))
  }

  /**
   Job parameters given as a generator: building `tasks` uses it up, no description is paired, and
   the first job whose ID has no description from an earlier launch fails the tracker update.
   */
  lemma OneShotParamsFail(e: LegacyExperiment, slurmParams: SlurmParams, submitted: seq<Experiment.Job>, tracker: string)
    requires Valid(e) && LaunchPresets(slurmParams).Success?
    requires |submitted| > 0 && Get(e.descriptions, submitted[0].id).None?
    ensures Launch(e, slurmParams, submitted, tracker, true) == Failure(KeyError(submitted[0].id))
  {
    assert Experiment.AssignPairs(e.jobs, e.descriptions, submitted, []) == (e.jobs, e.descriptions);
  }

  /**
   After a legacy launch with a list of job parameters, the tracker reads back as its old rows
   followed by one row per submitted job, in order, each with its own record's description.
   */
  lemma LegacyLaunchedTrackerLoads(e: LegacyExperiment, slurmParams: SlurmParams, submitted: seq<Experiment.Job>,
                                   tracker: string)
    requires Valid(e) && Experiment.DistinctIds(submitted)
    requires EndsLine(tracker) && LoadCsv(tracker).Success?
    requires Experiment.StorableJobs(submitted, Experiment.Describe(e.describe, e.params))
    requires Launch(e, slurmParams, submitted, tracker, false).Success?
    ensures LoadCsv(Launch(e, slurmParams, submitted, tracker, false).value.tracker)
            == Success(LoadCsv(tracker).value + LegacyJobsAsLoaded(submitted, Experiment.Describe(e.describe, e.params)))
  {
    LegacyTrackerLoads(e, submitted, Experiment.Describe(e.describe, e.params), tracker);
  }
}

=== FILE: options.dfy ===
/**
 The command-line options of submititnow/options.py. A parsed `argparse.Namespace` is a map from
 attribute name to value; `get_slurm_params` keeps the attributes whose names start with `slurm_`.
 */
module Options {
  import opened Text
  import opened PyValues

  /** The attributes `add_slurm_arguments` declares, each defaulting to `None`. */
  const SlurmArguments: seq<string> :=
    ["slurm_profile", "slurm_account", "slurm_partition", "slurm_qos", "slurm_mem", "slurm_gres", "slurm_time"]

  /** The attributes `add_submititnow_arguments` declares, each defaulting to `None`. */
  const SubmititnowArguments: seq<string> := ["exp_name", "submititnow_dir"]

  /** The namespace both groups produce when no option is given. */
  function DefaultNamespace(): (args: map<string, Value>)
    ensures args.Keys == set a | a in SlurmArguments + SubmititnowArguments
    ensures forall a :: a in args ==> args[a] == NoneValue
  {
    map a | a in SlurmArguments + SubmititnowArguments :: NoneValue
  }

  /** `get_slurm_params`: exactly the `slurm_` attributes, with their values. */
  function GetSlurmParams(args: map<string, Value>): (r: SlurmParams)
    ensures r.Keys <= args.Keys
    ensures forall k :: k in r <==> k in args && StartsWith(k, "slurm_")
    ensures forall k :: k in r ==> r[k] == args[k]
  {
    map k | k in args && StartsWith(k, "slurm_") :: args[k]
  }

  /** Filtering a second time changes nothing. */
  lemma GetSlurmParamsIdempotent(args: map<string, Value>)
    ensures GetSlurmParams(GetSlurmParams(args)) == GetSlurmParams(args)
  {
  }

  /** Every submititnow option stays out of the slurm parameters, and every slurm option is kept. */
  lemma SlurmParamsOfDeclaredOptions(args: map<string, Value>)
    ensures forall a :: a in SubmititnowArguments ==> a !in GetSlurmParams(args)
    ensures forall a :: a in SlurmArguments && a in args ==> a in GetSlurmParams(args) && GetSlurmParams(args)[a] == args[a]
  {
    assert "exp_name"[..6] != "slurm_" by { assert "exp_name"[0] == 'e'; }
    assert "submititnow_dir"[..6] != "slurm_" by { assert "submititnow_dir"[0] == 's' && "submititnow_dir"[1] == 'u'; }
    forall a | a in SlurmArguments ensures StartsWith(a, "slurm_") {
    }
  }

  /**
   With no option given, the slurm parameters are the seven slurm attributes, all `None`; in
   particular `slurm_profile` is present and falsy, so no profile handler runs.
   */
  lemma DefaultSlurmParams()
    ensures GetSlurmParams(DefaultNamespace()).Keys == set a | a in SlurmArguments
    ensures forall k :: k in GetSlurmParams(DefaultNamespace()) ==> GetSlurmParams(DefaultNamespace())[k] == NoneValue
    ensures "slurm_profile" in GetSlurmParams(DefaultNamespace())
    ensures !Truthy(GetSlurmParams(DefaultNamespace())["slurm_profile"])
  {
    var args := DefaultNamespace();
    SlurmParamsOfDeclaredOptions(args);
    forall k | k in GetSlurmParams(args) ensures k in SlurmArguments {
      assert k in SlurmArguments + SubmititnowArguments;
    }
  }
}

=== FILE: orderedmaps.dfy ===
/** Python dicts whose iteration order is observable: entries kept in insertion order. */
module OrderedMaps {
  import opened Wrappers
  import opened Seqs

  /** The entries of a dict in insertion order; a well-formed one has each key once. */
  type OrderedMap<K, V> = seq<(K, V)>

  function Keys<K, V>(m: OrderedMap<K, V>): (ks: seq<K>)
    ensures |ks| == |m| && forall i :: 0 <= i < |m| ==> ks[i] == m[i].0
  {
    seq(|m|, i requires 0 <= i < |m| => m[i].0)
  }

  /** Every Python dict has this shape: no key twice. */
  predicate DistinctKeys<K(==), V>(m: OrderedMap<K, V>) {
    forall i, j :: 0 <= i < j < |m| ==> m[i].0 != m[j].0
  }

  /** `d.get(k)`: the value stored under `k`, `None` when `k` is not a key. */
  function Get<K(==), V>(m: OrderedMap<K, V>, k: K): (r: Option<V>)
    ensures r.None? <==> k !in Keys(m)
    ensures r.Some? ==> exists i :: 0 <= i < |m| && m[i] == (k, r.value)
  {
    if |m| == 0 then None
    else if m[0].0 == k then Some(m[0].1)
    else
      assert Keys(m) == [m[0].0] + Keys(m[1..]);
      var r := Get(m[1..], k);
      assert r.Some? ==> exists i :: 0 <= i < |m[1..]| && m[1..][i] == (k, r.value);
      r
  }

  /** In a dict without repeated keys, `Get` finds the entry at any position. */
  lemma GetAt<K, V>(m: OrderedMap<K, V>, i: nat)
    requires DistinctKeys(m) && i < |m|
    ensures Get(m, m[i].0) == Some(m[i].1)
  {
    if i > 0 {
      GetAt(m[1..], i - 1);
    }
  }

  /**
   `d[k] = v`: an existing key keeps its position and takes the new value, a new key is
   appended at the end.
   */
  function Put<K(==), V>(m: OrderedMap<K, V>, k: K, v: V): (r: OrderedMap<K, V>)
    requires DistinctKeys(m)
    ensures k in Keys(m) ==> |r| == |m|
    ensures k !in Keys(m) ==> r == m + [(k, v)]
    ensures forall i :: 0 <= i < |m| ==> r[i] == (if m[i].0 == k then (k, v) else m[i])
    ensures DistinctKeys(r)
    ensures forall i :: 0 <= i < |r| ==> r[i].0 == k || r[i].0 in Keys(m)
  {
    if |m| == 0 then [(k, v)]
    else if m[0].0 == k then
      assert k in Keys(m);
      [(k, v)] + m[1..]
    else
      var rest := Put(m[1..], k, v);
      PutCons(m, k, v, rest);
      [m[0]] + rest
  }

  /** The step of `Put` past a first entry whose key is not `k`. */
  lemma PutCons<K, V>(m: OrderedMap<K, V>, k: K, v: V, rest: OrderedMap<K, V>)
    requires DistinctKeys(m) && |m| > 0 && m[0].0 != k
    requires k in Keys(m[1..]) ==> |rest| == |m[1..]|
    requires k !in Keys(m[1..]) ==> rest == m[1..] + [(k, v)]
    requires forall i :: 0 <= i < |m[1..]| ==> rest[i] == (if m[1..][i].0 == k then (k, v) else m[1..][i])
    requires DistinctKeys(rest)
    requires forall i :: 0 <= i < |rest| ==> rest[i].0 == k || rest[i].0 in Keys(m[1..])
    ensures var r := [m[0]] + rest;
      && (k in Keys(m) ==> |r| == |m|)
      && (k !in Keys(m) ==> r == m + [(k, v)])
      && (forall i :: 0 <= i < |m| ==> r[i] == (if m[i].0 == k then (k, v) else m[i]))
      && DistinctKeys(r)
      && (forall i :: 0 <= i < |r| ==> r[i].0 == k || r[i].0 in Keys(m))
  {
    var r := [m[0]] + rest;
    assert k in Keys(m) <==> k in Keys(m[1..]) by {
      assert Keys(m) == [m[0].0] + Keys(m[1..]);
    }
    PutConsPointwise(m, k, v, rest);
    PutConsKeys(m, k, rest);
    if k !in Keys(m) {
      assert r == m + [(k, v)];
    }
  }

  lemma PutConsPointwise<K, V>(m: OrderedMap<K, V>, k: K, v: V, rest: OrderedMap<K, V>)
    requires |m| > 0 && m[0].0 != k && |rest| >= |m[1..]|
    requires forall i :: 0 <= i < |m[1..]| ==> rest[i] == (if m[1..][i].0 == k then (k, v) else m[1..][i])
    ensures forall i :: 0 <= i < |m| ==> ([m[0]] + rest)[i] == (if m[i].0 == k then (k, v) else m[i])
  {
    var r := [m[0]] + rest;
    forall i | 0 <= i < |m| ensures r[i] == (if m[i].0 == k then (k, v) else m[i]) {
      if i > 0 {
        assert r[i] == rest[i - 1] && m[i] == m[1..][i - 1];
      }
    }
  }

  lemma PutConsKeys<K, V>(m: OrderedMap<K, V>, k: K, rest: OrderedMap<K, V>)
    requires DistinctKeys(m) && |m| > 0 && m[0].0 != k && DistinctKeys(rest)
    requires forall i :: 0 <= i < |rest| ==> rest[i].0 == k || rest[i].0 in Keys(m[1..])
    ensures DistinctKeys([m[0]] + rest)
    ensures forall i :: 0 <= i < |[m[0]] + rest| ==> ([m[0]] + rest)[i].0 == k || ([m[0]] + rest)[i].0 in Keys(m)
  {
    var r := [m[0]] + rest;
    FirstKeyNotLater(m);
    forall i | 0 <= i < |rest| ensures rest[i].0 != m[0].0 {
      if rest[i].0 != k {
        assert rest[i].0 in Keys(m[1..]);
      }
    }
    DistinctCons(m[0], rest);
    assert Keys(m) == [m[0].0] + Keys(m[1..]);
    forall i | 0 <= i < |r| ensures r[i].0 == k || r[i].0 in Keys(m) {
      if i > 0 {
        assert r[i] == rest[i - 1];
      }
    }
  }

  lemma FirstKeyNotLater<K, V>(m: OrderedMap<K, V>)
    requires DistinctKeys(m) && |m| > 0
    ensures m[0].0 !in Keys(m[1..])
  {
  }

  lemma DistinctCons<K, V>(entry: (K, V), m: OrderedMap<K, V>)
    requires DistinctKeys(m) && forall i :: 0 <= i < |m| ==> m[i].0 != entry.0
    ensures DistinctKeys([entry] + m)
  {
    var r := [entry] + m;
    forall i, j | 0 <= i < j < |r| ensures r[i].0 != r[j].0 {
      if i > 0 {
        assert r[i] == m[i - 1];
      }
      assert r[j] == m[j - 1];
    }
  }

  /** After `d[k] = v`, `d[k]` is `v` and every other key reads as before. */
  lemma GetPut<K, V>(m: OrderedMap<K, V>, k: K, v: V, k': K)
    requires DistinctKeys(m)
    ensures Get(Put(m, k, v), k') == if k' == k then Some(v) else Get(m, k')
  {
    if |m| > 0 && m[0].0 != k {
      GetPut(m[1..], k, v, k');
    }
  }

  /** `GetPut` for every key at once. */
  lemma GetPutAll<K, V>(m: OrderedMap<K, V>, k: K, v: V)
    requires DistinctKeys(m)
    ensures forall k' :: Get(Put(m, k, v), k') == if k' == k then Some(v) else Get(m, k')
  {
    forall k' ensures Get(Put(m, k, v), k') == if k' == k then Some(v) else Get(m, k') {
      GetPut(m, k, v, k');
    }
  }

  lemma KeysPut<K, V>(m: OrderedMap<K, V>, k: K, v: V)
    requires DistinctKeys(m)
    ensures Keys(Put(m, k, v)) == if k in Keys(m) then Keys(m) else Keys(m) + [k]
  {
    var r := Put(m, k, v);
    if k in Keys(m) {
      forall i | 0 <= i < |r| ensures Keys(r)[i] == Keys(m)[i] {
        assert r[i] == (if m[i].0 == k then (k, v) else m[i]);
      }
    } else {
      assert r == m + [(k, v)];
      forall i | 0 <= i < |r| ensures Keys(r)[i] == (Keys(m) + [k])[i] {
      }
    }
  }

  /** Leaving entries out of a dict keeps its keys distinct. */
  lemma {:induction false} SubsequenceDistinct<K, V>(m: OrderedMap<K, V>, m': OrderedMap<K, V>)
    requires IsSubsequence(m, m') && DistinctKeys(m')
    ensures DistinctKeys(m)
    decreases |m'|
  {
    if |m| > 0 {
      assert DistinctKeys(m'[1..]) by {
        forall i, j | 0 <= i < j < |m'[1..]| ensures m'[1..][i].0 != m'[1..][j].0 {
          assert m'[1..][i] == m'[i + 1] && m'[1..][j] == m'[j + 1];
        }
      }
      if IsSubsequence(m, m'[1..]) {
        SubsequenceDistinct(m, m'[1..]);
      } else {
        SubsequenceDistinct(m[1..], m'[1..]);
        forall j | 0 < j < |m| ensures m[0].0 != m[j].0 {
          assert m[j] == m[1..][j - 1];
          SubsequenceMembers(m[1..], m'[1..], m[j]);
          var k :| 0 <= k < |m'[1..]| && m'[1..][k] == m[j];
          assert m'[k + 1] == m[j];
        }
        forall i, j | 0 <= i < j < |m| ensures m[i].0 != m[j].0 {
          if i > 0 {
            assert m[i] == m[1..][i - 1] && m[j] == m[1..][j - 1];
          }
        }
      }
    }
  }

  /** In a dict, the first entry's key is not among the other keys. */
  lemma FirstKeyUnique<K, V>(m: OrderedMap<K, V>)
    requires DistinctKeys(m) && |m| > 0
    ensures m[0].0 !in Keys(m[1..])
    ensures DistinctKeys(m[1..])
  {
    forall i | 0 <= i < |m[1..]| ensures m[0].0 != Keys(m[1..])[i] {
      assert m[1..][i] == m[i + 1];
    }
    forall i, j | 0 <= i < j < |m[1..]| ensures m[1..][i].0 != m[1..][j].0 {
      assert m[1..][i] == m[i + 1] && m[1..][j] == m[j + 1];
    }
  }
}

=== FILE: pyvalues.dfy ===
/**
 The Python values that flow through argparse namespaces and slurm parameter dicts:
 strings, integers, booleans and `None`, with Python's truthiness, `==` and `str()`.
 */
module PyValues {
  import opened Text

  datatype Value = Str(s: string) | Int(i: int) | Bool(b: bool) | NoneValue

  /** A dict of slurm parameters (`slurm_account`, `slurm_partition`, ...) as passed to the executor. */
  type SlurmParams = map<string, Value>

  /** Python `bool(v)`. */
  predicate Truthy(v: Value) {
    match v
    case Str(s) => s != ""
    case Int(i) => i != 0
    case Bool(b) => b
    case NoneValue => false
  }

  /** Python `a == b`; `bool` is a subclass of `int`, so `True == 1` and `False == 0`. */
  predicate Equal(a: Value, b: Value) {
    match (a, b)
    case (Str(x), Str(y)) => x == y
    case (Int(x), Int(y)) => x == y
    case (Bool(x), Bool(y)) => x == y
    case (Int(x), Bool(y)) => x == (if y then 1 else 0)
    case (Bool(x), Int(y)) => y == (if x then 1 else 0)
    case (NoneValue, NoneValue) => true
    case _ => false
  }

  /** Python `str(v)`. */
  function ToStr(v: Value): string {
    match v
    case Str(s) => s
    case Int(i) => IntToString(i)
    case Bool(b) => if b then "True" else "False"
    case NoneValue => "None"
  }
}

=== FILE: seqs.dfy ===
/** Python's `filter` over lists, kept in order. */
module Seqs {

  /** `list(filter(keep, xs))`. */
  function Filter<T(!new)>(xs: seq<T>, keep: T -> bool): (r: seq<T>)
    ensures |r| <= |xs|
    ensures forall x :: x in r <==> x in xs && keep(x)
    decreases |xs|
  {
    if |xs| == 0 then []
    else
      var rest := Filter(xs[1..], keep);
      assert forall x :: x in xs <==> x == xs[0] || x in xs[1..];
      if keep(xs[0]) then [xs[0]] + rest else rest
  }

  /** Two filters that agree on every element of `xs` keep the same elements of `xs`. */
  lemma {:induction false} FilterAgree<T(!new)>(xs: seq<T>, keep: T -> bool, keep': T -> bool)
    requires forall x :: x in xs ==> keep(x) == keep'(x)
    ensures Filter(xs, keep) == Filter(xs, keep')
    decreases |xs|
  {
    if |xs| > 0 {
      assert forall x :: x in xs[1..] ==> x in xs;
      FilterAgree(xs[1..], keep, keep');
    }
  }

  /** A filter that keeps no element of `xs` gives the empty list. */
  lemma {:induction false} FilterEmpty<T(!new)>(xs: seq<T>, keep: T -> bool)
    requires forall x :: x in xs ==> !keep(x)
    ensures Filter(xs, keep) == []
    decreases |xs|
  {
    if |xs| > 0 {
      assert forall x :: x in xs[1..] ==> x in xs;
      FilterEmpty(xs[1..], keep);
    }
  }

  /** Filtering distributes over concatenation. */
  lemma {:induction false} FilterConcat<T(!new)>(xs: seq<T>, ys: seq<T>, keep: T -> bool)
    ensures Filter(xs + ys, keep) == Filter(xs, keep) + Filter(ys, keep)
    decreases |xs|
  {
    if |xs| > 0 {
      assert (xs + ys)[1..] == xs[1..] + ys;
      FilterConcat(xs[1..], ys, keep);
    } else {
      assert xs + ys == ys;
    }
  }

  lemma {:induction false} FilterSubMultiset<T(!new)>(xs: seq<T>, keep: T -> bool)
    ensures multiset(Filter(xs, keep)) <= multiset(xs)
    decreases |xs|
  {
    if |xs| > 0 {
      FilterSubMultiset(xs[1..], keep);
      assert xs == [xs[0]] + xs[1..];
    }
  }

  /** `xs` is `ys` with some elements left out, the rest kept in their order. */
  ghost predicate IsSubsequence<T>(xs: seq<T>, ys: seq<T>)
    decreases |ys|
  {
    if |xs| == 0 then true
    else if |ys| == 0 then false
    else (xs[0] == ys[0] && IsSubsequence(xs[1..], ys[1..])) || IsSubsequence(xs, ys[1..])
  }

  lemma {:induction false} SubsequenceRefl<T>(xs: seq<T>)
    ensures IsSubsequence(xs, xs)
    decreases |xs|
  {
    if |xs| > 0 {
      SubsequenceRefl(xs[1..]);
    }
  }

  lemma {:induction false} SubsequenceTrans<T>(xs: seq<T>, ys: seq<T>, zs: seq<T>)
    requires IsSubsequence(xs, ys) && IsSubsequence(ys, zs)
    ensures IsSubsequence(xs, zs)
    decreases |zs|
  {
    if |xs| > 0 {
      if IsSubsequence(ys, zs[1..]) {
        SubsequenceTrans(xs, ys, zs[1..]);
      } else if xs[0] == ys[0] && IsSubsequence(xs[1..], ys[1..]) {
        SubsequenceTrans(xs[1..], ys[1..], zs[1..]);
      } else {
        SubsequenceTrans(xs, ys[1..], zs[1..]);
      }
    }
  }

  /** Every element of a subsequence is an element of the whole. */
  lemma {:induction false} SubsequenceMembers<T>(xs: seq<T>, ys: seq<T>, x: T)
    requires IsSubsequence(xs, ys) && x in xs
    ensures x in ys
    decreases |ys|
  {
    if IsSubsequence(xs, ys[1..]) {
      SubsequenceMembers(xs, ys[1..], x);
    } else if x != xs[0] {
      assert x in xs[1..];
      SubsequenceMembers(xs[1..], ys[1..], x);
    }
  }

  /** A filter keeps the surviving elements in their order. */
  lemma {:induction false} FilterIsSubsequence<T(!new)>(xs: seq<T>, keep: T -> bool)
    ensures IsSubsequence(Filter(xs, keep), xs)
    decreases |xs|
  {
    if |xs| > 0 {
      FilterIsSubsequence(xs[1..], keep);
    }
  }

  /**
   `filter` keeps every copy of each element `keep` accepts and no copy of the others, in the
   order of `xs`.
   */
  lemma {:induction false} FilterSpec<T(!new)>(xs: seq<T>, keep: T -> bool)
    ensures forall x :: multiset(Filter(xs, keep))[x] == if keep(x) then multiset(xs)[x] else 0
    ensures IsSubsequence(Filter(xs, keep), xs)
    decreases |xs|
  {
    FilterIsSubsequence(xs, keep);
    if |xs| > 0 {
      FilterSpec(xs[1..], keep);
      assert xs == [xs[0]] + xs[1..];
      assert multiset(xs) == multiset{xs[0]} + multiset(xs[1..]);
    }
  }

  /** A map applied element by element: the head's image followed by the tail's images. */
  lemma PointwiseCons<A, B, C>(f: A -> B, wrap: C -> B, xs: seq<A>, first: C, rest: seq<C>)
    requires |xs| > 0 && f(xs[0]) == wrap(first) && |rest| == |xs| - 1
    requires forall i :: 0 <= i < |rest| ==> f(xs[1..][i]) == wrap(rest[i])
    ensures forall i :: 0 <= i < |xs| ==> f(xs[i]) == wrap(([first] + rest)[i])
  {
    forall i | 1 <= i < |xs| ensures f(xs[i]) == wrap(([first] + rest)[i]) {
      assert xs[i] == xs[1..][i - 1];
    }
  }

  /** An element of the tail that satisfies `p` is an element of the whole sequence that does. */
  lemma ExistsFromTail<A>(p: A -> bool, xs: seq<A>)
    requires |xs| > 0 && exists i :: 0 <= i < |xs| - 1 && p(xs[1..][i])
    ensures exists i :: 0 <= i < |xs| && p(xs[i])
  {
    var i :| 0 <= i < |xs| - 1 && p(xs[1..][i]);
    assert xs[i + 1] == xs[1..][i];
  }
}

=== FILE: text.dfy ===
/**
 Python `str` operations the submititnow sources rely on, over `string` (= `seq<char>`):
 prefix and substring tests, `split` with a separator, `join`, `strip`, whitespace tokens,
 `split(sep, maxsplit)` and the decimal conversions of `str(int)` and `int(str)`.
 */
module Text {
  import opened Wrappers

  /** Python `s.startswith(p)`. */
  predicate StartsWith(s: string, p: string) {
    |p| <= |s| && s[..|p|] == p
  }

  /** Python `s.endswith(p)`. */
  predicate EndsWith(s: string, p: string) {
    |p| <= |s| && s[|s| - |p|..] == p
  }

  /** Python `sub in s`: `sub` occurs somewhere in `s` (the empty string occurs everywhere). */
  predicate Contains(s: string, sub: string)
    decreases |s|
  {
    StartsWith(s, sub) || (|s| > 0 && Contains(s[1..], sub))
  }

  /** Python `s.find(sub)`: the index of the leftmost occurrence, `None` for -1. */
  function Find(s: string, sub: string): (r: Option<nat>)
    ensures r.Some? ==> r.value + |sub| <= |s| && StartsWith(s[r.value..], sub)
    ensures r.Some? ==> forall j :: 0 <= j < r.value ==> !StartsWith(s[j..], sub)
    ensures r.None? <==> !Contains(s, sub)
    decreases |s|
  {
    if StartsWith(s, sub) then Some(0)
    else if |s| == 0 then None
    else
      match Find(s[1..], sub)
      case None => None
      case Some(i) =>
        assert forall j :: 1 <= j <= i ==> s[j..] == s[1..][j - 1..];
        Some(i + 1)
  }

  /** `s` has no character from `seps`. */
  predicate Avoids(s: string, seps: set<char>) {
    forall i :: 0 <= i < |s| ==> s[i] !in seps
  }

  /**
   Python `s.split(c)` for a one-character separator, generalised to any character of `seps`
   (`seps == {c}` is the Python case). Consecutive separators give empty pieces.
   */
  function Split(s: string, seps: set<char>): (pieces: seq<string>)
    ensures |pieces| >= 1
    ensures forall k :: 0 <= k < |pieces| ==> Avoids(pieces[k], seps)
    decreases |s|
  {
    if |s| == 0 then [""]
    else
      var rest := Split(s[1..], seps);
      if s[0] in seps then [""] + rest
      else [[s[0]] + rest[0]] + rest[1..]
  }

  /** `s.split(c)` has one piece more than `s` has occurrences of `c`. */
  lemma {:induction false} SplitCount(s: string, c: char)
    ensures |Split(s, {c})| == multiset(s)[c] + 1
    decreases |s|
  {
    if |s| > 0 {
      SplitCount(s[1..], c);
      assert s == [s[0]] + s[1..];
      assert multiset(s) == multiset{s[0]} + multiset(s[1..]);
    }
  }

  /** The last element of a non-empty sequence (Python `xs[-1]`). */
  function Last<T>(xs: seq<T>): T
    requires |xs| > 0
  {
    xs[|xs| - 1]
  }

  /** Python `sep.join(pieces)`. */
  function Join(pieces: seq<string>, sep: string): string {
    if |pieces| == 0 then ""
    else if |pieces| == 1 then pieces[0]
    else pieces[0] + sep + Join(pieces[1..], sep)
  }

  lemma {:induction false} SplitAvoiding(s: string, seps: set<char>)
    requires Avoids(s, seps)
    ensures Split(s, seps) == [s]
    decreases |s|
  {
    if |s| > 0 {
      SplitAvoiding(s[1..], seps);
      assert [s[0]] + s[1..] == s;
    }
  }

  /** A separator character cuts the text in two independent halves. */
  lemma {:induction false} SplitAround(a: string, c: char, b: string, seps: set<char>)
    requires c in seps
    ensures Split(a + [c] + b, seps) == Split(a, seps) + Split(b, seps)
    decreases |a|
  {
    if |a| == 0 {
      assert a + [c] + b == [c] + b;
      assert ([c] + b)[1..] == b;
    } else {
      assert (a + [c] + b)[1..] == a[1..] + [c] + b;
      SplitAround(a[1..], c, b, seps);
    }
  }

  /** Splitting an unbroken run of text followed by a separator and more text. */
  lemma SplitAfterPiece(a: string, c: char, b: string, seps: set<char>)
    requires c in seps && Avoids(a, seps)
    ensures Split(a + [c] + b, seps) == [a] + Split(b, seps)
  {
    SplitAround(a, c, b, seps);
    SplitAvoiding(a, seps);
  }

  /** Joining the pieces of a split with the separator gives the text back. */
  lemma {:induction false} JoinSplit(s: string, c: char)
    ensures Join(Split(s, {c}), [c]) == s
    decreases |s|
  {
    if |s| > 0 {
      JoinSplit(s[1..], c);
      var rest := Split(s[1..], {c});
      if s[0] == c {
        assert Split(s, {c}) == [""] + rest;
      } else {
        var ps := Split(s, {c});
        assert ps == [[s[0]] + rest[0]] + rest[1..];
        if |rest| == 1 {
          assert Join(ps, [c]) == [s[0]] + rest[0];
        } else {
          assert ps[1..] == rest[1..];
          assert Join(ps, [c]) == [s[0]] + rest[0] + [c] + Join(rest[1..], [c]);
        }
        assert [s[0]] + s[1..] == s;
      }
    }
  }

  /** Pieces that avoid the separator are recovered by splitting their join. */
  lemma {:induction false} SplitJoin(pieces: seq<string>, c: char)
    requires |pieces| >= 1
    requires forall k :: 0 <= k < |pieces| ==> Avoids(pieces[k], {c})
    ensures Split(Join(pieces, [c]), {c}) == pieces
    decreases |pieces|
  {
    if |pieces| == 1 {
      SplitAvoiding(pieces[0], {c});
    } else {
      SplitJoin(pieces[1..], c);
      SplitAfterPiece(pieces[0], c, Join(pieces[1..], [c]), {c});
      assert [pieces[0]] + pieces[1..] == pieces;
    }
  }

  /** Python `s.split(c)[0]`: the text before the first `c`, or all of `s` when it has none. */
  function BeforeFirst(s: string, c: char): (r: string)
    ensures StartsWith(s, r) && c !in r
    ensures |r| == |s| || s[|r|] == c
  {
    var ps := Split(s, {c});
    JoinSplit(s, c);
    if |ps| == 1 then
      ps[0]
    else
      assert s == ps[0] + [c] + Join(ps[1..], [c]);
      ps[0]
  }

  /** The text after the first `c` of `s`. */
  function AfterFirst(s: string, c: char): (r: string)
    requires c in s
    ensures |r| < |s|
  {
    if s[0] == c then s[1..] else AfterFirst(s[1..], c)
  }

  /**
   The last element of Python `s.split(c, n)`: the text after the `n`-th `c`, or after the last
   `c` when `s` has fewer than `n` of them.
   */
  function LastOfSplitN(s: string, c: char, n: nat): string
    decreases n
  {
    if n == 0 || c !in s then s else LastOfSplitN(AfterFirst(s, c), c, n - 1)
  }

  lemma {:induction false} SplitAfterFirst(s: string, c: char)
    requires c in s
    ensures Split(AfterFirst(s, c), {c}) == Split(s, {c})[1..]
    decreases |s|
  {
    if s[0] != c {
      SplitAfterFirst(s[1..], c);
    }
  }

  lemma {:induction false} SplitNoSeparator(s: string, c: char)
    ensures c !in s <==> |Split(s, {c})| == 1
    decreases |s|
  {
    if |s| > 0 {
      SplitNoSeparator(s[1..], c);
      assert c in s <==> s[0] == c || c in s[1..];
    }
  }

  /**
   `s.split(c, n)[-1]` joins the pieces of the unlimited split from index `min(n, pieces - 1)` on:
   the text after the `n`-th separator, or the last piece when there are fewer separators.
   */
  lemma {:induction false} LastOfSplitNPieces(s: string, c: char, n: nat)
    ensures var ps := Split(s, {c});
            LastOfSplitN(s, c, n) == Join(ps[if n < |ps| - 1 then n else |ps| - 1..], [c])
    decreases n
  {
    var ps := Split(s, {c});
    SplitNoSeparator(s, c);
    if n == 0 || c !in s {
      JoinSplit(s, c);
      if c !in s {
        SplitAvoiding(s, {c});
      }
    } else {
      var t := AfterFirst(s, c);
      SplitAfterFirst(s, c);
      LastOfSplitNPieces(t, c, n - 1);
      var qs := Split(t, {c});
      assert qs == ps[1..];
      var m := if n - 1 < |qs| - 1 then n - 1 else |qs| - 1;
      assert qs[m..] == ps[m + 1..];
    }
  }

  /** Python's `str.isspace()` characters, the ones `str.split()` and `str.strip()` remove. */
  predicate IsSpace(ch: char) {
    ch in {'\t', '\n', '\U{0B}', '\U{0C}', '\r', '\U{1C}', '\U{1D}', '\U{1E}', '\U{1F}', ' ',
           '\U{85}', '\U{A0}', '\U{1680}', '\U{2000}', '\U{2001}', '\U{2002}', '\U{2003}',
           '\U{2004}', '\U{2005}', '\U{2006}', '\U{2007}', '\U{2008}', '\U{2009}', '\U{200A}',
           '\U{2028}', '\U{2029}', '\U{202F}', '\U{205F}', '\U{3000}'}
  }

  predicate AllSpace(s: string) {
    forall i :: 0 <= i < |s| ==> IsSpace(s[i])
  }

  predicate NoSpace(s: string) {
    forall i :: 0 <= i < |s| ==> !IsSpace(s[i])
  }

  /** Python `s.lstrip()`. */
  function LStrip(s: string): (r: string)
    ensures |r| <= |s| && r == s[|s| - |r|..]
    ensures AllSpace(s[..|s| - |r|])
    ensures r == "" || !IsSpace(r[0])
    decreases |s|
  {
    if |s| > 0 && IsSpace(s[0]) then LStrip(s[1..]) else s
  }

  /** Python `s.rstrip()`. */
  function RStrip(s: string): (r: string)
    ensures |r| <= |s| && r == s[..|r|]
    ensures AllSpace(s[|r|..])
    ensures r == "" || !IsSpace(r[|r| - 1])
    decreases |s|
  {
    if |s| > 0 && IsSpace(s[|s| - 1]) then RStrip(s[..|s| - 1]) else s
  }

  /** Python `s.strip()`. */
  function Strip(s: string): string {
    RStrip(LStrip(s))
  }

  /** `strip()` removes leading and trailing whitespace only: what is left is the inside, kept as it was. */
  lemma StripSlice(s: string)
    ensures var r := Strip(s);
            && (exists i, j :: 0 <= i <= j <= |s| && r == s[i..j] && AllSpace(s[..i]) && AllSpace(s[j..]))
            && (r == "" || (!IsSpace(r[0]) && !IsSpace(r[|r| - 1])))
  {
    StripEnds(s, LStrip(s), RStrip(LStrip(s)));
  }

  /** Whitespace stripped from the left and then from the right leaves a slice between whitespace runs. */
  lemma StripEnds(s: string, l: string, r: string)
    requires |l| <= |s| && l == s[|s| - |l|..] && AllSpace(s[..|s| - |l|]) && (l == "" || !IsSpace(l[0]))
    requires |r| <= |l| && r == l[..|r|] && AllSpace(l[|r|..]) && (r == "" || !IsSpace(r[|r| - 1]))
    ensures exists i, j :: 0 <= i <= j <= |s| && r == s[i..j] && AllSpace(s[..i]) && AllSpace(s[j..])
    ensures r == "" || (!IsSpace(r[0]) && !IsSpace(r[|r| - 1]))
  {
    var i, j := |s| - |l|, |s| - |l| + |r|;
    SuffixPrefix(s, i, l, r);
    AllSpaceSame(l[|r|..], s[j..]);
    SliceBetweenSpaces(s, i, j, r);
    FirstKept(l, r);
  }

  lemma SliceBetweenSpaces(s: string, i: nat, j: nat, r: string)
    requires i <= j <= |s| && r == s[i..j] && AllSpace(s[..i]) && AllSpace(s[j..])
    ensures exists i, j :: 0 <= i <= j <= |s| && r == s[i..j] && AllSpace(s[..i]) && AllSpace(s[j..])
  {
  }

  /** A prefix of a suffix is a slice, and what follows it in the suffix is what follows it in the whole. */
  lemma SuffixPrefix(s: string, i: nat, l: string, r: string)
    requires i <= |s| && l == s[i..] && |r| <= |l| && r == l[..|r|]
    ensures r == s[i..i + |r|] && s[i + |r|..] == l[|r|..]
  {
  }

  lemma AllSpaceSame(a: string, b: string)
    requires AllSpace(a) && a == b
    ensures AllSpace(b)
  {
  }

  lemma FirstKept(l: string, r: string)
    requires |r| <= |l| && r == l[..|r|] && (l == "" || !IsSpace(l[0]))
    ensures r == "" || !IsSpace(r[0])
  {
    if r != "" {
      assert r[0] == l[0];
    }
  }

  lemma StripNoSpace(s: string)
    requires NoSpace(s)
    ensures Strip(s) == s
  {
  }

  /** The longest prefix of `s` without whitespace. */
  function TakeWord(s: string): (r: string)
    ensures |r| <= |s| && r == s[..|r|] && NoSpace(r)
    ensures |r| == |s| || IsSpace(s[|r|])
    decreases |s|
  {
    if |s| == 0 || IsSpace(s[0]) then "" else [s[0]] + TakeWord(s[1..])
  }

  /**
   Python `s.split()[0]`: the first maximal run of non-whitespace characters, `None` where the
   source raises `IndexError` because `s` is all whitespace.
   */
  function FirstWord(s: string): (r: Option<string>)
    ensures r.None? <==> AllSpace(s)
    ensures r.Some? ==> r.value != "" && NoSpace(r.value)
    ensures r.Some? ==> exists i :: 0 <= i && i + |r.value| <= |s| && AllSpace(s[..i])
                          && s[i..i + |r.value|] == r.value
                          && (i + |r.value| == |s| || IsSpace(s[i + |r.value|]))
  {
    var t := LStrip(s);
    if t == "" then None
    else
      var w := TakeWord(t);
      var i := |s| - |t|;
      assert s[i..i + |w|] == t[..|w|];
      Some(w)
  }

  predicate IsDigit(ch: char) {
    '0' <= ch <= '9'
  }

  predicate AllDigits(s: string) {
    forall i :: 0 <= i < |s| ==> IsDigit(s[i])
  }

  function DigitChar(d: nat): (ch: char)
    requires d < 10
    ensures IsDigit(ch) && ch as int - '0' as int == d
  {
    (d + '0' as int) as char
  }

  /** The value of a string of decimal digits. */
  function DigitsValue(s: string): nat
    requires AllDigits(s)
    decreases |s|
  {
    if |s| == 0 then 0
    else DigitsValue(s[..|s| - 1]) * 10 + (s[|s| - 1] as int - '0' as int)
  }

  /** Python `str(n)` for a natural number: its decimal digits, no leading zero. */
  function NatToString(n: nat): (r: string)
    ensures |r| >= 1 && AllDigits(r)
    ensures DigitsValue(r) == n
    ensures r[0] == '0' ==> n == 0
    decreases n
  {
    if n < 10 then [DigitChar(n)]
    else
      var p := NatToString(n / 10);
      var r := p + [DigitChar(n % 10)];
      assert r[..|r| - 1] == p;
      r
  }

  /** Python `str(i)` for an integer. */
  function IntToString(i: int): string {
    if i < 0 then "-" + NatToString(-i) else NatToString(i)
  }

  /**
   Python `int(s)` on ASCII decimal text: surrounding whitespace allowed, an optional sign, at least
   one digit; `None` where Python raises `ValueError`.
   */
  function ParseInt(s: string): Option<int> {
    ParseSigned(Strip(s))
  }

  /** `int()` once the surrounding whitespace is gone: an optional sign, then at least one digit. */
  function ParseSigned(t: string): Option<int> {
    if |t| == 0 then None
    else if t[0] == '-' || t[0] == '+' then
      if |t| > 1 && AllDigits(t[1..]) then
        var v: int := DigitsValue(t[1..]);
        Some(if t[0] == '-' then -v else v)
      else None
    else if AllDigits(t) then Some(DigitsValue(t))
    else None
  }


  /** `int(str(i)) == i`. */
  lemma ParseIntToString(i: int)
    ensures ParseInt(IntToString(i)) == Some(i)
  {
    if i < 0 {
      var d := NatToString(-i);
      assert IntToString(i) == "-" + d;
      ParseNegative(d);
    } else {
      var d := NatToString(i);
      assert IntToString(i) == d;
      ParseNatural(d);
    }
  }

  lemma ParseNatural(d: string)
    requires |d| > 0 && AllDigits(d)
    ensures ParseInt(d) == Some(DigitsValue(d))
  {
    assert ParseInt(d) == ParseSigned(d) by {
      DigitsNoSpace(d);
      StripNoSpace(d);
    }
    assert ParseSigned(d) == Some(DigitsValue(d)) by {
      assert IsDigit(d[0]);
    }
  }

  lemma ParseNegative(d: string)
    requires |d| > 0 && AllDigits(d)
    ensures ParseInt("-" + d) == Some(-(DigitsValue(d) as int))
  {
    StripSigned(d);
    SignedValue(d);
  }

  lemma StripSigned(d: string)
    requires AllDigits(d)
    ensures ParseInt("-" + d) == ParseSigned("-" + d)
  {
    DigitsNoSpace(d);
    SignedNoSpace(d);
    StripNoSpace("-" + d);
  }

  lemma SignedValue(d: string)
    requires |d| > 0 && AllDigits(d)
    ensures ParseSigned("-" + d) == Some(-(DigitsValue(d) as int))
  {
    assert ("-" + d)[1..] == d;
  }

  lemma DigitsNoSpace(d: string)
    requires AllDigits(d)
    ensures NoSpace(d)
  {
    forall k | 0 <= k < |d| ensures !IsSpace(d[k]) {
      assert IsDigit(d[k]);
    }
  }

  lemma SignedNoSpace(d: string)
    requires NoSpace(d)
    ensures NoSpace("-" + d)
  {
    var s := "-" + d;
    forall k | 0 <= k < |s| ensures !IsSpace(s[k]) {
      if k > 0 {
        assert s[k] == d[k - 1];
      }
    }
  }
}

=== FILE: tracker.dfy ===
/**
 The experiment tracker file: the tab-separated rows `_update_tracker` appends
 (submititnow/experiment_lib.py:127-138), their reading by `JTExp.load_csv`
 (submititnow/jt/utils.py:136-144) and the job table `JTExp.prepare_job_states_df` builds from
 them (submititnow/jt/utils.py:146-154). The file's text is an input; pandas' reading is modelled
 as lines split at line ends, blank lines skipped, fields split at tabs.
 */
module Tracker {
  import opened Wrappers
  import opened Text
  import opened Seqs
  import opened JobFiles
  import opened JobState

  /** One tracker line: the fields joined by tabs, ended by a newline. */
  function FormatRow(fields: seq<string>): string {
    Join(fields, "\t") + "\n"
  }

  /** Several tracker lines, one after the other. */
  function FormatRows(rows: seq<seq<string>>): string
    decreases |rows|
  {
    if |rows| == 0 then "" else FormatRow(rows[0]) + FormatRows(rows[1..])
  }

  /** The strings pandas' `read_csv` reads as a missing value by default. */
  const MissingMarkers: set<string> :=
    {"", "#N/A", "#N/A N/A", "#NA", "-1.#IND", "-1.#QNAN", "-NaN", "-nan", "1.#IND", "1.#QNAN",
     "<NA>", "N/A", "NA", "NULL", "NaN", "None", "n/a", "nan", "null"}

  /** The `fillna` text for rows without an experiment description. */
  const NotFound := "Not Found in tracker"

  /** A row of the loaded table: the four columns, with `Exp ID` in front. */
  datatype LoadedRow = LoadedRow(expId: int, dateTime: Option<string>, jobId: string,
                                 description: Option<string>, expInfo: string)

  datatype LoadError =
    | TooManyFields(line: string)      // more fields than the four named columns
    | MissingJobId(line: string)       // `int(str(nan))` on a row without a job ID
    | NonIntegerJobId(jobId: string)   // `int(...)` on a job ID whose array part is not an integer

  /** Field `i` of a row as pandas reads it: absent or a missing-value marker is `NaN`. */
  function Field(fields: seq<string>, i: nat): Option<string> {
    if i < |fields| && fields[i] !in MissingMarkers then Some(fields[i]) else None
  }

  /**
   A line `read_csv` does not skip as blank: pandas' tokenizer passes over an empty line and over
   a line of spaces alone (a space is whitespace other than the tab delimiter).
   */
  predicate NonBlank(line: string) {
    exists i :: 0 <= i < |line| && line[i] != ' '
  }

  /** The lines `read_csv` parses: the text split at line ends, blank lines skipped. */
  function DataLines(content: string): seq<string> {
    Filter(Split(content, {'\n', '\r'}), NonBlank)
  }

  /** A line of spaces alone is skipped like an empty one, so it loads as no row at all. */
  lemma SpacesOnlyLineSkipped(spaces: string, rest: string)
    requires forall i :: 0 <= i < |spaces| ==> spaces[i] == ' '
    ensures DataLines(spaces + "\n" + rest) == DataLines(rest)
    ensures LoadCsv(spaces + "\n" + rest) == LoadCsv(rest)
  {
    assert Avoids(spaces, {'\n', '\r'}) by {
      forall i | 0 <= i < |spaces| ensures spaces[i] !in {'\n', '\r'} {
      }
    }
    SplitAfterPiece(spaces, '\n', rest, {'\n', '\r'});
    FilterConcat([spaces], Split(rest, {'\n', '\r'}), NonBlank);
    assert !NonBlank(spaces);
    FilterEmpty([spaces], NonBlank);
  }

  /**
   One line of `load_csv`: `Exp ID` is the integer before the first `_` of the job ID, a missing
   `Exp Info` becomes `"Not Found in tracker"`.
   */
  function LoadLine(line: string): Result<LoadedRow, LoadError> {
    var fields := Split(line, {'\t'});
    if |fields| > 4 then Failure(TooManyFields(line))
    else
      match Field(fields, 1)
      case None => Failure(MissingJobId(line))
      case Some(jobId) =>
        match ParseInt(ArrayId(jobId))
        case None => Failure(NonIntegerJobId(jobId))
        case Some(expId) =>
          var info := match Field(fields, 3) case Some(text) => text case None => NotFound;
          Success(LoadedRow(expId, Field(fields, 0), jobId, Field(fields, 2), info))
  }

  /** What a loaded line's row holds, in terms of the line's tab-separated fields. */
  lemma LoadedLineFields(line: string)
    ensures var r := LoadLine(line);
            && (r.Success? ==> Some(r.value.jobId) == Field(Split(line, {'\t'}), 1))
            && (r.Success? ==> ParseInt(ArrayId(r.value.jobId)) == Some(r.value.expId))
            && (r.Success? && Field(Split(line, {'\t'}), 3).Some? ==> r.value.expInfo == Field(Split(line, {'\t'}), 3).value)
            && (r.Success? && Field(Split(line, {'\t'}), 3).None? ==> r.value.expInfo == NotFound)
            && (r.Success? <==> |Split(line, {'\t'})| <= 4 && Field(Split(line, {'\t'}), 1).Some?
                                && ParseInt(ArrayId(Field(Split(line, {'\t'}), 1).value)).Some?)
  {
  }

  function LoadLines(lines: seq<string>): (r: Result<seq<LoadedRow>, LoadError>)
    ensures r.Success? ==> |r.value| == |lines|
    ensures r.Success? ==> forall i :: 0 <= i < |lines| ==> LoadLine(lines[i]) == Success(r.value[i])
    ensures r.Failure? <==> exists i :: 0 <= i < |lines| && LoadLine(lines[i]).Failure?
    decreases |lines|
  {
    if |lines| == 0 then Success([])
    else
      FailingLineStep(lines);
      match LoadLine(lines[0])
      case Failure(e) => Failure(e)
      case Success(first) =>
        match LoadLines(lines[1..])
        case Failure(e) => Failure(e)
        case Success(rest) =>
          PointwiseCons(LoadLine, (row: LoadedRow) => Success(row), lines, first, rest);
          Success([first] + rest)
  }

  /** A line that fails to load is the first line or a failing line of the rest. */
  lemma FailingLineStep(lines: seq<string>)
    requires |lines| > 0
    ensures (exists i :: 0 <= i < |lines| && LoadLine(lines[i]).Failure?)
            <==> LoadLine(lines[0]).Failure? || exists i :: 0 <= i < |lines[1..]| && LoadLine(lines[1..][i]).Failure?
  {
    if exists i :: 0 <= i < |lines| && LoadLine(lines[i]).Failure? {
      var i :| 0 <= i < |lines| && LoadLine(lines[i]).Failure?;
      if i > 0 {
        assert lines[1..][i - 1] == lines[i];
      }
    }
  }

  /** Lines that each load as a row load, together, as those rows in order. */
  lemma LoadLinesEach(lines: seq<string>, rows: seq<LoadedRow>)
    requires |lines| == |rows| && forall i :: 0 <= i < |lines| ==> LoadLine(lines[i]) == Success(rows[i])
    ensures LoadLines(lines) == Success(rows)
  {
    var r := LoadLines(lines);
    assert r.Success?;
    assert r.value == rows;
  }

  /** Loading two runs of lines one after the other loads their rows one after the other. */
  lemma LoadLinesConcat(a: seq<string>, b: seq<string>)
    requires LoadLines(a).Success? && LoadLines(b).Success?
    ensures LoadLines(a + b) == Success(LoadLines(a).value + LoadLines(b).value)
  {
    var rows := LoadLines(a).value + LoadLines(b).value;
    forall i | 0 <= i < |a + b| ensures LoadLine((a + b)[i]) == Success(rows[i]) {
      if i < |a| {
        assert (a + b)[i] == a[i];
      } else {
        assert (a + b)[i] == b[i - |a|];
      }
    }
    LoadLinesEach(a + b, rows);
  }

  /** `JTExp.load_csv` over the tracker file's text. */
  function LoadCsv(content: string): (r: Result<seq<LoadedRow>, LoadError>)
    ensures r.Failure? <==> exists i :: 0 <= i < |DataLines(content)| && LoadLine(DataLines(content)[i]).Failure?
    ensures r.Success? ==> |r.value| == |DataLines(content)|
    ensures r.Success? ==> forall i :: 0 <= i < |r.value| ==> LoadLine(DataLines(content)[i]) == Success(r.value[i])
    ensures r.Success? ==> forall i :: 0 <= i < |r.value| ==> ParseInt(ArrayId(r.value[i].jobId)) == Some(r.value[i].expId)
  {
    var lines := DataLines(content);
    LoadedRowsParse(lines);
    LoadLines(lines)
  }

  /** Every loaded row's `Exp ID` is the integer its Job ID's array part reads as. */
  lemma LoadedRowsParse(lines: seq<string>)
    ensures LoadLines(lines).Success? ==> forall i :: 0 <= i < |lines| ==>
              ParseInt(ArrayId(LoadLines(lines).value[i].jobId)) == Some(LoadLines(lines).value[i].expId)
  {
    if LoadLines(lines).Success? {
      var rows := LoadLines(lines).value;
      forall i | 0 <= i < |lines| ensures ParseInt(ArrayId(rows[i].jobId)) == Some(rows[i].expId) {
        LoadedLineFields(lines[i]);
      }
    }
  }

  /** A field the tracker can store and read back unchanged. */
  predicate Storable(field: string) {
    Avoids(field, {'\t', '\n', '\r'}) && field !in MissingMarkers && '"' !in field
  }

  lemma DataLinesOfLine(line: string, rest: string)
    requires Avoids(line, {'\n', '\r'}) && NonBlank(line)
    ensures DataLines(line + "\n" + rest) == [line] + DataLines(rest)
  {
    SplitAfterPiece(line, '\n', rest, {'\n', '\r'});
    FilterConcat([line], Split(rest, {'\n', '\r'}), NonBlank);
  }

  lemma {:induction false} JoinAvoids(fields: seq<string>, seps: set<char>)
    requires '\t' !in seps
    requires forall k :: 0 <= k < |fields| ==> Avoids(fields[k], seps)
    ensures Avoids(Join(fields, "\t"), seps)
    decreases |fields|
  {
    if |fields| > 1 {
      JoinAvoids(fields[1..], seps);
    }
  }

  /** A line written from three or four storable fields is read back as exactly those fields. */
  lemma WrittenLineReadsBack(fields: seq<string>)
    requires 3 <= |fields| <= 4
    requires forall f :: f in fields ==> Avoids(f, {'\t', '\n', '\r'})
    ensures DataLines(FormatRow(fields)) == [Join(fields, "\t")]
    ensures Split(Join(fields, "\t"), {'\t'}) == fields
  {
    var line := Join(fields, "\t");
    forall k | 0 <= k < |fields| ensures Avoids(fields[k], {'\n', '\r'}) && Avoids(fields[k], {'\t'}) {
      assert fields[k] in fields;
    }
    JoinAvoids(fields, {'\n', '\r'});
    assert line == fields[0] + "\t" + Join(fields[1..], "\t");
    assert line[|fields[0]|] == '\t';
    DataLinesOfLine(line, "");
    assert FormatRow(fields) == line + "\n" + "";
    assert DataLines("") == [];
    SplitJoin(fields, '\t');
  }

  /** Storable fields are line-safe. */
  lemma StorableFieldsArePlain(fields: seq<string>)
    requires forall f :: f in fields ==> Storable(f)
    ensures forall f :: f in fields ==> Avoids(f, {'\t', '\n', '\r'})
  {
    forall f | f in fields ensures Avoids(f, {'\t', '\n', '\r'}) {
      assert Storable(f);
    }
  }

  /** `LoadLine` on a line whose tab-separated fields are known. */
  lemma LoadLineOfFields(line: string, fields: seq<string>, jobId: string, expId: int)
    requires Split(line, {'\t'}) == fields && |fields| <= 4
    requires Field(fields, 1) == Some(jobId) && ParseInt(ArrayId(jobId)) == Some(expId)
    ensures LoadLine(line) == Success(LoadedRow(expId, Field(fields, 0), jobId, Field(fields, 2),
                                                if Field(fields, 3).Some? then Field(fields, 3).value else NotFound))
  {
  }

  /** A file of one data line loads as that line's row. */
  lemma LoadSingleLine(content: string, line: string, row: LoadedRow)
    requires DataLines(content) == [line] && LoadLine(line) == Success(row)
    ensures LoadCsv(content) == Success([row])
  {
    var r := LoadLines([line]);
    assert LoadLine([line][0]).Success?;
    assert r.Success?;
    assert r.value[0] == row;
    assert r.value == [row];
    assert LoadCsv(content) == r;
  }

  /** The tracker line written from three or four storable fields loads as the row they describe. */
  lemma WrittenLineLoads(fields: seq<string>)
    requires 3 <= |fields| <= 4
    requires forall f :: f in fields ==> Storable(f)
    requires ParseInt(ArrayId(fields[1])).Some?
    ensures LoadLine(Join(fields, "\t"))
            == Success(LoadedRow(ParseInt(ArrayId(fields[1])).value, Some(fields[0]), fields[1], Some(fields[2]),
                                 if |fields| == 4 then fields[3] else NotFound))
  {
    StorableFieldsArePlain(fields);
    WrittenLineReadsBack(fields);
    assert fields[0] in fields && fields[1] in fields && fields[2] in fields;
    assert Storable(fields[0]) && Storable(fields[1]) && Storable(fields[2]);
    assert Field(fields, 0) == Some(fields[0]) && Field(fields, 1) == Some(fields[1]);
    assert Field(fields, 2) == Some(fields[2]);
    if |fields| == 4 {
      assert fields[3] in fields;
      assert Storable(fields[3]);
      assert Field(fields, 3) == Some(fields[3]);
    } else {
      assert Field(fields, 3) == None;
    }
    LoadLineOfFields(Join(fields, "\t"), fields, fields[1], ParseInt(ArrayId(fields[1])).value);
  }

  /**
   A written row reads back as the same four fields when none of them holds a tab, a line end, a
   double quote or a missing-value marker, and the job ID's array part is an integer.
   */
  lemma RowRoundTrip(time: string, jobId: string, desc: string, info: string)
    requires Storable(time) && Storable(jobId) && Storable(desc) && Storable(info)
    requires ParseInt(ArrayId(jobId)).Some?
    ensures LoadCsv(FormatRow([time, jobId, desc, info]))
            == Success([LoadedRow(ParseInt(ArrayId(jobId)).value, Some(time), jobId, Some(desc), info)])
  {
    var fields := [time, jobId, desc, info];
    StorableFieldsArePlain(fields);
    WrittenLineReadsBack(fields);
    WrittenLineLoads(fields);
    LoadSingleLine(FormatRow(fields), Join(fields, "\t"),
                   LoadedRow(ParseInt(ArrayId(jobId)).value, Some(time), jobId, Some(desc), info));
  }

  /**
   A legacy row (time, job ID, description; no experiment field) reads back with its experiment
   description filled in as not found.
   */
  lemma LegacyRowLoadsAsNotFound(time: string, jobId: string, desc: string)
    requires Storable(time) && Storable(jobId) && Storable(desc)
    requires ParseInt(ArrayId(jobId)).Some?
    ensures LoadCsv(FormatRow([time, jobId, desc]))
            == Success([LoadedRow(ParseInt(ArrayId(jobId)).value, Some(time), jobId, Some(desc), NotFound)])
  {
    var fields := [time, jobId, desc];
    StorableFieldsArePlain(fields);
    WrittenLineReadsBack(fields);
    WrittenLineLoads(fields);
    LoadSingleLine(FormatRow(fields), Join(fields, "\t"),
                   LoadedRow(ParseInt(ArrayId(jobId)).value, Some(time), jobId, Some(desc), NotFound));
  }

  /** Text that ends where a line ends: appending to it starts a new line. */
  predicate EndsLine(content: string) {
    content == "" || content[|content| - 1] in {'\n', '\r'}
  }

  /** Appending after a completed line leaves the earlier lines as they were read. */
  lemma DataLinesAppend(content: string, more: string)
    requires EndsLine(content)
    ensures DataLines(content + more) == DataLines(content) + DataLines(more)
  {
    if content == "" {
      assert content + more == more;
    } else {
      var front := content[..|content| - 1];
      var c := content[|content| - 1];
      assert content == front + [c];
      LinesAfterLineEnd(front, c, more);
    }
  }

  lemma LinesAfterLineEnd(front: string, c: char, more: string)
    requires c in {'\n', '\r'}
    ensures DataLines(front + [c] + more) == DataLines(front + [c]) + DataLines(more)
  {
    var seps := {'\n', '\r'};
    var before := Split(front, seps);
    SplitAround(front, c, more, seps);
    assert Split(front + [c], seps) == before + [""] by {
      assert front + [c] == front + [c] + "";
      SplitAround(front, c, "", seps);
      assert Split("", seps) == [""];
    }
    FilterConcat(before, Split(more, seps), NonBlank);
    FilterConcat(before, [""], NonBlank);
    assert Filter([""], NonBlank) == [];
  }

  /** The text of each row's line, without its newline. */
  function RowTexts(rows: seq<seq<string>>): (lines: seq<string>)
    ensures |lines| == |rows| && forall i :: 0 <= i < |rows| ==> lines[i] == Join(rows[i], "\t")
  {
    seq(|rows|, i requires 0 <= i < |rows| => Join(rows[i], "\t"))
  }

  /**
   Appending written rows to a tracker whose text ends a line: loading gives the old rows followed
   by one row per appended line, in order.
   */
  lemma {:induction false} AppendedRowsLoad(content: string, rows: seq<seq<string>>)
    requires EndsLine(content)
    requires forall i :: 0 <= i < |rows| ==> |rows[i]| > 0 && NonBlank(Join(rows[i], "\t"))
                                              && Avoids(Join(rows[i], "\t"), {'\n', '\r'})
    ensures DataLines(content + FormatRows(rows))
            == DataLines(content) + RowTexts(rows)
    decreases |rows|
  {
    DataLinesAppend(content, FormatRows(rows));
    RowLines(rows);
  }

  lemma {:induction false} RowLines(rows: seq<seq<string>>)
    requires forall i :: 0 <= i < |rows| ==> NonBlank(Join(rows[i], "\t")) && Avoids(Join(rows[i], "\t"), {'\n', '\r'})
    ensures DataLines(FormatRows(rows)) == RowTexts(rows)
    decreases |rows|
  {
    if |rows| == 0 {
      assert DataLines("") == [];
    } else {
      RowLines(rows[1..]);
      var line := Join(rows[0], "\t");
      assert FormatRows(rows) == line + "\n" + FormatRows(rows[1..]);
      DataLinesOfLine(line, FormatRows(rows[1..]));
      assert RowTexts(rows) == [line] + RowTexts(rows[1..]);
    }
  }

  /** A tracker line the loader reads back unchanged: storable fields and an integer experiment ID. */
  predicate LoadableRow(row: seq<string>) {
    3 <= |row| <= 4 && (forall f :: f in row ==> Storable(f)) && ParseInt(ArrayId(row[1])).Some?
  }

  function RowAsLoaded(row: seq<string>): LoadedRow
    requires LoadableRow(row)
  {
    LoadedRow(ParseInt(ArrayId(row[1])).value, Some(row[0]), row[1], Some(row[2]),
              if |row| == 4 then row[3] else NotFound)
  }

  /** Four storable fields with an integer experiment ID make a loadable row. */
  lemma LoadableFields(time: string, jobId: string, desc: string, info: string)
    requires Storable(time) && Storable(jobId) && Storable(desc) && Storable(info)
    requires ParseInt(ArrayId(jobId)).Some?
    ensures LoadableRow([time, jobId, desc, info])
    ensures RowAsLoaded([time, jobId, desc, info])
            == LoadedRow(ParseInt(ArrayId(jobId)).value, Some(time), jobId, Some(desc), info)
  {
    var row := [time, jobId, desc, info];
    assert row[0] == time && row[1] == jobId && row[2] == desc && row[3] == info;
  }

  /** Three storable fields with an integer experiment ID make a loadable legacy row. */
  lemma LegacyLoadableFields(time: string, jobId: string, desc: string)
    requires Storable(time) && Storable(jobId) && Storable(desc)
    requires ParseInt(ArrayId(jobId)).Some?
    ensures LoadableRow([time, jobId, desc])
    ensures RowAsLoaded([time, jobId, desc])
            == LoadedRow(ParseInt(ArrayId(jobId)).value, Some(time), jobId, Some(desc), NotFound)
  {
    var row := [time, jobId, desc];
    assert row[0] == time && row[1] == jobId && row[2] == desc;
  }

  function LoadedRows(rows: seq<seq<string>>): (loaded: seq<LoadedRow>)
    requires forall i :: 0 <= i < |rows| ==> LoadableRow(rows[i])
    ensures |loaded| == |rows| && forall i :: 0 <= i < |rows| ==> loaded[i] == RowAsLoaded(rows[i])
  {
    seq(|rows|, i requires 0 <= i < |rows| => RowAsLoaded(rows[i]))
  }

  /** A joined row of storable fields is a single non-empty line. */
  lemma SplitAvoidingJoin(row: seq<string>)
    requires 3 <= |row| <= 4 && forall f :: f in row ==> Storable(f)
    ensures NonBlank(Join(row, "\t")) && Avoids(Join(row, "\t"), {'\n', '\r'})
  {
    forall k | 0 <= k < |row| ensures Avoids(row[k], {'\n', '\r'}) {
      assert row[k] in row && Storable(row[k]);
    }
    JoinAvoids(row, {'\n', '\r'});
    assert Join(row, "\t") == row[0] + "\t" + Join(row[1..], "\t");
    assert Join(row, "\t")[|row[0]|] == '\t';
  }

  /** A loadable row is written as one line that loads back as the row. */
  lemma LoadableRowLine(row: seq<string>)
    requires LoadableRow(row)
    ensures |row| > 0 && NonBlank(Join(row, "\t")) && Avoids(Join(row, "\t"), {'\n', '\r'})
    ensures LoadLine(Join(row, "\t")) == Success(RowAsLoaded(row))
  {
    WrittenLineLoads(row);
    SplitAvoidingJoin(row);
  }

  /**
   A tracker extended by written rows loads as the rows it held before, followed by one row per
   written line with the same fields (a three-field legacy line with its experiment description
   filled in as not found).
   */
  lemma AppendedTrackerLoads(tracker: string, rows: seq<seq<string>>)
    requires EndsLine(tracker) && LoadCsv(tracker).Success?
    requires forall i :: 0 <= i < |rows| ==> LoadableRow(rows[i])
    ensures LoadCsv(tracker + FormatRows(rows)) == Success(LoadCsv(tracker).value + LoadedRows(rows))
  {
    var lines := RowTexts(rows);
    var loaded := LoadedRows(rows);
    forall i | 0 <= i < |rows|
      ensures |rows[i]| > 0 && NonBlank(Join(rows[i], "\t")) && Avoids(Join(rows[i], "\t"), {'\n', '\r'})
      ensures LoadLine(lines[i]) == Success(loaded[i])
    {
      LoadableRowLine(rows[i]);
    }
    AppendedRowsLoad(tracker, rows);
    assert DataLines(tracker + FormatRows(rows)) == DataLines(tracker) + lines;
    LoadLinesEach(lines, loaded);
    LoadLinesConcat(DataLines(tracker), lines);
    assert LoadCsv(tracker + FormatRows(rows)) == LoadLines(DataLines(tracker) + lines);
  }

  /** `Exp ID` ordering used by `sort_values(by=["Exp ID"], ascending=False)`. */
  predicate Descending(rows: seq<LoadedRow>) {
    forall i, j :: 0 <= i < j < |rows| ==> rows[i].expId >= rows[j].expId
  }

  function Insert(row: LoadedRow, rows: seq<LoadedRow>): (r: seq<LoadedRow>)
    requires Descending(rows)
    ensures |r| == |rows| + 1 && (r[0] == row || (|rows| > 0 && r[0] == rows[0]))
    ensures Descending(r) && multiset(r) == multiset(rows) + multiset{row}
    decreases |rows|
  {
    if |rows| == 0 || rows[0].expId <= row.expId then [row] + rows
    else
      var rest := Insert(row, rows[1..]);
      assert rows == [rows[0]] + rows[1..];
      assert rows[0].expId >= rest[0].expId;
      [rows[0]] + rest
  }

  /** The rows ordered by `Exp ID`, largest first; rows with equal IDs are left in one fixed order. */
  function SortByExpId(rows: seq<LoadedRow>): (r: seq<LoadedRow>)
    ensures Descending(r) && multiset(r) == multiset(rows)
    decreases |rows|
  {
    if |rows| == 0 then []
    else
      assert rows == [rows[0]] + rows[1..];
      Insert(rows[0], SortByExpId(rows[1..]))
  }

  /** pandas' `df.head(n)`: the first `n` rows, or all but the last `-n` rows when `n` is negative. */
  function Head<T>(rows: seq<T>, n: int): (r: seq<T>)
    ensures 0 <= n ==> |r| == (if n < |rows| then n else |rows|)
    ensures n < 0 ==> |r| == (if -n < |rows| then |rows| + n else 0)
    ensures r == rows[..|r|]
  {
    if 0 <= n then (if n < |rows| then rows[..n] else rows)
    else if -n < |rows| then rows[..|rows| + n] else []
  }

  /** `exp_id` used as a condition: `None` and `0` are falsy. */
  predicate TruthyExpId(expId: Option<int>) {
    expId.Some? && expId.value != 0
  }

  /**
   `df[df["Exp ID"] == exp_id] if exp_id else df`: with a truthy `exp_id`, every copy of every row
   of that experiment and nothing else, in the tracker's order.
   */
  function Chosen(rows: seq<LoadedRow>, expId: Option<int>): (r: seq<LoadedRow>)
    ensures IsSubsequence(r, rows)
    ensures TruthyExpId(expId) ==>
              forall x :: multiset(r)[x] == if x.expId == expId.value then multiset(rows)[x] else 0
    ensures !TruthyExpId(expId) ==> r == rows
  {
    if TruthyExpId(expId) then
      var keep := (x: LoadedRow) => x.expId == expId.value;
      FilterSpec(rows, keep);
      Filter(rows, keep)
    else
      SubsequenceRefl(rows);
      rows
  }

  /** The rows `prepare_job_states_df` shows, before their states are looked up. */
  function SelectRows(rows: seq<LoadedRow>, maxRows: int, expId: Option<int>): (r: seq<LoadedRow>)
    ensures Descending(r)
    ensures multiset(r) <= multiset(rows)
    ensures TruthyExpId(expId) ==> forall x :: x in r ==> x.expId == expId.value
  {
    var chosen := Chosen(rows, expId);
    var sorted := SortByExpId(chosen);
    var shown := if maxRows != -1 then Head(sorted, maxRows) else sorted;
    assert shown == sorted[..|shown|];
    SortedPrefix(sorted, |shown|);
    ChosenRows(rows, expId);
    shown
  }

  /** The chosen rows are drawn from the tracker's rows, and belong to the experiment asked for. */
  lemma ChosenRows(rows: seq<LoadedRow>, expId: Option<int>)
    ensures multiset(Chosen(rows, expId)) <= multiset(rows)
    ensures TruthyExpId(expId) ==> forall x :: x in multiset(Chosen(rows, expId)) ==> x.expId == expId.value
  {
  }

  /** `Job ID` mapped through `load_job_states`, row by row, stopping at the first failure. */
  function StatesOf(rows: seq<LoadedRow>, paths: seq<string>, squeueLines: seq<string>,
                    read: string -> seq<string>): (r: Result<seq<InferredState>, InferenceError>)
    ensures r.Success? ==> |r.value| == |rows|
    ensures r.Success? ==> forall i :: 0 <= i < |rows| ==>
              LoadJobState(Current, rows[i].jobId, paths, squeueLines, read) == Success(r.value[i])
    ensures r.Failure? ==> exists i :: 0 <= i < |rows| && LoadJobState(Current, rows[i].jobId, paths, squeueLines, read).Failure?
    decreases |rows|
  {
    if |rows| == 0 then Success([])
    else
      var state := (row: LoadedRow) => LoadJobState(Current, row.jobId, paths, squeueLines, read);
      match state(rows[0])
      case Failure(e) => Failure(e)
      case Success(first) =>
        match StatesOf(rows[1..], paths, squeueLines, read)
        case Failure(e) =>
          ExistsFromTail((row: LoadedRow) => state(row).Failure?, rows);
          Failure(e)
        case Success(rest) =>
          PointwiseCons(state, (s: InferredState) => Success(s), rows, first, rest);
          Success([first] + rest)
  }

  /** A row of the job table: the tracker row with its inferred state. */
  datatype JobRow = JobRow(row: LoadedRow, state: InferredState)

  /** `JTExp.prepare_job_states_df` over the loaded tracker rows. */
  function PrepareJobStates(rows: seq<LoadedRow>, maxRows: int, expId: Option<int>, paths: seq<string>,
                            squeueLines: seq<string>, read: string -> seq<string>): (r: Result<seq<JobRow>, InferenceError>)
    ensures r.Failure? <==> exists i :: 0 <= i < |SelectRows(rows, maxRows, expId)| &&
                              LoadJobState(Current, SelectRows(rows, maxRows, expId)[i].jobId, paths, squeueLines, read).Failure?
    ensures r.Success? ==> |r.value| == |SelectRows(rows, maxRows, expId)|
  {
    var shown := SelectRows(rows, maxRows, expId);
    var states :- StatesOf(shown, paths, squeueLines, read);
    Success(seq(|shown|, i requires 0 <= i < |shown| => JobRow(shown[i], states[i])))
  }

  /**
   The selection from the chosen rows: ordered by `Exp ID`, largest first; all of them when
   `max_rows` is -1, else `head(max_rows)` of them, so that every chosen row left out has an
   `Exp ID` no larger than any row shown.
   */
  lemma SelectRowsSpec(rows: seq<LoadedRow>, maxRows: int, expId: Option<int>)
    ensures var shown, chosen := SelectRows(rows, maxRows, expId), Chosen(rows, expId);
            && Descending(shown)
            && multiset(shown) <= multiset(chosen)
            && (maxRows == -1 ==> multiset(shown) == multiset(chosen))
            && (maxRows >= 0 ==> |shown| == if maxRows < |chosen| then maxRows else |chosen|)
            && (maxRows < -1 ==> |shown| == if -maxRows < |chosen| then |chosen| + maxRows else 0)
            && forall x, y :: x in shown && y in multiset(chosen) - multiset(shown) ==> y.expId <= x.expId
  {
    var chosen := Chosen(rows, expId);
    var sorted := SortByExpId(chosen);
    var shown := SelectRows(rows, maxRows, expId);
    assert |sorted| == |chosen| by {
      assert |multiset(sorted)| == |multiset(chosen)|;
    }
    assert shown == sorted[..|shown|];
    SortedPrefix(sorted, |shown|);
  }

  /**
   A prefix of rows in descending order is in descending order, is drawn from those rows, and no
   row after it has a larger `Exp ID` than a row in it.
   */
  lemma SortedPrefix(sorted: seq<LoadedRow>, n: nat)
    requires Descending(sorted) && n <= |sorted|
    ensures Descending(sorted[..n]) && multiset(sorted[..n]) <= multiset(sorted)
    ensures forall x, y :: x in sorted[..n] && y in multiset(sorted) - multiset(sorted[..n]) ==> y.expId <= x.expId
  {
    PrefixAboveRest(sorted, n);
    var rest := multiset(sorted) - multiset(sorted[..n]);
    assert multiset(sorted[..n]) <= multiset(sorted) && rest == multiset(sorted[n..]) by {
      assert sorted == sorted[..n] + sorted[n..];
    }
    forall x, y | x in sorted[..n] && y in rest ensures y.expId <= x.expId {
      assert y in sorted[n..];
    }
  }

  lemma PrefixAboveRest(sorted: seq<LoadedRow>, n: nat)
    requires Descending(sorted) && n <= |sorted|
    ensures forall x, y :: x in sorted[..n] && y in sorted[n..] ==> y.expId <= x.expId
  {
    forall x, y | x in sorted[..n] && y in sorted[n..] ensures y.expId <= x.expId {
      var i :| 0 <= i < n && sorted[..n][i] == x;
      var j :| 0 <= j < |sorted| - n && sorted[n..][j] == y;
      assert sorted[i] == x && sorted[n + j] == y;
    }
  }

  /** Each shown row carries the state `load_job_states` infers from its job ID. */
  lemma PreparedRowsCarryTheirState(rows: seq<LoadedRow>, maxRows: int, expId: Option<int>, paths: seq<string>,
                                    squeueLines: seq<string>, read: string -> seq<string>)
    requires PrepareJobStates(rows, maxRows, expId, paths, squeueLines, read).Success?
    ensures var table := PrepareJobStates(rows, maxRows, expId, paths, squeueLines, read).value;
            var shown := SelectRows(rows, maxRows, expId);
            |table| == |shown|
            && forall i :: 0 <= i < |table| ==>
                 (table[i].row == shown[i]
                  && LoadJobState(Current, shown[i].jobId, paths, squeueLines, read) == Success(table[i].state))
  {
  }
}

=== FILE: umiacs.dfy ===
/**
 The site profiles of submititnow/umiacs/handlers.py: each handler lays the caller's slurm
 parameters over a small dict of defaults (`{**defaults, **slurm_params}`), so the caller wins.
 */
module Umiacs {
  import opened Wrappers
  import opened PyValues
  import opened OrderedMaps

  /** `{**defaults, **params}`: every key of either, the caller's value where both have one. */
  function Merge(defaults: SlurmParams, params: SlurmParams): (r: SlurmParams)
    ensures r.Keys == defaults.Keys + params.Keys
    ensures forall k :: k in params ==> r[k] == params[k]
    ensures forall k :: k in defaults && k !in params ==> r[k] == defaults[k]
  {
    defaults + params
  }

  const ClipDefaults: SlurmParams :=
    map["slurm_account" := Str("clip"), "slurm_partition" := Str("clip")]

  const ScavengerDefaults: SlurmParams :=
    map["slurm_account" := Str("scavenger"), "slurm_partition" := Str("scavenger"), "slurm_qos" := Str("scavenger")]

  const CmlZhouDefaults: SlurmParams :=
    map["slurm_account" := Str("cml-zhou"), "slurm_partition" := Str("cml-dpart")]

  const CmlDefaults: SlurmParams :=
    map["slurm_account" := Str("cml"), "slurm_partition" := Str("cml-dpart")]

  const CmlScavengerDefaults: SlurmParams :=
    map["slurm_account" := Str("cml-scavenger"), "slurm_partition" := Str("cml-scavenger"),
        "slurm_qos" := Str("cml-scavenger")]

  // Each handler: the caller's keys and the profile's, the caller's value wherever it gave one.

  function ClipProfileHandler(params: SlurmParams): (r: SlurmParams)
    ensures r.Keys == params.Keys + {"slurm_account", "slurm_partition"}
    ensures forall k :: k in params ==> r[k] == params[k]
    ensures "slurm_account" !in params ==> r["slurm_account"] == Str("clip")
    ensures "slurm_partition" !in params ==> r["slurm_partition"] == Str("clip")
  {
    Merge(ClipDefaults, params)
  }

  function ScavengerProfileHandler(params: SlurmParams): (r: SlurmParams)
    ensures r.Keys == params.Keys + {"slurm_account", "slurm_partition", "slurm_qos"}
    ensures forall k :: k in params ==> r[k] == params[k]
    ensures "slurm_account" !in params ==> r["slurm_account"] == Str("scavenger")
    ensures "slurm_partition" !in params ==> r["slurm_partition"] == Str("scavenger")
    ensures "slurm_qos" !in params ==> r["slurm_qos"] == Str("scavenger")
  {
    Merge(ScavengerDefaults, params)
  }

  function CmlZhouProfileHandler(params: SlurmParams): (r: SlurmParams)
    ensures r.Keys == params.Keys + {"slurm_account", "slurm_partition"}
    ensures forall k :: k in params ==> r[k] == params[k]
    ensures "slurm_account" !in params ==> r["slurm_account"] == Str("cml-zhou")
    ensures "slurm_partition" !in params ==> r["slurm_partition"] == Str("cml-dpart")
  {
    Merge(CmlZhouDefaults, params)
  }

  function CmlProfileHandler(params: SlurmParams): (r: SlurmParams)
    ensures r.Keys == params.Keys + {"slurm_account", "slurm_partition"}
    ensures forall k :: k in params ==> r[k] == params[k]
    ensures "slurm_account" !in params ==> r["slurm_account"] == Str("cml")
    ensures "slurm_partition" !in params ==> r["slurm_partition"] == Str("cml-dpart")
  {
    Merge(CmlDefaults, params)
  }

  function CmlScavengerProfileHandler(params: SlurmParams): (r: SlurmParams)
    ensures r.Keys == params.Keys + {"slurm_account", "slurm_partition", "slurm_qos"}
    ensures forall k :: k in params ==> r[k] == params[k]
    ensures "slurm_account" !in params ==> r["slurm_account"] == Str("cml-scavenger")
    ensures "slurm_partition" !in params ==> r["slurm_partition"] == Str("cml-scavenger")
    ensures "slurm_qos" !in params ==> r["slurm_qos"] == Str("cml-scavenger")
  {
    Merge(CmlScavengerDefaults, params)
  }

  /** The `profile_handlers` registry, in its declaration order. */
  const ProfileHandlers: OrderedMap<string, SlurmParams -> SlurmParams> :=
    [("clip", ClipProfileHandler), ("scavenger", ScavengerProfileHandler), ("cml", CmlProfileHandler),
     ("cml-zhou", CmlZhouProfileHandler), ("cml-scavenger", CmlScavengerProfileHandler)]

  /** The defaults each registered profile lays under the caller's parameters. */
  function DefaultsOf(profile: string): Option<SlurmParams> {
    if profile == "clip" then Some(ClipDefaults)
    else if profile == "scavenger" then Some(ScavengerDefaults)
    else if profile == "cml" then Some(CmlDefaults)
    else if profile == "cml-zhou" then Some(CmlZhouDefaults)
    else if profile == "cml-scavenger" then Some(CmlScavengerDefaults)
    else None
  }

  /**
   The registry holds exactly the five profile names, each once, and the handler under each name
   merges that profile's defaults.
   */
  lemma RegistryProfiles(profile: string, params: SlurmParams)
    ensures Keys(ProfileHandlers) == ["clip", "scavenger", "cml", "cml-zhou", "cml-scavenger"]
    ensures DistinctKeys(ProfileHandlers)
    ensures Get(ProfileHandlers, profile).Some? <==> DefaultsOf(profile).Some?
    ensures Get(ProfileHandlers, profile).Some? ==>
              Get(ProfileHandlers, profile).value(params) == Merge(DefaultsOf(profile).value, params)
  {
    RegistryNames();
    if DefaultsOf(profile).Some? {
      RegisteredHandler(profile, params);
    } else {
      assert profile !in Keys(ProfileHandlers);
    }
  }

  lemma RegisteredHandler(profile: string, params: SlurmParams)
    requires DefaultsOf(profile).Some?
    ensures Get(ProfileHandlers, profile).Some?
    ensures Get(ProfileHandlers, profile).value(params) == Merge(DefaultsOf(profile).value, params)
  {
    RegistryNames();
    if profile == "clip" {
      RegisteredAs(0, profile, ClipProfileHandler, ClipDefaults, params);
    } else if profile == "scavenger" {
      RegisteredAs(1, profile, ScavengerProfileHandler, ScavengerDefaults, params);
    } else if profile == "cml" {
      RegisteredAs(2, profile, CmlProfileHandler, CmlDefaults, params);
    } else if profile == "cml-zhou" {
      RegisteredAs(3, profile, CmlZhouProfileHandler, CmlZhouDefaults, params);
    } else {
      RegisteredAs(4, profile, CmlScavengerProfileHandler, CmlScavengerDefaults, params);
    }
  }

  lemma RegisteredAs(i: nat, profile: string, h: SlurmParams -> SlurmParams, defaults: SlurmParams, params: SlurmParams)
    requires i < |ProfileHandlers| && ProfileHandlers[i] == (profile, h) && DistinctKeys(ProfileHandlers)
    requires h(params) == Merge(defaults, params)
    ensures Get(ProfileHandlers, profile) == Some(h) && h(params) == Merge(defaults, params)
  {
    RegisteredAt(i, profile);
  }

  lemma RegistryNames()
    ensures Keys(ProfileHandlers) == ["clip", "scavenger", "cml", "cml-zhou", "cml-scavenger"]
    ensures DistinctKeys(ProfileHandlers)
  {
    assert Keys(ProfileHandlers) == ["clip", "scavenger", "cml", "cml-zhou", "cml-scavenger"];
  }

  lemma RegisteredAt(i: nat, profile: string)
    requires i < |ProfileHandlers| && ProfileHandlers[i].0 == profile
    requires DistinctKeys(ProfileHandlers)
    ensures Get(ProfileHandlers, profile) == Some(ProfileHandlers[i].1)
  {
    GetAt(ProfileHandlers, i);
  }

  /** Merging the same defaults twice changes nothing, so every handler is idempotent. */
  lemma MergeIdempotent(defaults: SlurmParams, params: SlurmParams)
    ensures Merge(defaults, Merge(defaults, params)) == Merge(defaults, params)
  {
    var once := Merge(defaults, params);
    var twice := Merge(defaults, once);
    assert twice.Keys == once.Keys;
    forall k | k in twice ensures twice[k] == once[k] {
    }
  }

  /**
   Any registered handler keeps every value the caller gave, `None` included; its keys are its
   defaults' keys and the caller's; a default shows up exactly where the caller gave no value;
   and applying it twice is applying it once.
   */
  lemma HandlerSpec(profile: string, params: SlurmParams)
    requires Get(ProfileHandlers, profile).Some?
    ensures var h := Get(ProfileHandlers, profile).value;
            var defaults := DefaultsOf(profile).value;
            && (forall k :: k in params ==> h(params)[k] == params[k])
            && h(params).Keys == defaults.Keys + params.Keys
            && (forall k :: k in defaults && k !in params ==> h(params)[k] == defaults[k])
            && h(h(params)) == h(params)
  {
    RegistryProfiles(profile, params);
    var h := Get(ProfileHandlers, profile).value;
    var defaults := DefaultsOf(profile).value;
    RegistryProfiles(profile, h(params));
    MergeIdempotent(defaults, params);
  }

  /**
   The scavenger profiles set account, partition and qos; clip, cml and cml-zhou set only account
   and partition.
   */
  lemma ProfileKeys()
    ensures ScavengerDefaults.Keys == CmlScavengerDefaults.Keys == {"slurm_account", "slurm_partition", "slurm_qos"}
    ensures ClipDefaults.Keys == CmlDefaults.Keys == CmlZhouDefaults.Keys == {"slurm_account", "slurm_partition"}
  {
  }

  /** cml and cml-zhou send jobs to the same partition under different accounts. */
  lemma CmlProfilesShareThePartition(params: SlurmParams)
    requires "slurm_account" !in params && "slurm_partition" !in params
    ensures CmlProfileHandler(params)["slurm_partition"] == CmlZhouProfileHandler(params)["slurm_partition"] == Str("cml-dpart")
    ensures CmlProfileHandler(params)["slurm_account"] != CmlZhouProfileHandler(params)["slurm_account"]
  {
  }
}

=== FILE: wrappers.dfy ===
/** Failure-carrying result types used throughout the model. */
module Wrappers {

  /** A value that may be absent: Python's `None` where the source returns or looks up an optional. */
  datatype Option<+T> = None | Some(value: T)

  /** The outcome of an operation that the source lets raise: `Failure` carries the exception kind. */
  datatype Result<+T, +E> = Success(value: T) | Failure(error: E) {

    predicate IsFailure() {
      Failure?
    }

    function PropagateFailure<U>(): Result<U, E>
      requires Failure?
    {
      Failure(error)
    }

    function Extract(): T
      requires Success?
    {
      value
    }
  }
}
